=== FILE: README.md ===
# Travel itinerary planner: a Dafny model of its core rules

The system is a travel itinerary planner for a small agency. Staff and
customers keep day-by-day trip tables (route, hotel, tickets, activities,
transport and the cost of each), save them to a shared trip library, and
publish trips to a community feed. A resource catalogue of countries, spots,
hotels, activities and transport lists the prices behind the tables. A
server-side planning assistant turns a chat prompt into a priced day plan. A
small administration area manages users and the audit log.

This project models the decision logic of that core as pure Dafny functions,
with the properties each one keeps stated and proved. It covers:

- **The planning assistant** (`backend/src/app/services/agent_service.py`).
  - The assessment, intent and resource stages of its graph.
  - The normalization of the plan the language model returns: city continuity from day to day, and list fields coerced to lists.
  - The price backfill from the catalogue: ids first, then names, exact then fuzzy.
  - Validation, and the conversation memory.
- **The HTTP routers.**
  - `backend/src/app/routers/resources.py`: scoping, paging, price masking for guests, row ownership, and the checks on document upload.
  - `backend/src/app/routers/admin.py`: user deletion, role changes, password resets, and the user and log listings.
- **The front end.**
  - Day-row editing, and merging the assistant's plan into the table.
  - The save dialog of the trip library, in the current version and the earlier one.
  - Catalogue visibility and editing permissions, in both versions of the resource screen.
  - The community feed.
  - The client rules of the account service.
  - The public/private split of stored lists.

Everything outside the model arrives as a parameter:

- the language model's replies;
- the database tables;
- the clock, generated ids, and confirmation dialogs.

Each module follows one source file. `Wrappers`, `Text`, `Seqs`, `AgentItems`
and `TripRows` hold the shared helpers and data types.

## Model

| member | source | states |
|---|---|---|
| Accounts.NormalizeRole | frontend/src/services/authService.ts:4-7 | only `admin` and `super_admin` pass; any other or missing role becomes `user` |
| Accounts.NormalizeRoleIdempotent | frontend/src/services/authService.ts:4-7 | normalizing a normalized role changes nothing |
| Accounts.ToUser | frontend/src/services/authService.ts:9-14 | the decoded user never carries a password, has a normalized role and falls back to the clock for a missing creation time |
| Accounts.ToUserStable | frontend/src/services/authService.ts:9-14 | decoding a user that was already decoded gives it back unchanged, whatever the clock |
| Accounts.RoleChangeRequest | frontend/src/services/authService.ts:28-37 | a request is sent exactly when an administrator changes someone else, and it only ever asks for `admin` or `user` |
| Accounts.RoleRequestAcceptedByServer | frontend/src/services/authService.ts:28-37 | every role request the client sends for an existing user is one the server's role endpoint accepts |
| Accounts.ResetRequestRefusal | frontend/src/services/authService.ts:39-47 | a non-administrator gets the refusal message without any request being sent |
| Accounts.DeleteUserResult | frontend/src/services/authService.ts:95-103 | deletion reports success only for an administrator whose request succeeded |
| Accounts.CurrentUser | frontend/src/services/authService.ts:84-93 | no token: nobody is signed in and no request is made; a request that answers: the decoded server record, token kept; a failed request: nobody is signed in and the stored token is cleared |
| AdminRouter.DeleteUser | backend/src/app/routers/admin.py:32-47 | refuses to delete oneself or an admin; deleting a missing user succeeds; only the target leaves the table |
| AdminRouter.AdminsSurviveDelete | backend/src/app/routers/admin.py:32-47 | no deletion ever removes an admin |
| AdminRouter.UpdateUserRole | backend/src/app/routers/admin.py:68-84 | one's own role, a role other than `admin` or `user`, and a missing user are refused in that order; otherwise only the target's role changes |
| AdminRouter.RoleChangeNeverGrantsSuperAdmin | backend/src/app/routers/admin.py:68-84 | a table without a super admin still has none after any role change |
| AdminRouter.ResetUserPassword | backend/src/app/routers/admin.py:87-101 | a password under 6 characters and a missing user are refused; otherwise only the target's hash changes |
| AdminRouter.SortDescending | backend/src/app/routers/admin.py:23-29 | the result is a permutation of the input ordered by descending key |
| AdminRouter.ListUsers | backend/src/app/routers/admin.py:23-29 | all users, newest first |
| AdminRouter.ListLogs | backend/src/app/routers/admin.py:50-65 | at most 200 entries, newest first, drawn from the log |
| AdminRouter.ListLogsKeepsNewest | backend/src/app/routers/admin.py:50-65 | an entry left out is no newer than any entry shown |
| AgentHeuristics.DetectIntent | backend/src/app/services/agent_service.py:51-57 | the intent is "modify" exactly when there are rows and the prompt holds a modify keyword |
| AgentHeuristics.EmptyPromptCreates | backend/src/app/services/agent_service.py:51-57 | an empty prompt always means "create" |
| AgentHeuristics.AssessQuestion | backend/src/app/services/agent_service.py:59-103 | no question is asked exactly when the model is configured and its reply needs nothing more; a missing configuration asks for it |
| AgentHeuristics.InferCountry | backend/src/app/services/agent_service.py:111-125 | a Chinese destination gives 中国; a city the catalogue lists exactly once, with a country, gives that country; a city with no row, with several rows, or with an empty country gives the destination's own base name; any other answer is a (city, country) row of the catalogue |
| AgentHeuristics.CountryColumn | backend/src/app/services/agent_service.py:118-120 | the countries the catalogue lists for that city name, one per matching row |
| AgentHeuristics.InferredNameHasNoParen | backend/src/app/services/agent_service.py:111-125 | the inferred country never contains the parenthesised part of the destination |
| AgentHeuristics.DaysForCountry | backend/src/app/services/agent_service.py:127-144 | China 3 days, East Asia 4, Southeast Asia 6, Europe, the Americas and Oceania 9, anything else 5 |
| AgentHeuristics.ChinaGetsThreeDays | backend/src/app/services/agent_service.py:111-144 | a destination naming 中国 is recommended 3 days |
| AgentHeuristics.MemoryOwnerId | backend/src/app/services/agent_service.py:257-262 | the signed-in user owns the memory, else the anonymous conversation, else nobody |
| AgentHeuristics.MemoryKey | backend/src/app/services/agent_service.py:264-265 | every memory key carries the memory prefix |
| AgentHeuristics.MemoryKeyInjective | backend/src/app/services/agent_service.py:264-265 | two conversations share a key only when they have the same id |
| AgentHeuristics.LoadMemory | backend/src/app/services/agent_service.py:267-275 | without an owner nothing is loaded |
| AgentHeuristics.SaveMemory | backend/src/app/services/agent_service.py:277-287 | without an owner nothing is stored; no row is ever removed |
| AgentHeuristics.SaveThenLoad | backend/src/app/services/agent_service.py:267-287 | a saved summary is what the next load returns |
| AgentHeuristics.SaveKeepsOtherRows | backend/src/app/services/agent_service.py:277-287 | saving touches no other owner's or conversation's row |
| AgentHeuristics.SummarizeMemory | backend/src/app/services/agent_service.py:289-306 | a failed or unconfigured summary keeps the old one |
| AgentBackfill.StripBrackets | backend/src/app/services/agent_service.py:157 | the name with characters deleted, never added or reordered; a name without brackets is unchanged; which characters go is pinned by PrefixKept, GroupDropped and UnclosedKept |
| AgentBackfill.StripBracketsLeavesNoGroup | backend/src/app/services/agent_service.py:157 | no opening bracket is followed by a closing one on the same line of the result |
| AgentBackfill.PrefixKept | backend/src/app/services/agent_service.py:157 | text before the first opening bracket is kept as it stands, and the rest is stripped on its own |
| AgentBackfill.GroupDropped | backend/src/app/services/agent_service.py:157 | an opening bracket, text without a closing bracket or newline, and a closing bracket are removed together, and the scan goes on after them |
| AgentBackfill.UnclosedKept | backend/src/app/services/agent_service.py:157 | an opening bracket with no closing one later on its line is kept |
| AgentBackfill.KeepOnly | backend/src/app/services/agent_service.py:158 | exactly the kept characters (digits, Latin letters, CJK ideographs) of the name, in order; a name of kept characters is unchanged |
| AgentBackfill.NormalizeName | backend/src/app/services/agent_service.py:153-159 | the normal form holds only kept characters and no upper-case letter, and is never longer than the name; its content is pinned by NormalizeNameSplit and NormalizeNameGroup |
| AgentBackfill.NormalizeNameSplit | backend/src/app/services/agent_service.py:153-159 | text before the first opening bracket contributes its kept characters, lower-cased, in front of the rest's normal form |
| AgentBackfill.NormalizeNameGroup | backend/src/app/services/agent_service.py:153-159 | a one-line bracketed group contributes nothing: only the text before it and the rest after it are normalized |
| AgentBackfill.NormalizeNameDropsGroup | backend/src/app/services/agent_service.py:153-159 | a normal-form name followed by one bracketed group normalizes back to that name |
| AgentBackfill.BracketedHotelExample | backend/src/app/services/agent_service.py:153-159 | `北京饭店（东城）` normalizes to `北京饭店` |
| AgentBackfill.NormalizeNameIdempotent | backend/src/app/services/agent_service.py:153-159 | normalizing a normalized name changes nothing |
| AgentBackfill.NormalizeNameOfWord | backend/src/app/services/agent_service.py:153-159 | a lower-case word is its own normal form |
| AgentBackfill.PriceOrNone | backend/src/app/services/agent_service.py:161-170 | only a positive price survives |
| AgentBackfill.IdMap | backend/src/app/services/agent_service.py:172-178 | the id table holds only positive prices |
| AgentBackfill.IdMapLastWins | backend/src/app/services/agent_service.py:172-178 | of rows sharing an id, the last one's price is kept |
| AgentBackfill.Put | backend/src/app/services/agent_service.py:172-184 | a name table assignment keeps insertion order and makes the new value the key's value |
| AgentBackfill.PutAllLastWins | backend/src/app/services/agent_service.py:172-184 | the last assignment to a key gives that key its value, whatever came earlier |
| AgentBackfill.NameTableLastWins | backend/src/app/services/agent_service.py:172-178 | the last row with a normalized name gives that name its price, whatever rows share it earlier |
| AgentBackfill.TransportEntries | backend/src/app/services/agent_service.py:179-184 | the transport table holds only positive prices |
| AgentBackfill.BuildCatalog | backend/src/app/services/agent_service.py:172-184 | every table of the catalogue holds only positive prices |
| AgentBackfill.FuzzyIndex | backend/src/app/services/agent_service.py:186-196 | the first entry, in insertion order, whose key contains the name or is contained in it |
| AgentBackfill.LookupPrice | backend/src/app/services/agent_service.py:186-196 | an empty name has no price; an exact match wins over a fuzzy one; any price found is an entry's, and positive |
| AgentBackfill.IdSumPositive | backend/src/app/services/agent_service.py:207-222 | the id total is positive exactly when some id has a price |
| AgentBackfill.LineTotal | backend/src/app/services/agent_service.py:207-238 | the id total when it is non-zero, else the name total when names are given, else 0 |
| AgentBackfill.LineTotalNonNegative | backend/src/app/services/agent_service.py:207-238 | a line total is never negative |
| AgentBackfill.OrOne | backend/src/app/services/agent_service.py:150-151 | a missing or zero count becomes 1 |
| AgentBackfill.HotelPrice | backend/src/app/services/agent_service.py:199-206 | the hotel id's price, else the price looked up by hotel name |
| AgentBackfill.FillHotel | backend/src/app/services/agent_service.py:199-206 | an open hotel cost becomes price times rooms; a set cost is kept |
| AgentBackfill.FillCost | backend/src/app/services/agent_service.py:207-254 | only an open cost is filled, and only with a positive total |
| AgentBackfill.BackfillItem | backend/src/app/services/agent_service.py:198-254 | only the four costs change, each as its own rule says |
| AgentBackfill.BackfillWritesPositive | backend/src/app/services/agent_service.py:198-254 | every cost the backfill writes is positive |
| AgentBackfill.Backfill | backend/src/app/services/agent_service.py:147-255 | one day out for each day in |
| AgentBackfill.BackfillKeepsPricedDay | backend/src/app/services/agent_service.py:198-254 | a day whose costs are all set is left alone |
| AgentBackfill.BackfillIdempotent | backend/src/app/services/agent_service.py:198-254 | backfilling a backfilled day changes nothing |
| AgentBackfill.HotelByIdExample | backend/src/app/services/agent_service.py:199-206 | a 500 hotel found by id for 2 rooms costs 1000 |
| AgentBackfill.LookupZooExample | backend/src/app/services/agent_service.py:186-196 | a fuzzy name match finds the first entry containing the name |
| AgentBackfill.TicketsByNameExample | backend/src/app/services/agent_service.py:207-222 | tickets of 400 and 500 found by name for 2 people cost 1800 |
| AgentNormalize.CoerceNames | backend/src/app/services/agent_service.py:344-351 | a name field always becomes a list; a string splits into trimmed non-empty names without separators |
| AgentNormalize.CoerceNamesSingle | backend/src/app/services/agent_service.py:344-351 | a single clean name becomes a one-element list |
| AgentNormalize.CoerceNamesOfJoin | backend/src/app/services/agent_service.py:344-351 | clean names joined with commas split back into the same names |
| AgentNormalize.CoerceTransport | backend/src/app/services/agent_service.py:344-351 | only a missing transport field becomes the empty list |
| AgentNormalize.StartCity | backend/src/app/services/agent_service.py:320-330 | the previous day's end city wins, then the given start, then the route's first city |
| AgentNormalize.EndCity | backend/src/app/services/agent_service.py:320-334 | the given end city wins, else the route's last city |
| AgentNormalize.ResolveCities | backend/src/app/services/agent_service.py:320-334 | the resolved start and end follow those rules and the route agrees with them |
| AgentNormalize.ResolveCitiesFixed | backend/src/app/services/agent_service.py:320-334 | resolving resolved cities again changes nothing |
| AgentNormalize.NormalizeListsFixed | backend/src/app/services/agent_service.py:344-351 | coercing coerced list fields again changes nothing |
| AgentNormalize.NormalizeItem | backend/src/app/services/agent_service.py:311-353 | a normalized day has its number, keeps its ids and costs, starts where the previous day ended, and hands on its own end city |
| AgentNormalize.NormalizeItemFixed | backend/src/app/services/agent_service.py:311-353 | normalizing a normalized day again changes nothing |
| AgentNormalize.NormalizeKeepsDicts | backend/src/app/services/agent_service.py:308-353 | the output has one normalized day per dictionary of the input, in order, numbered by position when unnumbered |
| AgentNormalize.Continuity | backend/src/app/services/agent_service.py:326-341 | each day starts in the last end city seen before it |
| AgentNormalize.NormalizeIdempotent | backend/src/app/services/agent_service.py:308-353 | normalizing a normalized itinerary again changes nothing |
| AgentPipeline.DefaultDaysMessage | backend/src/app/services/agent_service.py:528-531 | the follow-up names the recommended number of days |
| AgentPipeline.Assess | backend/src/app/services/agent_service.py:520-534 | a question without destinations ends the run with it as the error; with destinations it becomes the follow-up; a missing day count gets the default-days follow-up |
| AgentPipeline.Detect | backend/src/app/services/agent_service.py:536-541 | a blocked state passes unchanged; otherwise only the intent is set |
| AgentPipeline.Fetch | backend/src/app/services/agent_service.py:543-550 | a blocked state passes unchanged; otherwise only the resources are set |
| AgentPipeline.Generate | backend/src/app/services/agent_service.py:552-614 | a structured or decoded reply becomes the itinerary, a JSON scalar is stored as it is, an undecodable reply gives the parse error, a failed call its message |
| AgentPipeline.Validate | backend/src/app/services/agent_service.py:616-627 | an error passes through; a non-iterable itinerary raises; an accepted plan is normalized and backfilled; a rejected one gives the validation error and no itinerary |
| AgentPipeline.RouteAfterAssess | backend/src/app/services/agent_service.py:636-637 | the graph ends exactly when more information is needed |
| AgentPipeline.ErrorPassesThrough | backend/src/app/services/agent_service.py:536-627 | once a stage has set an error, no later stage changes the state |
| AgentPipeline.AssessBlocksWithError | backend/src/app/services/agent_service.py:520-534 | the assessment never stops the run without an error message |
| AgentPipeline.QuestionWithoutDestinationEnds | backend/src/app/services/agent_service.py:520-534 | a question with no destination ends the run with that question and no plan |
| AgentPipeline.QuestionWithDestinationFollowsUp | backend/src/app/services/agent_service.py:520-534 | with a destination the question becomes a follow-up and planning goes on; the run raises only on a scalar plan |
| AgentPipeline.DefaultDaysFollowUp | backend/src/app/services/agent_service.py:520-534 | a request without a day count is answered with the recommended-days follow-up |
| AgentPipeline.UndecodableReplyFails | backend/src/app/services/agent_service.py:608-614 | an undecodable reply ends the run with the parse error and no plan |
| AgentPipeline.ScalarReplyRaises | backend/src/app/services/agent_service.py:608-627 | a reply that decodes to a JSON null, number or boolean makes the run raise |
| AgentPipeline.ProceedsWithDestination | backend/src/app/services/agent_service.py:636-637 | with a destination the graph always goes on to intent detection |
| AgentPipeline.RejectedPlanFails | backend/src/app/services/agent_service.py:616-627 | a plan the schema rejects ends the run with the validation error and no plan |
| AgentPipeline.AcceptedPlanIsNormalized | backend/src/app/services/agent_service.py:616-627 | every day of a successful plan is a normalized day record |
| AgentPipeline.GenerateItinerary | backend/src/app/services/agent_service.py:500-668 | without a model the not-configured error; a run that raises gives no answer and saves nothing; otherwise the run's plan, error and follow-up |
| AgentPipeline.RunSavesSummary | backend/src/app/services/agent_service.py:659-662 | after a finished run with a conversation id, the new summary is what memory returns |
| ResourcesRouter.ScopeFilter | backend/src/app/routers/resources.py:93-102 | exactly the rows in the caller's scope |
| ResourcesRouter.ScopeFilterKeepsOrder | backend/src/app/routers/resources.py:93-102 | the scoped rows keep the order of the table |
| ResourcesRouter.ScopeFilterCounts | backend/src/app/routers/resources.py:93-102 | a row in scope appears as often as in the table, any other row not at all |
| ResourcesRouter.GuestSeesPublicOnly | backend/src/app/routers/resources.py:93-102 | a guest sees public rows only, and nothing in the private scope |
| ResourcesRouter.UserScopes | backend/src/app/routers/resources.py:93-102 | "all" is own plus public, "private" own, "public" public |
| ResourcesRouter.Paginate | backend/src/app/routers/resources.py:90-91 | a page is the rows from offset `(page-1)*size` in order, `size` of them or as many as remain; a negative offset or size is refused |
| ResourcesRouter.PagesDisjoint | backend/src/app/routers/resources.py:90-91 | two different pages of a listing without repeats share no row |
| ResourcesRouter.MaskRow | backend/src/app/routers/resources.py:105-111 | only the price columns are blanked, and only those the row's kind has |
| ResourcesRouter.MaskKeepsAveragePrice | backend/src/app/routers/resources.py:105-111 | a restaurant's average price is shown to guests unchanged |
| ResourcesRouter.MaskIdempotent | backend/src/app/routers/resources.py:105-111 | masking twice is masking once |
| ResourcesRouter.ListRows | backend/src/app/routers/resources.py:264-290 | exactly the requested page of the caller's scoped rows, with prices masked for a guest |
| ResourcesRouter.CreateRow | backend/src/app/routers/resources.py:292-308 | a row is public exactly when an `admin` asks for it, and then belongs to `system` |
| ResourcesRouter.UpdateRow | backend/src/app/routers/resources.py:310-328 | a missing row, a non-owner and a non-admin changing visibility are refused; only the row's given columns and flags change |
| ResourcesRouter.DeleteRow | backend/src/app/routers/resources.py:330-340 | a missing row is a no-op, a non-owner is refused, an owner removes exactly that row |
| ResourcesRouter.SuperAdminHasNoOverride | backend/src/app/routers/resources.py:330-340 | a super admin cannot delete someone else's row |
| ResourcesRouter.MagicExamples | backend/src/app/routers/resources.py:72-87 | a PDF needs its signature, a ZIP signature passes for DOCX, a text file needs a first byte |
| ResourcesRouter.NoSignatureAcceptsAny | backend/src/app/routers/resources.py:72-87 | an extension without a signature accepts any non-empty file |
| ResourcesRouter.MimeByExt | backend/src/app/routers/resources.py:54-69 | an allowed extension, and only one, has a content type, and that type is allowed |
| ResourcesRouter.Suffix | backend/src/app/routers/resources.py:672 | the suffix is a dot and a dot-free tail of the name, never the whole name |
| ResourcesRouter.PathName | backend/src/app/routers/resources.py:671 | the file name has no `/` and is not `.` |
| ResourcesRouter.PlainFileName | backend/src/app/routers/resources.py:671 | a plain file name is kept |
| ResourcesRouter.DirectoriesDropped | backend/src/app/routers/resources.py:671 | directories in front of the file name are dropped |
| ResourcesRouter.TrailingSlashIgnored | backend/src/app/routers/resources.py:671 | a trailing `/` does not change the name |
| ResourcesRouter.PathNameIdempotent | backend/src/app/routers/resources.py:671 | taking the name of a name changes nothing |
| ResourcesRouter.ContentTypeError | backend/src/app/routers/resources.py:675-685 | the content type is refused exactly when it is not acceptable for the extension, with one of the two messages |
| ResourcesRouter.ContentTypeLattice | backend/src/app/routers/resources.py:675-685 | accepted are: none, octet-stream, the extension's own type, and `text/*` for text extensions |
| ResourcesRouter.TextPlainPdfRejected | backend/src/app/routers/resources.py:675-685 | `text/plain` is refused for a PDF |
| ResourcesRouter.ReadUpload | backend/src/app/routers/resources.py:689-708 | an empty file, a signature mismatch and more than 20 MB are refused in that order; otherwise the size is returned |
| ResourcesRouter.UploadGate | backend/src/app/routers/resources.py:664-685 | only a super admin passes; the form is accepted exactly when every pre-read check holds |
| ResourcesRouter.CheckForm | backend/src/app/routers/resources.py:664-708 | an upload is stored exactly when every check holds, with its extension, size and stored type |
| ResourcesRouter.CheckUpload | backend/src/app/routers/resources.py:653-708 | the stored extension is the lower-cased suffix of the file's name |
| ResourcesRouter.ContentText | backend/src/app/routers/resources.py:715-726 | text is kept for `text/*` or `.txt`/`.md`, cut to 5000 characters, as a prefix of the file |
| CatalogAccess.PermissionsOf | frontend/src/components/ResourceDatabase.tsx:111-136 | an editor also sees and sees real prices; others' public rows are not editable by non-supers; the earlier screen lets an admin see real prices without editing |
| CatalogAccess.MaskPrice | components/ResourceDatabase.tsx:102-107 | the real price when it may be seen, else the same length with all but the first character starred |
| CatalogAccess.NormalizeOwner | frontend/src/components/ResourceDatabase.tsx:67-71 | the camel-case owner and visibility win over the snake-case ones; nothing else changes |
| CatalogAccess.NormalizeOwnerIdempotent | frontend/src/components/ResourceDatabase.tsx:67-71 | normalizing twice is normalizing once |
| CatalogAccess.MergeBy | frontend/src/components/ResourceDatabase.tsx:84-97 | the items of other groups, in order, followed by the new group |
| CatalogAccess.MergeByReplacesGroup | frontend/src/components/ResourceDatabase.tsx:84-97 | the group becomes exactly the new items and the others are untouched |
| CatalogAccess.MergeByTwice | frontend/src/components/ResourceDatabase.tsx:84-97 | merging the same group twice is merging once |
| CatalogAccess.UpdateItem | frontend/src/components/ResourceDatabase.tsx:501-507 | an editable item takes the changes and a new timestamp; others, and all items when not editable, are unchanged |
| CatalogAccess.UpdateTwice | frontend/src/components/ResourceDatabase.tsx:501-507 | the same update applied twice is applied once |
| CatalogAccess.DeleteItem | frontend/src/components/ResourceDatabase.tsx:547-555 | a confirmed delete of an editable item removes exactly the items with that id |
| CatalogAccess.DeleteTwice | frontend/src/components/ResourceDatabase.tsx:547-555 | after a delete the id is gone and deleting again changes nothing |
| CatalogAccess.TogglePublic | frontend/src/components/ResourceDatabase.tsx:432-437 | a super user flips the visibility of the item with that id; nothing else changes |
| CatalogAccess.TogglePublicTwice | frontend/src/components/ResourceDatabase.tsx:432-437 | toggling twice restores the list |
| CatalogAccess.TogglePublicEarlier | components/ResourceDatabase.tsx:146-155 | the earlier screen flips visibility from the clicked item and stamps the time |
| CatalogAccess.HandleCreate | components/ResourceDatabase.tsx:223-235 | a new item is appended with the fresh id, public exactly when a super admin creates it |
| CatalogAccess.CreatorCanEdit | components/ResourceDatabase.tsx:223-235 | the creator can see and edit what they created |
| Community.ToggleLike | components/Community.tsx:58-78 | a like is withdrawn if given and added otherwise; the count moves by one; other likers are unchanged |
| Community.LikeTwiceRestores | components/Community.tsx:58-78 | liking twice restores the count and the likers |
| Community.HandleLike | components/Community.tsx:58-78 | only the liked post changes in the feed |
| Community.OpenPost | components/Community.tsx:80-93 | opening a post adds one view to it and to nothing else |
| Community.SubmitComment | components/Community.tsx:95-117 | a blank comment or no open post does nothing; otherwise the trimmed comment is appended and the post's count rises by one |
| Community.DeletePost | components/Community.tsx:138-149 | a confirmed delete removes exactly the posts with that id |
| Community.EditableTags | components/Community.tsx:151-158 | only predefined tags are offered for editing, in order |
| Community.SaveEdit | components/Community.tsx:160-182 | blank fields are refused; the post gets the new text and, once each, the trip's destinations and the chosen tags |
| Community.SaveEditKeepsCleanTags | components/Community.tsx:160-182 | re-saving an unchanged, already clean post gives it back |
| Community.FilteredPosts | components/Community.tsx:184-190 | exactly the posts matching every filter, in order |
| Community.EmptyFiltersShowAll | components/Community.tsx:184-190 | with no filter set the whole feed shows |
| LegacyPlanner.MaskNumber | App.tsx:146-151 | a masked number keeps its length and first character and stars the rest |
| LegacyPlanner.UnmaskedReadsBack | App.tsx:146-151 | an unmasked number reads back as itself |
| LegacyPlanner.MaskHidesDigits | App.tsx:146-151 | numbers of the same length and first character mask alike |
| LegacyPlanner.FallbackRoomType | App.tsx:827-832 | without catalogue rooms: single, double, triple or family by occupancy; for two the preferred type is kept exactly when it names 大 or 双, else 标准间 |
| LegacyPlanner.RoomTypesOf | App.tsx:826-833 | exactly the room types the catalogue lists for that hotel |
| LegacyPlanner.FirstBest | App.tsx:851-852 | the first room type of the highest score, as a stable sort leaves it |
| LegacyPlanner.BestRoomType | App.tsx:825-853 | a room type of that hotel with the highest score, or the fallback when the hotel has none |
| LegacyPlanner.SplitParty | App.tsx:856-867 | rooms of base and base+1 occupancy that together seat everybody |
| LegacyPlanner.HotelDetails | App.tsx:856-880 | no lines without a hotel; otherwise the lines for the visible hotels, with the party split into rooms, the best room type for each room size, and prices from the catalogue |
| LegacyPlanner.HotelLines | App.tsx:868-880 | one or two lines whose quantities add up to the rooms; two exactly when there are larger rooms whose type differs from the smaller ones', else one line of all rooms |
| LegacyPlanner.VisibleHotels | App.tsx:867 | exactly the catalogue hotels the user may see |
| LegacyPlanner.FirstOffer | App.tsx:878 | the first catalogue entry for that hotel and room type, or none when no entry matches |
| LegacyPlanner.PriceLine | App.tsx:877-880 | a line takes the price and source flag of the first matching entry, or stays at 0 and not public when none matches |
| LegacyPlanner.CeilDiv | App.tsx:918-922 | the least number of groups of `b` that hold `a` |
| LegacyPlanner.EffectiveCounts | App.tsx:918-922 | the assistant's counts win; rooms default to half the people, rounded up, when only people are given |
| LegacyPlanner.VehicleQuantity | App.tsx:970 | enough vehicles to seat everybody, one when the seat count is unknown |
| LegacyPlanner.ResizeForPlan | App.tsx:933-938 | the table grows to the plan's last day, shrinks only on a full replacement, and keeps its rows |
| LegacyPlanner.MaxOf | App.tsx:933 | the largest day of the plan, one of its days |
| LegacyPlanner.SaveTarget | App.tsx:726-745 | a clash with another user's trip is refused exactly when the user may not overwrite it; without a clash the edited trip's id is reused |
| LegacyPlanner.ConfirmSave | App.tsx:722-760 | the saved trip is last, and every other trip with a different id is kept |
| LegacyPlanner.OverwriteTakesTripOver | App.tsx:728-759 | a super administrator who saves under another user's trip name, and confirms, takes the trip over under its id |
| LegacyPlanner.RenamedSaveDropsOthersTrip | App.tsx:741-757 | a plain user's save under a new name drops the trip under `activeTripId`, even when it now belongs to another user who may not be overwritten |
| LegacyPlanner.ConfirmSaveChecked | App.tsx:722-760 | with the owner check, no trip the user may not overwrite is lost |
| LegacyPlanner.OwnedTarget | frontend/src/App.tsx:774-785 | the save goes to a fresh id unless the user may overwrite the trip under the target id |
| Planner.ExtractCities | frontend/src/App.tsx:372-375 | the route's cities are trimmed, non-empty and free of separators |
| Planner.ExtractJoinRoute | frontend/src/App.tsx:372-375 | a route joined with `-` from clean city names reads back as the same names |
| Planner.OpenRouteNamesOneCity | frontend/src/App.tsx:372-375 | an open route `city-` names the one city |
| Planner.RouteUpdate | frontend/src/App.tsx:486-501 | the row takes the new route; an empty next-day route starts at the new route's last city |
| Planner.RouteUpdateLinksNextDay | frontend/src/App.tsx:486-501 | the next day then starts at exactly that city |
| Planner.RowCosts | frontend/src/App.tsx:393-411 | a manual cost is kept; every other cost is the total of its detail lines |
| Planner.RowCostsIdempotent | frontend/src/App.tsx:393-411 | recomputing costs changes nothing |
| Planner.AddedTicketRaisesCost | frontend/src/App.tsx:393-411 | a new ticket line raises the ticket cost by price times quantity |
| TripRows.EmptyRow | frontend/src/App.tsx:349-370 | a fresh day has its number, no route and zero costs |
| TripRows.RemoveAt | frontend/src/App.tsx:473-484 | removing one position shifts the later ones down |
| Planner.Reindex | frontend/src/App.tsx:473-484 | each day keeps its content and takes its position's number and date |
| Planner.DeleteRow | frontend/src/App.tsx:473-484 | refused with one day or none left, out of range or unconfirmed; otherwise that day goes and every other day, in order, is renumbered and redated from its new position |
| Planner.Move | frontend/src/App.tsx:1041-1042 | the moved row lands at the destination and the others keep their order |
| Planner.MovePermutes | frontend/src/App.tsx:1041-1042 | a move is a permutation |
| Planner.MoveBack | frontend/src/App.tsx:1041-1042 | moving back undoes the move |
| Planner.DragEnd | frontend/src/App.tsx:1032-1051 | a drag moves the row and renumbers the days; a drop outside or in place changes nothing |
| Planner.NormalizeList | frontend/src/App.tsx:875-879 | a missing list is empty, a list is kept, a string splits into trimmed non-empty names |
| Planner.NormalizeListOfJoin | frontend/src/App.tsx:875-879 | clean names joined with commas split back into the same names |
| Planner.NumberOfString | frontend/src/App.tsx:881-885 | blank text is the number 0 |
| Planner.ToNumber | frontend/src/App.tsx:881-885 | missing, null, non-finite and empty values are no number; numbers are kept |
| Planner.ToNumberOfDecimal | frontend/src/App.tsx:881-885 | every integer sent as its decimal text reads back as itself |
| Planner.NegativeDecimal | frontend/src/App.tsx:881-885 | a minus sign before digits gives the negated value |
| Planner.ParseRadixTen | frontend/src/App.tsx:881-885 | the prefix reader agrees with the decimal reader on decimal digits |
| Planner.PrefixedNumber | frontend/src/App.tsx:881-885 | `0x`, `0o` and `0b` literals read in base 16, 8 and 2 |
| Planner.SignedPrefixedNumber | frontend/src/App.tsx:881-885 | a signed prefixed literal is no number |
| Planner.HexSixteen | frontend/src/App.tsx:881-885 | the text `0x10` reads as 16 |
| Planner.Resize | frontend/src/App.tsx:939-947 | the table takes the plan's length, growing with empty days and keeping its rows |
| Planner.MaxDay | frontend/src/App.tsx:940 | the largest day number of the plan, a day that occurs in it |
| Planner.MergedRoute | frontend/src/App.tsx:953-961 | the plan's route wins, then its start-end pair, else the row's route |
| Planner.MergeCosts | frontend/src/App.tsx:973-977 | each cost the plan gives as a number replaces the row's |
| Planner.MergeItem | frontend/src/App.tsx:949-987 | a planned day takes the plan's route, hotel, tickets, activities, description and costs, and clears the four manual flags |
| Planner.MergeItems | frontend/src/App.tsx:949-987 | days the plan does not target are unchanged |
| Planner.MergedCostsComeFromItems | frontend/src/App.tsx:949-987 | every merged cost is the row's own or one the plan sent for that day |
| Planner.ApplyPlan | frontend/src/App.tsx:939-987 | an empty plan changes nothing; the table takes the last day's length; untargeted days are unchanged |
| Planner.PlanDaysFit | frontend/src/App.tsx:939-987 | every planned day with a positive number lands inside the new table |
| TripRows.FindName | frontend/src/App.tsx:766 | the first trip with that name |
| TripRows.Replace | frontend/src/App.tsx:797 | the new trip is last and the only one with its id; the trips before it are the other trips in library order |
| TripRows.FindId | frontend/src/App.tsx:767 | the first trip with that id, or none when no trip has it |
| TripRows.WithoutId | frontend/src/App.tsx:797 | every trip without that id and nothing else, in library order and with duplicates kept: as many trips as the library has minus those with the id |
| TripRows.CountId | frontend/src/App.tsx:797 | how many trips carry the id: none exactly when no trip has it |
| Planner.SaveTarget | frontend/src/App.tsx:774-785 | the save goes to a fresh id or to a trip the user may modify |
| Planner.ConfirmSave | frontend/src/App.tsx:763-803 | the saved trip is last and unique by id, with the trimmed name, the rows and the super flag; no other trip is lost |
| Planner.SaveRefusesOthersTrip | frontend/src/App.tsx:774-781 | a plain user can never overwrite another user's same-named trip |
| Planner.SaveEditedTrip | frontend/src/App.tsx:775-777 | the edited trip is saved in place when the user may modify it, else copied on consent, with no overwrite question |
| StorageService.MergeLists | frontend/src/services/storageService.ts:37-48 | ids are unique, the private entry wins, entries without an id are all kept, and nothing new appears |
| StorageService.MergeListsPrivateFirst | frontend/src/services/storageService.ts:37-48 | private entries come first, then public ones with new ids |
| StorageService.MergeListsPrivateWins | frontend/src/services/storageService.ts:37-48 | an id present privately shows its private entry |
| StorageService.SplitByPublic | frontend/src/services/storageService.ts:50-58 | a partition of the items into public and private, each in order |
| StorageService.SaveScoped | frontend/src/services/storageService.ts:199-208 | an administrator writes the private and the public part; anyone else writes everything privately |
| StorageService.SaveThenMerge | frontend/src/services/storageService.ts:37-58 | an administrator's save, merged back, has the same ids |
| Text.Trim | frontend/src/App.tsx:764 | the text with only whitespace cut from both ends, and none left at either end; empty exactly for blank text |
| Text.TrimIdempotent | frontend/src/App.tsx:764 | trimming twice is trimming once |
| Text.ToLowerAppend | backend/src/app/services/agent_service.py:158 | lower-casing distributes over concatenation |
| Text.ToLower | backend/src/app/services/agent_service.py:158 | every ASCII capital becomes its small letter and every other character stays |
| Text.Split | frontend/src/App.tsx:374 | at least one part, none holding a separator |
| Text.SplitLosesOnlySeparators | frontend/src/App.tsx:372-375 | splitting loses exactly the separators |
| Text.PartsOfJoin | frontend/src/App.tsx:374 | clean pieces joined with a separator split back into the same pieces |
| Seqs.Dedupe | components/Community.tsx:165 | each element once, in first-seen order |

## Left out

- Money is integer throughout. Python floats and JavaScript numbers with fractions are not modelled.
- The language model is a parameter: its replies to the assessment, planning and summary prompts. So are the database tables, the clock, generated ids and confirmation dialogs.
- The planning prompt's text, the fenced-JSON stripping before decoding, and JSON decoding itself are not modelled. A reply is given already decoded.
- AgentItems: JSON fields of a day item are modelled as missing, a string, or a list of strings. Numbers, booleans or nested objects where the source expects text are not.
- AgentPipeline.Validate: the plan is stored as the normalized, backfilled days themselves. The pydantic `model_dump` of the validated items is taken to give them back unchanged, and schema coercions are not modelled.
- AgentPipeline.GenerateItinerary: a run that raises is `None`. The exception's type and the HTTP 500 it becomes are not modelled. Without a configured model the source returns only the `error` key, with no `itinerary` or `follow_up` key; the model's answer record carries an empty itinerary and no follow-up in their place.
- Text.Trim: whitespace is the set that Python's `str.strip()` and JavaScript's `trim()` both remove. Python also strips `\x1c`-`\x1f` and `\x85`, and JavaScript U+FEFF; neither is modelled.
- Text.ToLower: lowers ASCII letters only. Other scripts' case mappings are not modelled.
- Planner.ToNumber: decimal fractions and exponent forms such as `1e3` are no number here. `Number` accepts them, but numbers in this model are integers. Numeric separators such as `1_000` are no number in either.
- ResourcesRouter.Paginate: a negative offset or limit is refused. What the database does with one differs: SQLite treats it as no offset or no limit, while PostgreSQL raises an error.
- ResourcesRouter.PathName: splits on `/` only, as `PurePosixPath` does; Windows separators are not modelled.
- ResourcesRouter.ListRows: the name search, city and country filters, and the ordering of the list endpoints are left to the caller. The rows arrive already searched and ordered.
- Document listing and download, and the text decoding behind `content_text`, are not modelled. ContentText takes the decoded text as a parameter.
- Audit logging and request logging are not modelled.
- The admin checks of resources.py count only the role `admin`. The model keeps this, as the code does; `super_admin` gets no override there.
- Registration, login, logout and the audit log fetch of the account service are server calls with no client rule beyond sending the request; they are not modelled.
- Accounts.ToUser: a `createdAt` that is not a number counts as missing. A `NaN` date parse is not modelled.
- LegacyPlanner: the car pool choice and the car's catalogue price are not modelled, nor is per-day regeneration of hotel details in the merge. Vehicle quantity, the hotel split and the hotel prices are.
- Planner.ApplyPlan: `deriveDestinations` and the settings update after a merge are not modelled. UUIDs of new detail lines are left out.
- AgentHeuristics.InferCountry: the only database failure modelled is a city name stored more than once. Other errors the bare `except` swallows, such as a lost connection, are not modelled; they too give the base name.
- LegacyPlanner.OwnedTarget: states the owner check on the target only. The id chosen for a new trip is a parameter.
- Community.Matches: every post is taken to carry its trip's destinations, as the feed's data type declares. A post without them makes the country filter throw in the source, and that case is not modelled.
- The React state updates, notifications and rendering of every screen are not modelled.

## Findings

| source | as written | input that shows it | evidently intended | confidence | as-written member | corrected member |
|---|---|---|---|---|---|---|
| App.tsx:741-757 | With no trip under the new name, the save keeps `activeTripId` and replaces the trip under it, without checking who owns it | Plain user bob saves trip `t`, so `activeTripId` is `t.id` (App.tsx:759). A super administrator saves over `t` by name and confirms, so `t.id` now holds their trip (LegacyPlanner.OverwriteTakesTripOver). Bob reopens the library, which reloads the shared list (App.tsx:358-359), and saves under a new name: the administrator's trip is dropped and bob's takes its id | The trip under `activeTripId` is replaced only when the user may overwrite it, and otherwise the save goes to a fresh id, as the later version's owner check does (frontend/src/App.tsx:767-781) | not executed | LegacyPlanner.RenamedSaveDropsOthersTrip | LegacyPlanner.ConfirmSaveChecked |

In this version, opening a trip clears `activeTripId` (App.tsx:780) and logging out reloads the page (App.tsx:1119). So `activeTripId` only ever holds an id the session itself saved, and the trip under it changes hands only through another user's overwrite. The later version sets `activeTripId` when a trip is opened (frontend/src/App.tsx:820), and it checks the owner of that trip before saving over it.

=== FILE: accounts.dfy ===
/** The signed-in user as the front end sees it, and the client-side rules
    of frontend/src/services/authService.ts: role normalisation, the
    decoding of a user record from the server, and the operator checks made
    before an administration request is sent. The server calls themselves
    are parameters: the record a request returned, or `None` for a failed
    request. */
module Accounts {
  import opened Wrappers
  import AdminRouter

  const Admin := "admin"
  const SuperAdmin := "super_admin"
  const Member := "user"

  /** The front end's `User`. */
  datatype Account = Account(username: string, password: string, role: string, createdAt: int)

  /** `normalizeRole`: the two administrator roles pass, anything else
      (missing included) is a plain member. */
  function NormalizeRole(role: Option<string>): (r: string)
    ensures r in {Admin, SuperAdmin, Member}
    ensures role == Some(Admin) || role == Some(SuperAdmin) ==> r == role.value
    ensures role != Some(Admin) && role != Some(SuperAdmin) ==> r == Member
  {
    if role == Some(Admin) || role == Some(SuperAdmin) then role.value else Member
  }

  lemma NormalizeRoleIdempotent(role: Option<string>)
    ensures NormalizeRole(Some(NormalizeRole(role))) == NormalizeRole(role)
  {
  }

  /** A user record as the server sends it: each field may be missing, and
      `createdAt` is `None` unless it is a number. */
  datatype RawUser = RawUser(username: Option<string>, role: Option<string>, createdAt: Option<int>)

  /** `toUser`: `now` is the clock reading used when the record carries no
      creation time. The password never reaches the client. */
  function ToUser(raw: RawUser, now: int): (u: Account)
    ensures u.password == ""
    ensures u.username == (if raw.username.Some? then raw.username.value else "")
    ensures u.role == NormalizeRole(raw.role)
    ensures u.createdAt == (if raw.createdAt.Some? then raw.createdAt.value else now)
  {
    Account(raw.username.GetOr(""), "", NormalizeRole(raw.role), raw.createdAt.GetOr(now))
  }

  /** The record a decoded user would be sent back as. */
  function AsRaw(u: Account): RawUser {
    RawUser(Some(u.username), Some(u.role), Some(u.createdAt))
  }

  /** Decoding is stable: a decoded user sent back decodes to itself,
      whatever the clock says. */
  lemma ToUserStable(raw: RawUser, now: int, later: int)
    ensures ToUser(AsRaw(ToUser(raw, now)), later) == ToUser(raw, now)
  {
    NormalizeRoleIdempotent(raw.role);
  }

  predicate IsAdministrator(operator: Account) {
    operator.role == Admin || operator.role == SuperAdmin
  }

  /** `updateUserRole` before the request: the role it would send, or
      `None` when it refuses without asking the server. */
  function RoleChangeRequest(target: string, newRole: string, operator: Account): (r: Option<string>)
    ensures r.None? <==> !IsAdministrator(operator) || target == operator.username
    ensures r.Some? ==> r.value in {Admin, Member}
    ensures r.Some? ==> (r.value == Admin <==> newRole == Admin)
  {
    if !IsAdministrator(operator) || target == operator.username then None
    else Some(if newRole == Admin then Admin else Member)
  }

  const NotAllowed := "权限不足"

  /** `adminResetPassword` before the request: the refusal, if any. */
  function ResetRequestRefusal(operator: Account): (r: Option<(bool, string)>)
    ensures r.None? <==> IsAdministrator(operator)
    ensures r.Some? ==> r.value == (false, NotAllowed)
  {
    if IsAdministrator(operator) then None else Some((false, NotAllowed))
  }

  /** `deleteUser`: `reply` is the server's `success` flag, `None` when the
      request failed. */
  function DeleteUserResult(operator: Account, reply: Option<bool>): (r: bool)
    ensures r ==> IsAdministrator(operator)
    ensures IsAdministrator(operator) ==> (r <==> reply == Some(true))
  {
    IsAdministrator(operator) && reply == Some(true)
  }

  /** What `getCurrentUser` leaves behind: the user it resolved, and the
      stored token afterwards. */
  datatype SessionCheck = SessionCheck(user: Option<Account>, token: Option<string>)

  /** `getCurrentUser`: no token means no request and no user; a request that
      fails (`reply` is `None`) also clears the stored token. */
  function CurrentUser(token: Option<string>, reply: Option<RawUser>, now: int): (r: SessionCheck)
    ensures token.None? || token == Some("") ==> r.user.None? && r.token == token
    ensures token.Some? && token.value != "" && reply.Some? ==>
              r.user == Some(ToUser(reply.value, now)) && r.token == token
    ensures token.Some? && token.value != "" && reply.None? ==> r.user.None? && r.token.None?
    ensures r.user.Some? ==> r.user.value.password == "" && r.user.value.role in {Admin, SuperAdmin, Member}
  {
    if token.None? || token.value == "" then SessionCheck(None, token)
    else if reply.None? then SessionCheck(None, None)
    else SessionCheck(Some(ToUser(reply.value, now)), token)
  }

  /** A role change the client lets through is one the server accepts for
      an existing user, when the server knows the operator by the same name. */
  lemma RoleRequestAcceptedByServer(users: AdminRouter.Users, target: string, newRole: string, operator: Account)
    requires RoleChangeRequest(target, newRole, operator).Some?
    requires target in users
    ensures AdminRouter.UpdateUserRole(users, target, operator.username, RoleChangeRequest(target, newRole, operator).value).Ok?
  {
  }
}

=== FILE: admin_router.dfy ===
/** The user administration rules of backend/src/app/routers/admin.py. The
    caller of every endpoint has already passed the router's admin guard;
    the user table is a map from username to the stored record, and
    password hashing is a parameter. */
module AdminRouter {
  import opened Wrappers

  datatype Account = Account(role: string, passwordHash: string, createdAt: int)

  type Users = map<string, Account>

  /** The reply of `delete_user`: `success`, and a message when refused. */
  datatype DeleteReply = DeleteReply(success: bool, message: Option<string>)

  const CannotDeleteSelf := "不能删除当前管理员"
  const CannotDeleteAdmin := "不能删除管理员"

  /** `delete_user`: nobody deletes themselves or an `admin`; deleting a
      missing user succeeds. */
  function DeleteUser(users: Users, target: string, me: string): (r: (DeleteReply, Users))
    ensures target == me ==> r == (DeleteReply(false, Some(CannotDeleteSelf)), users)
    ensures target != me && target !in users ==> r == (DeleteReply(true, None), users)
    ensures target != me && target in users && users[target].role == "admin"
            ==> r == (DeleteReply(false, Some(CannotDeleteAdmin)), users)
    ensures r.0.success <==> target != me && (target !in users || users[target].role != "admin")
    ensures r.1.Keys == if r.0.success then users.Keys - {target} else users.Keys
    ensures forall u :: u in r.1 ==> u in users && r.1[u] == users[u]
  {
    if target == me then (DeleteReply(false, Some(CannotDeleteSelf)), users)
    else if target !in users then (DeleteReply(true, None), users)
    else if users[target].role == "admin" then (DeleteReply(false, Some(CannotDeleteAdmin)), users)
    else (DeleteReply(true, None), users - {target})
  }

  /** An administrator survives every deletion request. */
  lemma AdminsSurviveDelete(users: Users, target: string, me: string, u: string)
    requires u in users && users[u].role == "admin"
    ensures u in DeleteUser(users, target, me).1
  {
  }

  datatype HttpError = BadRequest(detail: string) | NotFound(detail: string)

  const CannotChangeOwnRole := "不能修改当前管理员角色"
  const IllegalRole := "非法角色"
  const NoSuchUser := "用户不存在"
  const PasswordTooShort := "密码长度至少6位"

  /** `update_user_role`: the checks run in the order self, role, existence. */
  function UpdateUserRole(users: Users, target: string, me: string, role: string): (r: Result<Users, HttpError>)
    ensures target == me ==> r == Err(BadRequest(CannotChangeOwnRole))
    ensures target != me && role !in {"admin", "user"} ==> r == Err(BadRequest(IllegalRole))
    ensures target != me && role in {"admin", "user"} && target !in users ==> r == Err(NotFound(NoSuchUser))
    ensures r.Ok? <==> target != me && role in {"admin", "user"} && target in users
    ensures r.Ok? ==> r.value.Keys == users.Keys && r.value[target] == users[target].(role := role)
    ensures r.Ok? ==> forall u :: u in users && u != target ==> r.value[u] == users[u]
  {
    if target == me then Err(BadRequest(CannotChangeOwnRole))
    else if role !in {"admin", "user"} then Err(BadRequest(IllegalRole))
    else if target !in users then Err(NotFound(NoSuchUser))
    else Ok(users[target := users[target].(role := role)])
  }

  /** No role change can create a `super_admin`. */
  lemma RoleChangeNeverGrantsSuperAdmin(users: Users, target: string, me: string, role: string)
    requires UpdateUserRole(users, target, me, role).Ok?
    requires forall u :: u in users ==> users[u].role != "super_admin"
    ensures forall u :: u in UpdateUserRole(users, target, me, role).value ==>
              UpdateUserRole(users, target, me, role).value[u].role != "super_admin"
  {
  }

  const MinPasswordLength := 6

  /** `reset_user_password`: `hash` is the hashing function. */
  function ResetUserPassword(users: Users, target: string, password: string, hash: string -> string): (r: Result<Users, HttpError>)
    ensures |password| < MinPasswordLength ==> r == Err(BadRequest(PasswordTooShort))
    ensures |password| >= MinPasswordLength && target !in users ==> r == Err(NotFound(NoSuchUser))
    ensures r.Ok? <==> |password| >= MinPasswordLength && target in users
    ensures r.Ok? ==> r.value.Keys == users.Keys && r.value[target] == users[target].(passwordHash := hash(password))
    ensures r.Ok? ==> forall u :: u in users && u != target ==> r.value[u] == users[u]
  {
    if password == [] || |password| < MinPasswordLength then Err(BadRequest(PasswordTooShort))
    else if target !in users then Err(NotFound(NoSuchUser))
    else Ok(users[target := users[target].(passwordHash := hash(password))])
  }

  // ---------------------------------------------------------------------
  // Newest-first listings
  // ---------------------------------------------------------------------

  /** `xs` is ordered by `key`, largest first. */
  predicate Descending<T>(xs: seq<T>, key: T -> int) {
    forall i, j :: 0 <= i < j < |xs| ==> key(xs[i]) >= key(xs[j])
  }

  /** Inserts `x` into a descending list after the entries with a key at
      least as large (so equal keys keep their order). */
  function Insert<T>(x: T, xs: seq<T>, key: T -> int): (r: seq<T>)
    requires Descending(xs, key)
    ensures Descending(r, key)
    ensures multiset(r) == multiset(xs) + multiset{x}
    ensures |r| == |xs| + 1
  {
    if xs == [] then [x]
    else if key(xs[0]) >= key(x) then
      var rest := Insert(x, xs[1..], key);
      assert multiset(xs) == multiset{xs[0]} + multiset(xs[1..]) by {
        assert xs == [xs[0]] + xs[1..];
      }
      InsertAfter(xs[0], rest, x, xs[1..], key);
      [xs[0]] + rest
    else [x] + xs
  }

  /** Putting `h` in front of an insertion result keeps it descending. */
  lemma InsertAfter<T>(h: T, rest: seq<T>, x: T, tail: seq<T>, key: T -> int)
    requires Descending(rest, key) && multiset(rest) == multiset(tail) + multiset{x}
    requires key(h) >= key(x) && forall j :: 0 <= j < |tail| ==> key(h) >= key(tail[j])
    ensures Descending([h] + rest, key)
  {
    forall j | 0 <= j < |rest| ensures key(h) >= key(rest[j]) {
      assert rest[j] in multiset(rest);
      if rest[j] != x {
        assert rest[j] in multiset(tail);
        var k :| 0 <= k < |tail| && tail[k] == rest[j];
      }
    }
  }

  /** Sorts by `key`, largest first (`ORDER BY … DESC`). */
  function SortDescending<T>(xs: seq<T>, key: T -> int): (r: seq<T>)
    ensures Descending(r, key)
    ensures multiset(r) == multiset(xs)
    ensures |r| == |xs|
  {
    if xs == [] then []
    else
      assert xs == [xs[0]] + xs[1..];
      Insert(xs[0], SortDescending(xs[1..], key), key)
  }

  /** A row of `list_users`. */
  datatype UserOut = UserOut(username: string, role: string, createdAt: int)

  /** `list_users`: every user, newest first. `rows` is the table in any order. */
  function ListUsers(rows: seq<UserOut>): (r: seq<UserOut>)
    ensures multiset(r) == multiset(rows)
    ensures forall i, j :: 0 <= i < j < |r| ==> r[i].createdAt >= r[j].createdAt
  {
    SortDescending(rows, (u: UserOut) => u.createdAt)
  }

  datatype LogEntry = LogEntry(id: int, timestamp: int, username: string, action: string, details: string)

  const LogLimit := 200

  /** `list_logs`: the 200 newest audit entries, newest first. */
  function ListLogs(logs: seq<LogEntry>): (r: seq<LogEntry>)
    ensures |r| == if |logs| < LogLimit then |logs| else LogLimit
    ensures forall i, j :: 0 <= i < j < |r| ==> r[i].timestamp >= r[j].timestamp
    ensures multiset(r) <= multiset(logs)
  {
    var s := SortDescending(logs, (l: LogEntry) => l.timestamp);
    var n := if |s| <= LogLimit then |s| else LogLimit;
    assert s == s[..n] + s[n..];
    s[..n]
  }

  /** No entry left out of the log listing is newer than one shown. */
  lemma ListLogsKeepsNewest(logs: seq<LogEntry>, e: LogEntry)
    requires e in multiset(logs) && e !in multiset(ListLogs(logs))
    ensures forall i :: 0 <= i < |ListLogs(logs)| ==> ListLogs(logs)[i].timestamp >= e.timestamp
  {
    var key := (l: LogEntry) => l.timestamp;
    var s := SortDescending(logs, key);
    var n := if |s| <= LogLimit then |s| else LogLimit;
    assert ListLogs(logs) == s[..n];
    PrefixHoldsLargest(s, n, key, e);
  }

  /** In a descending sequence, an element outside the first `n` is no
      larger than any of them. */
  lemma PrefixHoldsLargest<T>(s: seq<T>, n: nat, key: T -> int, e: T)
    requires n <= |s| && Descending(s, key)
    requires e in multiset(s) && e !in multiset(s[..n])
    ensures forall i :: 0 <= i < n ==> key(s[i]) >= key(e)
  {
    assert e in s;
    var k :| 0 <= k < |s| && s[k] == e;
  }
}

=== FILE: agent_backfill.dfy ===
/** `_backfill_prices` of backend/src/app/services/agent_service.py: costs
    the model left empty (`None` or `0`) are filled from the catalog, by
    resource id first and by a normalized, fuzzily matched name second.
    The catalog scans are parameters (sequences of rows); prices are
    integers. */
module AgentBackfill {
  import opened Wrappers
  import opened Text
  import opened AgentItems
  import opened Seqs

  // ---------------------------------------------------------------------
  // Name normalization (`normalize_name`)
  // ---------------------------------------------------------------------

  /** The opening brackets `[\(（\[【]`. */
  predicate IsOpener(c: char) {
    c == '(' || c == '（' || c == '[' || c == '【'
  }

  /** The closing brackets `[\)）\]】]`. */
  predicate IsCloser(c: char) {
    c == ')' || c == '）' || c == ']' || c == '】'
  }

  /** Where the lazy `.*?` of the bracket pattern stops: the first closing
      bracket, provided no newline comes before it (`.` does not match a
      newline). */
  function CloserIndex(s: string): (r: Option<nat>)
    ensures r.Some? ==> r.value < |s| && IsCloser(s[r.value])
    ensures r.Some? ==> forall k :: 0 <= k < r.value ==> !IsCloser(s[k]) && s[k] != '\n'
    ensures r.None? ==> forall k :: 0 <= k < |s| && IsCloser(s[k]) ==> exists j :: 0 <= j < k && s[j] == '\n'
  {
    if s == [] then None
    else if IsCloser(s[0]) then Some(0)
    else if s[0] == '\n' then None
    else
      var r := CloserIndex(s[1..]);
      if r.Some? then Some(r.value + 1)
      else
        assert forall k :: 1 <= k < |s| && IsCloser(s[k]) ==> exists j :: 0 <= j < k && s[j] == '\n' by {
          forall k | 1 <= k < |s| && IsCloser(s[k])
            ensures exists j :: 0 <= j < k && s[j] == '\n'
          {
            assert IsCloser(s[1..][k - 1]);
            var j :| 0 <= j < k - 1 && s[1..][j] == '\n';
            assert s[j + 1] == '\n';
          }
        }
        None
  }

  /** `re.sub(r'[\(（\[【].*?[\)）\]】]', '', s)`: every bracketed group,
      from an opening bracket to the first closing bracket on the same
      line, is removed, scanning left to right. Only characters are
      removed, and the rest keep their order. */
  function StripBrackets(s: string): (r: string)
    ensures |r| <= |s|
    ensures IsSubseq(r, s)
    ensures (forall k :: 0 <= k < |s| ==> !IsOpener(s[k])) ==> r == s
    decreases |s|
  {
    if s == [] then []
    else if IsOpener(s[0]) && CloserIndex(s[1..]).Some? then
      var tail := s[1..][CloserIndex(s[1..]).value + 1..];
      assert tail == s[|s| - |tail|..];
      var r := StripBrackets(tail);
      SubseqOfTail(r, tail, s);
      r
    else
      assert forall k :: 0 <= k < |s[1..]| ==> s[1..][k] == s[k + 1];
      var rest := StripBrackets(s[1..]);
      SubseqCons(rest, s);
      [s[0]] + rest
  }

  /** No opening bracket of `r` is followed by a closing one on the same
      line: the bracket pattern matches nowhere in `r`. */
  predicate NoBracketGroup(r: string) {
    forall a, b :: 0 <= a < b < |r| && IsOpener(r[a]) && IsCloser(r[b]) ==> exists m :: a < m < b && r[m] == '\n'
  }

  /** What `StripBrackets` leaves holds no bracketed group any more. */
  lemma {:induction false} StripBracketsLeavesNoGroup(s: string)
    ensures NoBracketGroup(StripBrackets(s))
    decreases |s|
  {
    if s == [] {
    } else if IsOpener(s[0]) && CloserIndex(s[1..]).Some? {
      StripBracketsLeavesNoGroup(s[1..][CloserIndex(s[1..]).value + 1..]);
    } else {
      StripBracketsLeavesNoGroup(s[1..]);
      if IsOpener(s[0]) {
        StripKeepsNoCloser(s[1..]);
      }
      NoGroupCons(s[0], StripBrackets(s[1..]));
    }
  }

  /** A character in front of a group-free text leaves it group-free,
      unless it opens a group the text closes on its first line. */
  lemma NoGroupCons(c: char, rest: string)
    requires NoBracketGroup(rest)
    requires IsOpener(c) ==> CloserIndex(rest).None?
    ensures NoBracketGroup([c] + rest)
  {
    var r := [c] + rest;
    forall a, b | 0 <= a < b < |r| && IsOpener(r[a]) && IsCloser(r[b])
      ensures exists m :: a < m < b && r[m] == '\n'
    {
      assert r[b] == rest[b - 1];
      if a == 0 {
        var j :| 0 <= j < b - 1 && rest[j] == '\n';
        assert r[j + 1] == '\n';
      } else {
        assert r[a] == rest[a - 1];
        var m :| a - 1 < m < b - 1 && rest[m] == '\n';
        assert r[m + 1] == '\n';
      }
    }
  }

  /** A line-broken text, whose closing brackets all come after a newline,
      stays so after the groups are stripped: newlines are never removed. */
  lemma {:induction false} StripKeepsNoCloser(x: string)
    requires CloserIndex(x).None?
    ensures CloserIndex(StripBrackets(x)).None?
    decreases |x|
  {
    if x != [] && x[0] != '\n' {
      StripKeepsNoCloser(x[1..]);
      assert StripBrackets(x) == [x[0]] + StripBrackets(x[1..]);
    } else if x != [] {
      assert StripBrackets(x) == [x[0]] + StripBrackets(x[1..]);
    }
  }

  /** Text before the first opening bracket is kept as it stands. */
  lemma {:induction false} PrefixKept(a: string, b: string)
    requires forall k :: 0 <= k < |a| ==> !IsOpener(a[k])
    ensures StripBrackets(a + b) == a + StripBrackets(b)
    decreases |a|
  {
    if a == [] {
      assert a + b == b;
    } else {
      var h, rest := a[0], a[1..];
      assert a == [h] + rest;
      AppendAssoc([h], rest, b);
      PrefixKept(rest, b);
      KeptStep(h, rest + b);
      AppendAssoc([h], rest, StripBrackets(b));
    }
  }

  /** A character that opens no group is kept, and the scan moves on. */
  lemma {:induction false} KeptStep(c: char, x: string)
    requires !IsOpener(c)
    ensures StripBrackets([c] + x) == [c] + StripBrackets(x)
  {
    assert ([c] + x)[1..] == x;
  }

  /** The first closing bracket of `g + [c] + b` is `c` when `g` holds no
      closing bracket and no newline. */
  lemma {:induction false} CloserAfter(g: string, c: char, b: string)
    requires IsCloser(c)
    requires forall k :: 0 <= k < |g| ==> !IsCloser(g[k]) && g[k] != '\n'
    ensures CloserIndex(g + [c] + b) == Some(|g|)
    decreases |g|
  {
    var s := g + [c] + b;
    if g == [] {
      assert s[0] == c;
    } else {
      assert s[0] == g[0] && s[1..] == g[1..] + [c] + b;
      CloserAfter(g[1..], c, b);
    }
  }

  /** A bracketed group on one line is removed whole, and the scan goes on
      after its closing bracket. */
  lemma {:induction false} GroupDropped(o: char, g: string, c: char, b: string)
    requires IsOpener(o) && IsCloser(c)
    requires forall k :: 0 <= k < |g| ==> !IsCloser(g[k]) && g[k] != '\n'
    ensures StripBrackets([o] + g + [c] + b) == StripBrackets(b)
  {
    var s := [o] + g + [c] + b;
    assert s[0] == o && s[1..] == g + [c] + b;
    CloserAfter(g, c, b);
    assert s[1..][|g| + 1..] == b;
  }

  /** An opening bracket with no closing one later on its line is kept. */
  lemma {:induction false} UnclosedKept(o: char, x: string)
    requires IsOpener(o) && CloserIndex(x).None?
    ensures StripBrackets([o] + x) == [o] + StripBrackets(x)
  {
    assert ([o] + x)[1..] == x;
  }

  /** The characters `[0-9a-zA-Z一-鿿]` the second substitution keeps. */
  predicate KeepChar(c: char) {
    IsDigit(c) || ('a' <= c <= 'z') || ('A' <= c <= 'Z') || ('\U{4E00}' <= c <= '\U{9FFF}')
  }

  predicate IsUpper(c: char) {
    'A' <= c <= 'Z'
  }

  /** `re.sub(r'[^0-9a-zA-Z一-鿿]+', '', s)`. */
  function KeepOnly(s: string): (r: string)
    ensures r == Filter(s, KeepChar)
    ensures forall k :: 0 <= k < |r| ==> KeepChar(r[k])
    ensures (forall k :: 0 <= k < |s| ==> KeepChar(s[k])) ==> r == s
  {
    if s == [] then []
    else
      assert forall k :: 0 <= k < |s[1..]| ==> s[1..][k] == s[k + 1];
      (if KeepChar(s[0]) then [s[0]] else []) + KeepOnly(s[1..])
  }

  /** `normalize_name`: without bracketed groups and punctuation, lower-case.
      What it returns consists of digits, lower-case ASCII letters and CJK
      ideographs only. */
  function NormalizeName(name: string): (r: string)
    ensures |r| <= |name|
    ensures forall k :: 0 <= k < |r| ==> KeepChar(r[k]) && !IsUpper(r[k])
  {
    var kept := KeepOnly(StripBrackets(name));
    var r := ToLower(kept);
    assert forall k :: 0 <= k < |r| ==> r[k] == LowerChar(kept[k]);
    r
  }

  /** A normalized name normalizes to itself: it has no bracket to remove,
      nothing to drop and nothing to lower-case. */
  lemma NormalizeNameIdempotent(name: string)
    ensures NormalizeName(NormalizeName(name)) == NormalizeName(name)
  {
    var n := NormalizeName(name);
    assert StripBrackets(n) == n;
    assert KeepOnly(n) == n;
    var r := ToLower(n);
    assert forall k :: 0 <= k < |r| ==> r[k] == n[k];
  }

  // ---------------------------------------------------------------------
  // The catalog tables
  // ---------------------------------------------------------------------

  /** `price_or_none`: a catalog price that is missing, unreadable (also
      `None` here) or not positive counts as absent. */
  function PriceOrNone(v: Option<int>): (r: Option<int>)
    ensures r.Some? <==> v.Some? && v.value > 0
    ensures r.Some? ==> r == v
  {
    if v.Some? && v.value > 0 then v else None
  }

  /** A catalog row with a price: hotels, spots and activities. */
  datatype Priced = Priced(id: string, name: string, price: Option<int>)

  /** A transport row: it is looked up by id, by service type and by car
      model, and priced by `price_low`. */
  datatype TransportRow = TransportRow(id: string, serviceType: Option<string>, carModel: Option<string>, priceLow: Option<int>)

  /** Every stored price is positive. */
  predicate PositiveValues(m: map<string, Option<int>>) {
    forall k :: k in m && m[k].Some? ==> m[k].value > 0
  }

  /** `{str(r.id): price_or_none(r.price) for r in rows}`: the last row with
      an id decides its price. */
  function IdMap(rows: seq<Priced>): (r: map<string, Option<int>>)
    ensures forall i :: 0 <= i < |rows| ==> rows[i].id in r
    ensures forall k :: k in r ==> exists i :: 0 <= i < |rows| && rows[i].id == k
    ensures PositiveValues(r)
  {
    if rows == [] then map[]
    else
      var last := rows[|rows| - 1];
      var m := IdMap(rows[..|rows| - 1]);
      assert forall i :: 0 <= i < |rows| - 1 ==> rows[..|rows| - 1][i] == rows[i];
      m[last.id := PriceOrNone(last.price)]
  }

  /** The price stored for an id is that of the last row carrying it. */
  lemma {:induction false} IdMapLastWins(rows: seq<Priced>, i: int)
    requires 0 <= i < |rows|
    requires forall j :: i < j < |rows| ==> rows[j].id != rows[i].id
    ensures IdMap(rows)[rows[i].id] == PriceOrNone(rows[i].price)
  {
    if i < |rows| - 1 {
      var init := rows[..|rows| - 1];
      assert forall j :: i < j < |init| ==> init[j] == rows[j];
      IdMapLastWins(init, i);
    }
  }

  /** A Python dictionary with string keys, in insertion order. */
  type Table = seq<(string, Option<int>)>

  /** `t[k]` when present: the first entry with key `k`. */
  function Get(t: Table, k: string): (r: Option<Option<int>>)
    ensures r.None? <==> forall i :: 0 <= i < |t| ==> t[i].0 != k
    ensures r.Some? ==> exists i :: 0 <= i < |t| && t[i] == (k, r.value)
  {
    if t == [] then None
    else if t[0].0 == k then Some(t[0].1)
    else
      var r := Get(t[1..], k);
      assert forall i :: 0 <= i < |t[1..]| ==> t[1..][i] == t[i + 1];
      r
  }

  /** `t[k] = v`: a new key goes last, an existing key keeps its place. */
  function Put(t: Table, k: string, v: Option<int>): (r: Table)
    ensures |r| == if Get(t, k).Some? then |t| else |t| + 1
    ensures forall i :: 0 <= i < |t| ==> r[i].0 == t[i].0
    ensures Get(r, k) == Some(v)
    ensures forall k2 :: k2 != k ==> Get(r, k2) == Get(t, k2)
  {
    if t == [] then [(k, v)]
    else if t[0].0 == k then [(k, v)] + t[1..]
    else
      var rest := Put(t[1..], k, v);
      assert ([t[0]] + rest)[1..] == rest;
      [t[0]] + rest
  }

  predicate PositiveTable(t: Table) {
    forall i :: 0 <= i < |t| && t[i].1.Some? ==> t[i].1.value > 0
  }

  lemma PutPositive(t: Table, k: string, v: Option<int>)
    ensures PositiveTable(t) && (v.Some? ==> v.value > 0) ==> PositiveTable(Put(t, k, v))
  {
    var r := Put(t, k, v);
    if PositiveTable(t) && (v.Some? ==> v.value > 0) {
      forall i | 0 <= i < |r| && r[i].1.Some? ensures r[i].1.value > 0 {
        PutEntry(t, k, v, i);
      }
    }
  }

  /** Every entry of `Put(t, k, v)` is an entry of `t` or the new one. */
  lemma {:induction false} PutEntry(t: Table, k: string, v: Option<int>, i: int)
    requires 0 <= i < |Put(t, k, v)|
    ensures Put(t, k, v)[i] == (k, v) || (i < |t| && Put(t, k, v)[i] == t[i])
  {
    var r := Put(t, k, v);
    if t == [] {
      assert r == [(k, v)];
    } else if t[0].0 == k {
      assert r == [(k, v)] + t[1..];
    } else {
      var rest := Put(t[1..], k, v);
      assert r == [t[0]] + rest;
      if i > 0 {
        PutEntry(t[1..], k, v, i - 1);
        assert r[i] == rest[i - 1];
      }
    }
  }

  /** The assignments `t[k] = v` of `es`, in order. */
  function PutAll(t: Table, es: Table): (r: Table)
    ensures PositiveTable(t) && PositiveTable(es) ==> PositiveTable(r)
    decreases |es|
  {
    if es == [] then t
    else
      PutPositive(t, es[0].0, es[0].1);
      PutAll(Put(t, es[0].0, es[0].1), es[1..])
  }

  /** The last assignment to a key decides its value: the entry `es[i]`
      with no later entry for the same key gives the key's value. */
  lemma {:induction false} PutAllLastWins(t: Table, es: Table, i: int)
    requires 0 <= i < |es|
    requires forall j :: i < j < |es| ==> es[j].0 != es[i].0
    ensures Get(PutAll(t, es), es[i].0) == Some(es[i].1)
    decreases |es|
  {
    var rest := es[1..];
    var t1 := Put(t, es[0].0, es[0].1);
    assert PutAll(t, es) == PutAll(t1, rest);
    if i == 0 {
      assert forall j :: 0 <= j < |rest| ==> rest[j].0 != es[0].0 by {
        assert forall j :: 0 <= j < |rest| ==> rest[j] == es[j + 1];
      }
      PutAllKeeps(t1, rest, es[0].0);
    } else {
      assert forall j :: i - 1 < j < |rest| ==> rest[j] == es[j + 1];
      PutAllLastWins(t1, rest, i - 1);
    }
  }

  /** Assignments to other keys leave a key's value alone. */
  lemma {:induction false} PutAllKeeps(t: Table, es: Table, k: string)
    requires forall j :: 0 <= j < |es| ==> es[j].0 != k
    ensures Get(PutAll(t, es), k) == Get(t, k)
    decreases |es|
  {
    if es != [] {
      var rest := es[1..];
      assert forall j :: 0 <= j < |rest| ==> rest[j] == es[j + 1];
      PutAllKeeps(Put(t, es[0].0, es[0].1), rest, k);
    }
  }

  /** The assignments of `{normalize_name(r.name): price_or_none(r.price) for r in rows}`. */
  function NameEntries(rows: seq<Priced>): (r: Table)
    ensures |r| == |rows|
    ensures PositiveTable(r)
  {
    if rows == [] then []
    else [(NormalizeName(rows[0].name), PriceOrNone(rows[0].price))] + NameEntries(rows[1..])
  }

  function NameTable(rows: seq<Priced>): (r: Table)
    ensures PositiveTable(r)
  {
    PutAll([], NameEntries(rows))
  }

  /** The price filed under a name is that of the last row with that
      normalized name. */
  lemma NameTableLastWins(rows: seq<Priced>, i: int)
    requires 0 <= i < |rows|
    requires forall j :: i < j < |rows| ==> NormalizeName(rows[j].name) != NormalizeName(rows[i].name)
    ensures Get(NameTable(rows), NormalizeName(rows[i].name)) == Some(PriceOrNone(rows[i].price))
  {
    var es := NameEntries(rows);
    forall j | 0 <= j < |es| ensures es[j] == (NormalizeName(rows[j].name), PriceOrNone(rows[j].price)) {
      NameEntriesAt(rows, j);
    }
    PutAllLastWins([], es, i);
  }

  lemma {:induction false} NameEntriesAt(rows: seq<Priced>, i: int)
    requires 0 <= i < |rows|
    ensures NameEntries(rows)[i] == (NormalizeName(rows[i].name), PriceOrNone(rows[i].price))
  {
    var rest := NameEntries(rows[1..]);
    assert NameEntries(rows) == [(NormalizeName(rows[0].name), PriceOrNone(rows[0].price))] + rest;
    if i > 0 {
      NameEntriesAt(rows[1..], i - 1);
      assert rows[1..][i - 1] == rows[i];
    }
  }

  /** The assignments of the transport name loop: each row files its price
      under its service type and then under its car model, when those are
      set. */
  function TransportEntries(rows: seq<TransportRow>): (r: Table)
    ensures PositiveTable(r)
  {
    if rows == [] then []
    else
      var row := rows[0];
      var p := PriceOrNone(row.priceLow);
      (if Truthy(row.serviceType) then [(NormalizeName(row.serviceType.value), p)] else [])
      + (if Truthy(row.carModel) then [(NormalizeName(row.carModel.value), p)] else [])
      + TransportEntries(rows[1..])
  }

  /** The transport rows as id-priced rows, for the id map. */
  function TransportPriced(rows: seq<TransportRow>): (r: seq<Priced>)
    ensures |r| == |rows|
    ensures forall i :: 0 <= i < |rows| ==> r[i].id == rows[i].id && r[i].price == rows[i].priceLow
  {
    if rows == [] then []
    else [Priced(rows[0].id, "", rows[0].priceLow)] + TransportPriced(rows[1..])
  }

  /** The eight lookup tables `_backfill_prices` builds. */
  datatype Catalog = Catalog(
    hotelIds: map<string, Option<int>>, hotelNames: Table,
    spotIds: map<string, Option<int>>, spotNames: Table,
    activityIds: map<string, Option<int>>, activityNames: Table,
    transportIds: map<string, Option<int>>, transportNames: Table)

  /** Every price any table holds is positive. */
  predicate PositiveCatalog(c: Catalog) {
    && PositiveValues(c.hotelIds) && PositiveTable(c.hotelNames)
    && PositiveValues(c.spotIds) && PositiveTable(c.spotNames)
    && PositiveValues(c.activityIds) && PositiveTable(c.activityNames)
    && PositiveValues(c.transportIds) && PositiveTable(c.transportNames)
  }

  /** The tables built from the four catalog scans. */
  function BuildCatalog(hotels: seq<Priced>, spots: seq<Priced>, activities: seq<Priced>,
                        transports: seq<TransportRow>): (c: Catalog)
    ensures PositiveCatalog(c)
  {
    Catalog(IdMap(hotels), NameTable(hotels), IdMap(spots), NameTable(spots),
            IdMap(activities), NameTable(activities),
            IdMap(TransportPriced(transports)), PutAll([], TransportEntries(transports)))
  }

  // ---------------------------------------------------------------------
  // Lookups
  // ---------------------------------------------------------------------

  /** The fuzzy fallback's test: a non-empty table key inside the looked-up
      key, or the other way round. */
  predicate Fuzzy(k: string, key: string) {
    k != "" && (Contains(key, k) || Contains(k, key))
  }

  /** The first entry, in insertion order, whose key matches fuzzily. */
  function FuzzyIndex(t: Table, key: string): (r: Option<nat>)
    ensures r.Some? ==> r.value < |t| && Fuzzy(t[r.value].0, key)
    ensures r.Some? ==> forall j :: 0 <= j < r.value ==> !Fuzzy(t[j].0, key)
    ensures r.None? <==> forall j :: 0 <= j < |t| ==> !Fuzzy(t[j].0, key)
  {
    if t == [] then None
    else if Fuzzy(t[0].0, key) then Some(0)
    else
      var r := FuzzyIndex(t[1..], key);
      assert forall j :: 0 <= j < |t[1..]| ==> t[1..][j] == t[j + 1];
      if r.Some? then Some(r.value + 1) else None
  }

  /** `lookup_price`: the exact normalized key, else the first fuzzy match,
      else nothing. */
  function LookupPrice(name: string, t: Table): (r: Option<int>)
    ensures NormalizeName(name) == "" ==> r == None
    ensures NormalizeName(name) != "" && Get(t, NormalizeName(name)).Some? ==> r == Get(t, NormalizeName(name)).value
    ensures NormalizeName(name) != "" && Get(t, NormalizeName(name)).None? && FuzzyIndex(t, NormalizeName(name)).Some?
            ==> r == t[FuzzyIndex(t, NormalizeName(name)).value].1
    ensures r.Some? ==> exists i :: 0 <= i < |t| && t[i].1 == r && Fuzzy(t[i].0, NormalizeName(name))
    ensures PositiveTable(t) && r.Some? ==> r.value > 0
  {
    var key := NormalizeName(name);
    if key == "" then None
    else
      var exact := Get(t, key);
      if exact.Some? then
        ContainsSelf(key);
        exact.value
      else
        var i := FuzzyIndex(t, key);
        if i.Some? then t[i.value].1 else None
  }

  lemma ContainsSelf(s: string)
    ensures Contains(s, s)
  {
    assert StartsWith(s, s);
  }

  /** `m.get(k)`, flattened: a missing id and a stored `None` both give `None`. */
  function IdPrice(m: map<string, Option<int>>, k: string): (r: Option<int>)
    ensures PositiveValues(m) && r.Some? ==> r.value > 0
  {
    if k in m then m[k] else None
  }

  /** The sum of the prices found for `ids`. */
  function IdSum(ids: seq<string>, m: map<string, Option<int>>): int {
    if ids == [] then 0
    else (var p := IdPrice(m, ids[0]); if p.Some? then p.value else 0) + IdSum(ids[1..], m)
  }

  /** With positive prices, the id sum is positive exactly when some id is
      found with a price. */
  lemma {:induction false} IdSumPositive(ids: seq<string>, m: map<string, Option<int>>)
    requires PositiveValues(m)
    ensures IdSum(ids, m) >= 0
    ensures IdSum(ids, m) > 0 <==> exists i :: 0 <= i < |ids| && IdPrice(m, ids[i]).Some?
  {
    if ids != [] {
      IdSumPositive(ids[1..], m);
      if exists i :: 0 <= i < |ids[1..]| && IdPrice(m, ids[1..][i]).Some? {
        var i :| 0 <= i < |ids[1..]| && IdPrice(m, ids[1..][i]).Some?;
        assert IdPrice(m, ids[i + 1]).Some?;
      }
      if exists i :: 0 <= i < |ids| && IdPrice(m, ids[i]).Some? {
        var i :| 0 <= i < |ids| && IdPrice(m, ids[i]).Some?;
        if i > 0 {
          assert IdPrice(m, ids[1..][i - 1]).Some?;
        }
      }
    }
  }

  /** The sum of the prices the names look up. */
  function NameSum(names: seq<string>, t: Table): int {
    if names == [] then 0
    else (var p := LookupPrice(names[0], t); if p.Some? then p.value else 0) + NameSum(names[1..], t)
  }

  lemma {:induction false} NameSumNonNegative(names: seq<string>, t: Table)
    requires PositiveTable(t)
    ensures NameSum(names, t) >= 0
  {
    if names != [] {
      NameSumNonNegative(names[1..], t);
    }
  }

  /** `ids or []`. */
  function IdList(ids: Option<seq<string>>): seq<string> {
    if ids.Some? then ids.value else []
  }

  /** The total of a ticket, activity or transport line before any
      multiplier: the id prices, or, only when they add up to nothing and
      names are given, the name prices. */
  function LineTotal(ids: Option<seq<string>>, names: ListField, m: map<string, Option<int>>, t: Table): (r: int)
    ensures IdSum(IdList(ids), m) != 0 ==> r == IdSum(IdList(ids), m)
    ensures IdSum(IdList(ids), m) == 0 && TruthyList(names) ==> r == NameSum(Elements(names), t)
    ensures IdSum(IdList(ids), m) == 0 && !TruthyList(names) ==> r == 0
  {
    var byId := IdSum(IdList(ids), m);
    if byId == 0 && TruthyList(names) then NameSum(Elements(names), t) else byId
  }

  /** With a positive catalog no line total is negative. */
  lemma LineTotalNonNegative(ids: Option<seq<string>>, names: ListField, m: map<string, Option<int>>, t: Table)
    requires PositiveValues(m) && PositiveTable(t)
    ensures LineTotal(ids, names, m, t) >= 0
  {
    IdSumPositive(IdList(ids), m);
    NameSumNonNegative(Elements(names), t);
  }

  // ---------------------------------------------------------------------
  // The backfill
  // ---------------------------------------------------------------------

  /** `value or 1`: the party size and the room count default to one. */
  function OrOne(v: Option<int>): (r: int)
    ensures TruthyInt(v) ==> r == v.value
    ensures !TruthyInt(v) ==> r == 1
  {
    if TruthyInt(v) then v.value else 1
  }

  /** The unit price of a day's hotel: by id when the id is set and priced,
      else by name. */
  function HotelPrice(refs: RefKeys, c: Catalog): (r: Option<int>)
    ensures Truthy(refs.hotelId) && IdPrice(c.hotelIds, refs.hotelId.value).Some?
            ==> r == IdPrice(c.hotelIds, refs.hotelId.value)
    ensures (!Truthy(refs.hotelId) || IdPrice(c.hotelIds, refs.hotelId.value).None?)
            ==> r == (if Truthy(refs.hotelName) then LookupPrice(refs.hotelName.value, c.hotelNames) else None)
    ensures PositiveCatalog(c) && r.Some? ==> r.value > 0
  {
    var byId := if Truthy(refs.hotelId) then IdPrice(c.hotelIds, refs.hotelId.value) else None;
    if byId.None? && Truthy(refs.hotelName) then LookupPrice(refs.hotelName.value, c.hotelNames) else byId
  }

  /** A multiplied line cost, written only when the line total is positive. */
  function FillLine(cost: Option<int>, total: int, factor: int): (r: Option<int>)
    ensures total > 0 ==> r == Some(total * factor)
    ensures total <= 0 ==> r == cost
  {
    if total > 0 then Some(total * factor) else cost
  }

  /** The hotel cost of a day: an open cost becomes the unit price times
      the room count when a price is found, else it is left as it was. */
  function FillHotel(cost: Option<int>, refs: RefKeys, c: Catalog, rooms: int): (r: Option<int>)
    ensures !CostOpen(cost) ==> r == cost
    ensures CostOpen(cost) && HotelPrice(refs, c).Some? ==> r == Some(HotelPrice(refs, c).value * rooms)
    ensures HotelPrice(refs, c).None? ==> r == cost
  {
    if CostOpen(cost) then
      var p := HotelPrice(refs, c);
      if p.Some? then Some(p.value * rooms) else cost
    else cost
  }

  /** A ticket, activity or transport cost: an open cost is filled from the
      line total, a set one is kept. */
  function FillCost(cost: Option<int>, total: int, factor: int): (r: Option<int>)
    ensures !CostOpen(cost) ==> r == cost
    ensures CostOpen(cost) ==> r == FillLine(cost, total, factor)
  {
    if CostOpen(cost) then FillLine(cost, total, factor) else cost
  }

  /** One day of `_backfill_prices`, with `people` and `rooms` already
      defaulted: only the four costs may change, each as its own rule says. */
  function BackfillItem(item: DayItem, c: Catalog, people: int, rooms: int): (r: DayItem)
    ensures r.day == item.day && r.cities == item.cities && r.lists == item.lists && r.refs == item.refs
    ensures r.costs.hotelCost == FillHotel(item.costs.hotelCost, item.refs, c, rooms)
    ensures r.costs.ticketCost == FillCost(item.costs.ticketCost,
      LineTotal(item.refs.ticketIds, item.lists.ticketName, c.spotIds, c.spotNames), people)
    ensures r.costs.activityCost == FillCost(item.costs.activityCost,
      LineTotal(item.refs.activityIds, item.lists.activityName, c.activityIds, c.activityNames), people)
    ensures r.costs.transportCost == FillCost(item.costs.transportCost,
      LineTotal(item.refs.transportIds, item.lists.transport, c.transportIds, c.transportNames), 1)
  {
    var k := item.costs;
    var hotel := FillHotel(k.hotelCost, item.refs, c, rooms);
    var ticket := FillCost(k.ticketCost, LineTotal(item.refs.ticketIds, item.lists.ticketName, c.spotIds, c.spotNames), people);
    var activity := FillCost(k.activityCost, LineTotal(item.refs.activityIds, item.lists.activityName, c.activityIds, c.activityNames), people);
    var transport := FillCost(k.transportCost, LineTotal(item.refs.transportIds, item.lists.transport, c.transportIds, c.transportNames), 1);
    item.(costs := CostKeys(hotel, ticket, activity, transport))
  }

  /** A cost the backfill changed is a positive amount, given a positive
      party size and room count. */
  predicate WrittenPositive(before: Option<int>, after: Option<int>) {
    after != before ==> after.Some? && after.value > 0
  }

  lemma FillCostPositive(cost: Option<int>, total: int, factor: int)
    requires factor > 0
    ensures WrittenPositive(cost, FillCost(cost, total, factor))
    ensures FillCost(FillCost(cost, total, factor), total, factor) == FillCost(cost, total, factor)
  {
    if CostOpen(cost) && total > 0 {
      assert total * factor >= factor;
    }
  }

  lemma FillHotelPositive(cost: Option<int>, refs: RefKeys, c: Catalog, rooms: int)
    requires PositiveCatalog(c) && rooms > 0
    ensures WrittenPositive(cost, FillHotel(cost, refs, c, rooms))
    ensures FillHotel(FillHotel(cost, refs, c, rooms), refs, c, rooms) == FillHotel(cost, refs, c, rooms)
  {
    var p := HotelPrice(refs, c);
    if CostOpen(cost) && p.Some? {
      assert p.value * rooms >= rooms;
    }
  }

  lemma BackfillWritesPositive(item: DayItem, c: Catalog, people: int, rooms: int)
    requires PositiveCatalog(c) && people > 0 && rooms > 0
    ensures var r := BackfillItem(item, c, people, rooms);
      && WrittenPositive(item.costs.hotelCost, r.costs.hotelCost)
      && WrittenPositive(item.costs.ticketCost, r.costs.ticketCost)
      && WrittenPositive(item.costs.activityCost, r.costs.activityCost)
      && WrittenPositive(item.costs.transportCost, r.costs.transportCost)
  {
    var k := item.costs;
    FillHotelPositive(k.hotelCost, item.refs, c, rooms);
    FillCostPositive(k.ticketCost, LineTotal(item.refs.ticketIds, item.lists.ticketName, c.spotIds, c.spotNames), people);
    FillCostPositive(k.activityCost, LineTotal(item.refs.activityIds, item.lists.activityName, c.activityIds, c.activityNames), people);
    FillCostPositive(k.transportCost, LineTotal(item.refs.transportIds, item.lists.transport, c.transportIds, c.transportNames), 1);
  }

  /** `_backfill_prices` on a list of days. */
  function Backfill(items: seq<DayItem>, c: Catalog, peopleCount: Option<int>, roomCount: Option<int>): (r: seq<DayItem>)
    ensures |r| == |items|
    ensures forall i :: 0 <= i < |items| ==> r[i] == BackfillItem(items[i], c, OrOne(peopleCount), OrOne(roomCount))
  {
    if items == [] then []
    else [BackfillItem(items[0], c, OrOne(peopleCount), OrOne(roomCount))] + Backfill(items[1..], c, peopleCount, roomCount)
  }

  /** A day whose four costs are all set and non-zero passes through unchanged. */
  lemma BackfillKeepsPricedDay(item: DayItem, c: Catalog, people: int, rooms: int)
    requires !CostOpen(item.costs.hotelCost) && !CostOpen(item.costs.ticketCost)
    requires !CostOpen(item.costs.activityCost) && !CostOpen(item.costs.transportCost)
    ensures BackfillItem(item, c, people, rooms) == item
  {
  }

  /** Backfilling twice is backfilling once, given positive multipliers:
      every cost written is non-zero, so the second pass leaves it. */
  lemma BackfillIdempotent(item: DayItem, c: Catalog, people: int, rooms: int)
    requires PositiveCatalog(c) && people > 0 && rooms > 0
    ensures var r := BackfillItem(item, c, people, rooms);
      BackfillItem(r, c, people, rooms) == r
  {
    var k := item.costs;
    FillHotelPositive(k.hotelCost, item.refs, c, rooms);
    FillCostPositive(k.ticketCost, LineTotal(item.refs.ticketIds, item.lists.ticketName, c.spotIds, c.spotNames), people);
    FillCostPositive(k.activityCost, LineTotal(item.refs.activityIds, item.lists.activityName, c.activityIds, c.activityNames), people);
    FillCostPositive(k.transportCost, LineTotal(item.refs.transportIds, item.lists.transport, c.transportIds, c.transportNames), 1);
  }

  /** A day with no cities, names, references or costs. */
  const EmptyDay := DayItem(None, CityKeys(None, None, None, None, None), ListKeys(LNone, LNone, LNone),
                            RefKeys(None, None, None, None, None), CostKeys(None, None, None, None))

  /** A hotel found by id at 500 for two rooms costs 1000, whatever its name. */
  lemma HotelByIdExample(name: string)
    ensures var c := BuildCatalog([Priced("h1", name, Some(500))], [], [], []);
      var day := EmptyDay.(refs := EmptyDay.refs.(hotelId := Some("h1")));
      Backfill([day], c, None, Some(2))[0].costs.hotelCost == Some(1000)
  {
    var c := BuildCatalog([Priced("h1", name, Some(500))], [], [], []);
    assert c.hotelIds == map["h1" := Some(500)];
    var day := EmptyDay.(refs := EmptyDay.refs.(hotelId := Some("h1")));
    assert HotelPrice(day.refs, c) == Some(500);
    assert FillHotel(day.costs.hotelCost, day.refs, c, 2) == Some(1000);
    var r := BackfillItem(day, c, 1, 2);
    assert Backfill([day], c, None, Some(2)) == [r];
  }

  /** Text before the first opening bracket is normalized on its own: its
      kept characters, lower-cased, come first. */
  lemma {:induction false} NormalizeNameSplit(a: string, b: string)
    requires forall k :: 0 <= k < |a| ==> !IsOpener(a[k])
    ensures NormalizeName(a + b) == ToLower(KeepOnly(a)) + NormalizeName(b)
  {
    PrefixKept(a, b);
    var sb := StripBrackets(b);
    FilterAppend(a, sb, KeepChar);
    ToLowerAppend(KeepOnly(a), KeepOnly(sb));
  }

  /** A one-line bracketed group after the text `w` leaves nothing of
      itself in the normalized name: `北京饭店（东城）` normalizes to `北京饭店`. */
  lemma {:induction false} NormalizeNameGroup(w: string, o: char, g: string, c: char, b: string)
    requires forall k :: 0 <= k < |w| ==> !IsOpener(w[k])
    requires IsOpener(o) && IsCloser(c)
    requires forall k :: 0 <= k < |g| ==> !IsCloser(g[k]) && g[k] != '\n'
    ensures NormalizeName(w + [o] + g + [c] + b) == ToLower(KeepOnly(w)) + NormalizeName(b)
  {
    var rest := [o] + g + [c] + b;
    assert w + [o] + g + [c] + b == w + rest;
    NormalizeNameSplit(w, rest);
    GroupDropped(o, g, c, b);
  }

  /** A string of kept, lower-case characters is its own normalized name. */
  lemma NormalizeNameOfNormal(s: string)
    requires forall k :: 0 <= k < |s| ==> KeepChar(s[k]) && !IsUpper(s[k])
    ensures NormalizeName(s) == s
  {
    assert StripBrackets(s) == s;
    var r := ToLower(s);
    assert forall k :: 0 <= k < |r| ==> r[k] == s[k];
  }

  /** A lower-case ASCII word is its own normalized name. */
  lemma NormalizeNameOfWord(s: string)
    requires forall k :: 0 <= k < |s| ==> 'a' <= s[k] <= 'z'
    ensures NormalizeName(s) == s
  {
    NormalizeNameOfNormal(s);
  }

  /** A normalized name followed by one bracketed group normalizes back to
      the name. */
  lemma {:induction false} NormalizeNameDropsGroup(w: string, o: char, g: string, c: char)
    requires forall k :: 0 <= k < |w| ==> KeepChar(w[k]) && !IsUpper(w[k])
    requires IsOpener(o) && IsCloser(c)
    requires forall k :: 0 <= k < |g| ==> !IsCloser(g[k]) && g[k] != '\n'
    ensures NormalizeName(w + [o] + g + [c]) == w
  {
    assert w + [o] + g + [c] == w + [o] + g + [c] + [];
    NormalizeNameGroup(w, o, g, c, []);
    assert KeepOnly(w) == w;
    var r := ToLower(w);
    assert forall k :: 0 <= k < |r| ==> r[k] == w[k];
  }

  /** The district in brackets is dropped from a hotel name:
      `北京饭店（东城）` normalizes to `北京饭店`. */
  lemma {:induction false} BracketedHotelExample(w: string, g: string)
    requires w == ['北', '京', '饭', '店'] && g == ['东', '城']
    ensures NormalizeName(w + ['（'] + g + ['）']) == w
  {
    HotelNameKept(w);
    NormalizeNameDropsGroup(w, '（', g, '）');
  }

  /** The four ideographs of the example are all kept. */
  lemma {:induction false} HotelNameKept(w: string)
    requires w == ['北', '京', '饭', '店']
    ensures forall k :: 0 <= k < |w| ==> KeepChar(w[k]) && !IsUpper(w[k])
  {
    assert KeepChar('北') && KeepChar('京') && KeepChar('饭') && KeepChar('店');
  }

  /** A two-entry spot table, in catalog order. */
  const ExampleTable: Table := [("oldzoo", Some(400)), ("seapark", Some(500))]

  /** "zoo" is no key of the table but lies inside "oldzoo". */
  lemma LookupZooExample(name: string)
    requires name == "zoo"
    ensures LookupPrice(name, ExampleTable) == Some(400)
  {
    NormalizeNameOfWord(name);
    assert Get(ExampleTable, name).None?;
    ZooFuzzyIndex(name);
  }

  /** The fuzzy step of the example: the first key holding "zoo" is "oldzoo". */
  lemma ZooFuzzyIndex(name: string)
    requires name == "zoo"
    ensures FuzzyIndex(ExampleTable, name) == Some(0)
  {
    assert OccursAt("oldzoo", name, 3);
    ContainsIsOccurrence("oldzoo", name);
    assert Fuzzy(ExampleTable[0].0, name);
  }

  /** Two tickets without ids whose names look up 400 and 500 cost 1800
      for two people. */
  lemma TicketsByNameExample(c: Catalog, n1: string, n2: string)
    requires LookupPrice(n1, c.spotNames) == Some(400) && LookupPrice(n2, c.spotNames) == Some(500)
    ensures var day := EmptyDay.(lists := EmptyDay.lists.(ticketName := LList([n1, n2])));
      Backfill([day], c, Some(2), None)[0].costs.ticketCost == Some(1800)
  {
    assert [n1, n2][1..] == [n2];
    assert NameSum([n2], c.spotNames) == 500;
    assert NameSum([n1, n2], c.spotNames) == 900;
    var day := EmptyDay.(lists := EmptyDay.lists.(ticketName := LList([n1, n2])));
    assert Elements(day.lists.ticketName) == [n1, n2];
    assert LineTotal(day.refs.ticketIds, day.lists.ticketName, c.spotIds, c.spotNames) == 900;
    var r := BackfillItem(day, c, 2, 1);
    assert Backfill([day], c, Some(2), None) == [r];
  }
}

=== FILE: agent_heuristics.dfy ===
/** The small decision helpers of the agent service
    (backend/src/app/services/agent_service.py): intent detection, the
    requirement assessment's fallbacks, country inference, the trip-length
    table, and where the conversation memory is stored. The language model
    and the database appear as parameters: the assessment reply, a
    city-to-country table and a key-value memory store. */
module AgentHeuristics {
  import opened Wrappers
  import opened Text
  import opened AgentItems

  datatype Intent = Create | Modify

  const ModifyKeywords: seq<string> := ["优化", "调整", "修改", "变更", "改一下", "完善", "补充", "细化"]

  /** Does `s` contain one of `ks`? */
  function ContainsAny(s: string, ks: seq<string>): (r: bool)
    ensures r <==> exists i :: 0 <= i < |ks| && Contains(s, ks[i])
  {
    if ks == [] then false
    else Contains(s, ks[0]) || ContainsAny(s, ks[1..])
  }

  /** `_detect_intent`: a request modifies the current plan only when the
      prompt names a change and there are rows to change. */
  function DetectIntent(prompt: string, currentRows: nat): (r: Intent)
    ensures r == Modify <==> currentRows > 0 && exists i :: 0 <= i < |ModifyKeywords| && Contains(prompt, ModifyKeywords[i])
  {
    if prompt == [] then Create
    else if ContainsAny(prompt, ModifyKeywords) && currentRows > 0 then Modify
    else Create
  }

  /** An empty prompt never asks for a modification. */
  lemma EmptyPromptCreates(currentRows: nat)
    ensures DetectIntent("", currentRows) == Create
  {
    forall i | 0 <= i < |ModifyKeywords| ensures !Contains("", ModifyKeywords[i]) {
      assert |ModifyKeywords[i]| > 0;
    }
  }

  /** What the assessment model answered, after the structured call or the
      plain-JSON fallback: whether more information is needed and the
      question, or an answer neither path could read. */
  datatype AssessReply = Reply(needMoreInfo: bool, question: Option<string>) | Unreadable

  const DefaultQuestion := "请告诉我目的地城市或国家。"
  const NotConfigured := "AI 未配置，请稍后再试。"

  /** `_assess_requirements`: the question to ask the user, if any. */
  function AssessQuestion(llmConfigured: bool, reply: AssessReply): (r: Option<string>)
    ensures r.None? <==> llmConfigured && reply.Reply? && !reply.needMoreInfo
    ensures r.Some? ==> r.value != ""
    ensures !llmConfigured ==> r == Some(NotConfigured)
    ensures llmConfigured && reply.Reply? && reply.needMoreInfo && Truthy(reply.question) ==> r == reply.question
  {
    if !llmConfigured then Some(NotConfigured)
    else match reply
      case Reply(need, q) => if need then Some(if Truthy(q) then q.value else DefaultQuestion) else None
      case Unreadable => Some(DefaultQuestion)
  }

  /** `_has_minimum_requirements`: a destination is known. */
  predicate HasMinimumRequirements(currentDestinations: seq<string>) {
    currentDestinations != []
  }

  /** `s.split(c)[0]`: the text before the first `c`. */
  function Before(s: string, c: char): (r: string)
    ensures c !in r
    ensures |r| <= |s| && r == s[..|r|]
    ensures |r| < |s| ==> s[|r|] == c
  {
    if s == [] || s[0] == c then [] else [s[0]] + Before(s[1..], c)
  }

  /** The name `_infer_country` works on: the destination up to its first
      `(`, stripped. */
  function BaseName(destination: string): string {
    Trim(Before(destination, '('))
  }

  predicate IsChina(name: string) {
    Contains(name, "中国") || ToLower(name) == "china"
  }

  /** The `(name, country)` columns of the city table, in storage order;
      an empty country stands for `NULL`. */
  type CityTable = seq<(string, string)>

  /** The countries of the cities called `name`: what
      `select(ResourceCity.country).where(ResourceCity.name == name)` returns. */
  function CountryColumn(cities: CityTable, name: string): (r: seq<string>)
    ensures |r| <= |cities|
    ensures forall c :: c in r <==> exists i :: 0 <= i < |cities| && cities[i] == (name, c)
  {
    if cities == [] then []
    else
      var rest := CountryColumn(cities[1..], name);
      assert forall i :: 1 <= i < |cities| ==> cities[i] == cities[1..][i - 1];
      (if cities[0].0 == name then [cities[0].1] else []) + rest
  }

  /** `_infer_country`. A city the catalog holds exactly once gives its
      country when that is set; no such city, or a name stored more than
      once (`scalar_one_or_none` raises `MultipleResultsFound`, which the
      bare `except` swallows), gives the base name itself. */
  function InferCountry(destination: string, cityCountry: CityTable): (r: Option<string>)
    ensures destination == "" ==> r == None
    ensures r.Some? ==> r.value != ""
    ensures destination != "" && IsChina(BaseName(destination)) ==> r == Some("中国")
    ensures destination != "" && !IsChina(BaseName(destination))
            && |CountryColumn(cityCountry, BaseName(destination))| == 1
            && CountryColumn(cityCountry, BaseName(destination))[0] != ""
            ==> r == Some(CountryColumn(cityCountry, BaseName(destination))[0])
    ensures destination != "" && !IsChina(BaseName(destination)) && BaseName(destination) != ""
            && (|CountryColumn(cityCountry, BaseName(destination))| != 1
                || CountryColumn(cityCountry, BaseName(destination))[0] == "")
            ==> r == Some(BaseName(destination))
    ensures r.Some? ==> r.value == "中国" || r.value == BaseName(destination)
                        || (BaseName(destination), r.value) in cityCountry
  {
    if destination == "" then None
    else
      var d := BaseName(destination);
      var col := CountryColumn(cityCountry, d);
      if IsChina(d) then Some("中国")
      else if |col| == 1 && col[0] != "" then
        assert col[0] in col;
        Some(col[0])
      else if d != "" then Some(d)
      else None
  }

  /** The name inferred country has no `(` unless the catalog supplies one. */
  lemma InferredNameHasNoParen(destination: string, cityCountry: CityTable)
    requires InferCountry(destination, cityCountry).Some?
    requires forall i :: 0 <= i < |cityCountry| ==> '(' !in cityCountry[i].1
    ensures '(' !in InferCountry(destination, cityCountry).value
  {
    var b := Before(destination, '(');
    TrimKeepsNoneIn(b, {'('});
  }

  const EastAsia: set<string> := {"日本", "韩国", "朝鲜", "中国台湾", "中国香港", "中国澳门", "新加坡"}
  const SoutheastAsia: set<string> := {"泰国", "越南", "马来西亚", "印度尼西亚", "印尼", "菲律宾", "柬埔寨", "老挝", "缅甸", "文莱"}
  const Europe: set<string> := {"英国", "法国", "德国", "意大利", "西班牙", "葡萄牙", "瑞士", "奥地利", "荷兰", "比利时",
                                "挪威", "瑞典", "芬兰", "丹麦", "捷克", "希腊", "波兰", "匈牙利", "爱尔兰"}
  const Americas: set<string> := {"美国", "加拿大", "墨西哥", "巴西", "阿根廷", "智利", "秘鲁"}
  const Oceania: set<string> := {"澳大利亚", "新西兰"}

  /** `_infer_country(destination) or destination`. */
  function CountryOf(destination: string, cityCountry: CityTable): string {
    var c := InferCountry(destination, cityCountry);
    if c.Some? then c.value else destination
  }

  /** The day table of `_recommend_days`, by country. */
  function DaysForCountry(c: string): (r: int)
    ensures r in {3, 4, 5, 6, 9}
    ensures c == "中国" ==> r == 3
    ensures c in EastAsia ==> r == 4
    ensures c in SoutheastAsia ==> r == 6
    ensures c in Europe ==> r == 9
    ensures c in Americas ==> r == 9
    ensures c in Oceania ==> r == 9
    ensures r == 5 <==> c != "中国" && c !in EastAsia && c !in SoutheastAsia && c !in Europe && c !in Americas && c !in Oceania
  {
    if c == "" then 5
    else if c == "中国" then 3
    else if c in EastAsia then 4
    else if c in SoutheastAsia then 6
    else if c in Europe || c in Americas || c in Oceania then 9
    else 5
  }

  /** `_recommend_days`: a default trip length by the destination's region. */
  function RecommendDays(destination: string, cityCountry: CityTable): int {
    DaysForCountry(CountryOf(destination, cityCountry))
  }

  /** A destination written as a Chinese place always gets the shortest trip. */
  lemma ChinaGetsThreeDays(destination: string, cityCountry: CityTable)
    requires Contains(BaseName(destination), "中国")
    ensures RecommendDays(destination, cityCountry) == 3
  {
    ContainsIsOccurrence(BaseName(destination), "中国");
    var i :| OccursAt(BaseName(destination), "中国", i);
    assert |Before(destination, '(')| > 0;
  }

  /** `_memory_owner_id`: the signed-in user's name, else an anonymous owner
      per conversation. `username` is `None` when there is no user. */
  function MemoryOwnerId(username: Option<string>, conversationId: Option<string>): (r: Option<string>)
    ensures r.None? <==> !Truthy(username) && !Truthy(conversationId)
    ensures Truthy(username) ==> r == username
    ensures !Truthy(username) && Truthy(conversationId) ==> r == Some("anon:" + conversationId.value)
  {
    if Truthy(username) then username
    else if Truthy(conversationId) then Some("anon:" + conversationId.value)
    else None
  }

  const MemoryPrefix := "ai_memory:"

  /** `_memory_key`. */
  function MemoryKey(conversationId: Option<string>): (r: string)
    ensures StartsWith(r, MemoryPrefix)
  {
    MemoryPrefix + (if Truthy(conversationId) then conversationId.value else "default")
  }

  /** Distinct conversations use distinct keys; every conversation without
      an id shares the key of the one named `default`. */
  lemma MemoryKeyInjective(a: Option<string>, b: Option<string>)
    requires MemoryKey(a) == MemoryKey(b)
    ensures (if Truthy(a) then a.value else "default") == (if Truthy(b) then b.value else "default")
  {
    var x := if Truthy(a) then a.value else "default";
    var y := if Truthy(b) then b.value else "default";
    assert x == MemoryKey(a)[|MemoryPrefix|..];
    assert y == MemoryKey(b)[|MemoryPrefix|..];
  }

  /** The `AppData` rows holding summaries, by (owner, key). */
  type MemoryStore = map<(string, string), string>

  /** `_load_memory`. */
  function LoadMemory(store: MemoryStore, username: Option<string>, conversationId: Option<string>): (r: Option<string>)
    ensures MemoryOwnerId(username, conversationId).None? ==> r == None
  {
    var owner := MemoryOwnerId(username, conversationId);
    if owner.None? then None
    else
      var k := (owner.value, MemoryKey(conversationId));
      if k in store then Some(store[k]) else None
  }

  /** `_save_memory`: insert or overwrite the caller's row. */
  function SaveMemory(store: MemoryStore, username: Option<string>, conversationId: Option<string>, summary: string): (r: MemoryStore)
    ensures MemoryOwnerId(username, conversationId).None? ==> r == store
    ensures forall k :: k in store ==> k in r
  {
    var owner := MemoryOwnerId(username, conversationId);
    if owner.None? then store
    else store[(owner.value, MemoryKey(conversationId)) := summary]
  }

  /** A saved summary is what the next load of the same conversation returns. */
  lemma SaveThenLoad(store: MemoryStore, username: Option<string>, conversationId: Option<string>, summary: string)
    requires MemoryOwnerId(username, conversationId).Some?
    ensures LoadMemory(SaveMemory(store, username, conversationId, summary), username, conversationId) == Some(summary)
  {
  }

  /** Saving touches no other owner's or conversation's row. */
  lemma SaveKeepsOtherRows(store: MemoryStore, username: Option<string>, conversationId: Option<string>, summary: string,
                           k: (string, string))
    requires k in store
    requires MemoryOwnerId(username, conversationId).None? || k != (MemoryOwnerId(username, conversationId).value, MemoryKey(conversationId))
    ensures SaveMemory(store, username, conversationId, summary)[k] == store[k]
  {
  }

  /** The summary model's reply: a new summary, or a failure. */
  datatype SummaryReply = Summarized(text: string) | SummaryFailed

  /** `_summarize_memory`: without a model, or when it fails, the summary
      stays what it was. */
  function SummarizeMemory(existing: Option<string>, llmConfigured: bool, reply: SummaryReply): (r: Option<string>)
    ensures !llmConfigured || reply.SummaryFailed? ==> r == existing
    ensures llmConfigured && reply.Summarized? ==> r == Some(reply.text)
  {
    if llmConfigured && reply.Summarized? then Some(reply.text) else existing
  }
}

=== FILE: agent_items.dfy ===
/** The itinerary items the agent service in
    backend/src/app/services/agent_service.py passes between its stages.
    The source handles them as JSON dictionaries; here each key the service
    reads or writes is a field, `None` standing for a missing key or JSON
    `null`. Python truthiness ("falsy" = `None`, `""`, `0`, `[]`) is spelled
    out by the `Truthy…` predicates. */
module AgentItems {
  import opened Wrappers

  /** A list-valued key (`ticketName`, `activityName`, `transport`): absent,
      a single string, or a list of strings. */
  datatype ListField = LNone | LStr(s: string) | LList(items: seq<string>)

  /** The keys that name the day's cities. */
  datatype CityKeys = CityKeys(
    route: Option<string>,
    sCity: Option<string>,        // key `s_city`
    sCityCamel: Option<string>,   // key `sCity`
    eCity: Option<string>,        // key `e_city`
    eCityCamel: Option<string>)   // key `eCity`

  /** The list-valued keys. */
  datatype ListKeys = ListKeys(ticketName: ListField, activityName: ListField, transport: ListField)

  /** The catalog references a day's prices are looked up by. */
  datatype RefKeys = RefKeys(
    hotelId: Option<string>,
    hotelName: Option<string>,
    ticketIds: Option<seq<string>>,
    activityIds: Option<seq<string>>,
    transportIds: Option<seq<string>>)

  datatype CostKeys = CostKeys(
    hotelCost: Option<int>,
    ticketCost: Option<int>,
    activityCost: Option<int>,
    transportCost: Option<int>)

  /** One day of an itinerary. */
  datatype DayItem = DayItem(day: Option<int>, cities: CityKeys, lists: ListKeys, refs: RefKeys, costs: CostKeys)

  /** An element of the model's raw output list: a dictionary or any other JSON value. */
  datatype RawItem = Dict(item: DayItem) | NonDict

  predicate Truthy(o: Option<string>) {
    o.Some? && o.value != ""
  }

  predicate TruthyInt(o: Option<int>) {
    o.Some? && o.value != 0
  }

  predicate TruthyList(f: ListField) {
    match f
    case LNone => false
    case LStr(s) => s != ""
    case LList(l) => l != []
  }

  /** Python's `a or b` on optional strings. */
  function Or(a: Option<string>, b: Option<string>): (r: Option<string>)
    ensures Truthy(r) <==> Truthy(a) || Truthy(b)
    ensures Truthy(a) ==> r == a
  {
    if Truthy(a) then a else b
  }

  /** The strings a `for n in value` loop visits: a string is iterated
      character by character. */
  function Elements(f: ListField): (r: seq<string>)
    ensures f.LList? ==> r == f.items
    ensures f.LStr? ==> |r| == |f.s|
  {
    match f
    case LNone => []
    case LStr(s) => seq(|s|, i requires 0 <= i < |s| => [s[i]])
    case LList(l) => l
  }

  /** A cost key that `_backfill_prices` may fill: `None` or `0`. */
  predicate CostOpen(c: Option<int>) {
    c.None? || c.value == 0
  }
}

=== FILE: agent_normalize.dfy ===
/** `_normalize_itinerary` of backend/src/app/services/agent_service.py:
    it numbers the days, fills missing start/end cities from the route
    text, chains each day's start city to the previous day's end city,
    rewrites the route as `start-end`, and turns the name keys into lists. */
module AgentNormalize {
  import opened Wrappers
  import opened Text
  import opened AgentItems

  /** The character class `[-—>，,]` a route is split on. */
  const RouteSeparators: set<char> := {'-', '—', '>', '，', ','}
  /** The character class `[,，、]` a name list is split on. */
  const NameSeparators: set<char> := {',', '，', '、'}

  /** A `ticketName`/`activityName` value after normalization: a string
      becomes its trimmed non-empty comma-separated parts, a missing value
      the empty list, and a list stays as it is. */
  function CoerceNames(f: ListField): (r: ListField)
    ensures r.LList?
    ensures f.LList? ==> r == f
    ensures f.LNone? ==> r.items == []
    ensures f.LStr? ==> forall i :: 0 <= i < |r.items| ==>
      r.items[i] != "" && Trimmed(r.items[i]) && NoneIn(r.items[i], NameSeparators)
  {
    match f
    case LNone => LList([])
    case LStr(s) => LList(Parts(s, NameSeparators))
    case LList(_) => f
  }

  /** A string with no separators comes back as itself, trimmed. */
  lemma CoerceNamesSingle(s: string)
    requires s != "" && Trimmed(s) && NoneIn(s, NameSeparators)
    ensures CoerceNames(LStr(s)) == LList([s])
  {
    assert Split(s, NameSeparators) == [s] by { SplitWithoutSeparator(s, NameSeparators); }
  }

  /** Names joined with `,` come back as the names. */
  lemma CoerceNamesOfJoin(ns: seq<string>)
    requires forall i :: 0 <= i < |ns| ==> CleanPiece(ns[i], NameSeparators)
    ensures CoerceNames(LStr(Join(ns, ','))) == LList(ns)
  {
    PartsOfJoin(ns, ',', NameSeparators);
  }

  /** A missing `transport` becomes the empty list; any other value stays. */
  function CoerceTransport(f: ListField): (r: ListField)
    ensures f.LNone? ==> r == LList([])
    ensures !f.LNone? ==> r == f
  {
    if f.LNone? then LList([]) else f
  }

  /** The start city the loop reads: `s_city or sCity`. */
  function StartOf(c: CityKeys): Option<string> { Or(c.sCity, c.sCityCamel) }
  /** The end city the loop reads: `e_city or eCity`. */
  function EndOf(c: CityKeys): Option<string> { Or(c.eCity, c.eCityCamel) }

  /** The route parts used to fill in missing cities: only when the route is
      set and one of the two cities is missing. */
  function RouteParts(c: CityKeys): seq<string> {
    if Truthy(c.route) && !(Truthy(StartOf(c)) && Truthy(EndOf(c)))
    then Parts(c.route.value, RouteSeparators)
    else []
  }

  /** Whenever both cities are known the route reads `start-end`. */
  predicate RouteAgrees(c: CityKeys) {
    Truthy(c.sCity) && Truthy(c.eCity) ==> c.route == Some(c.sCity.value + "-" + c.eCity.value)
  }

  /** The start city a day gets: the carried city, else its own start,
      else the first of the route `parts` when there are two or more. */
  function StartCity(c: CityKeys, prevEnd: Option<string>, parts: seq<string>): (r: Option<string>)
    ensures Truthy(prevEnd) ==> r == prevEnd
    ensures !Truthy(prevEnd) && Truthy(StartOf(c)) ==> r == StartOf(c)
    ensures !Truthy(prevEnd) && !Truthy(StartOf(c)) ==>
              r == if |parts| >= 2 then Some(parts[0]) else StartOf(c)
  {
    if Truthy(prevEnd) then prevEnd
    else if Truthy(StartOf(c)) then StartOf(c)
    else if |parts| >= 2 then Some(parts[0])
    else StartOf(c)
  }

  /** The end city a day gets: its own end, else the last of the route
      `parts` when there are two or more. */
  function EndCity(c: CityKeys, parts: seq<string>): (r: Option<string>)
    ensures Truthy(EndOf(c)) ==> r == EndOf(c)
    ensures !Truthy(EndOf(c)) ==>
              r == if |parts| >= 2 then Some(parts[|parts| - 1]) else EndOf(c)
  {
    if Truthy(EndOf(c)) then EndOf(c)
    else if |parts| >= 2 then Some(parts[|parts| - 1])
    else EndOf(c)
  }

  /** The city keys written for one day, given the city carried from the
      days before. */
  function ResolveCities(c: CityKeys, prevEnd: Option<string>): (r: CityKeys)
    ensures Truthy(prevEnd) ==> r.sCity == prevEnd
    ensures Truthy(StartOf(c)) && !Truthy(prevEnd) ==> r.sCity == StartOf(c)
    ensures Truthy(EndOf(c)) ==> r.eCity == EndOf(c)
    ensures |RouteParts(c)| >= 2 && !Truthy(StartOf(c)) && !Truthy(prevEnd)
            ==> r.sCity == Some(RouteParts(c)[0])
    ensures |RouteParts(c)| >= 2 && !Truthy(EndOf(c))
            ==> r.eCity == Some(RouteParts(c)[|RouteParts(c)| - 1])
    ensures !Truthy(r.sCity) ==> r.sCity == c.sCity
    ensures !Truthy(r.eCity) ==> r.eCity == c.eCity
    ensures RouteAgrees(r)
    ensures !(Truthy(r.sCity) && Truthy(r.eCity)) ==> r.route == c.route
    ensures r.sCityCamel == c.sCityCamel && r.eCityCamel == c.eCityCamel
  {
    ResolveWith(c, prevEnd, RouteParts(c))
  }

  /** `ResolveCities` once the route parts are known. */
  function ResolveWith(c: CityKeys, prevEnd: Option<string>, parts: seq<string>): (r: CityKeys)
    requires forall i :: 0 <= i < |parts| ==> parts[i] != ""
    ensures Truthy(prevEnd) ==> r.sCity == prevEnd
    ensures Truthy(StartOf(c)) && !Truthy(prevEnd) ==> r.sCity == StartOf(c)
    ensures Truthy(EndOf(c)) ==> r.eCity == EndOf(c)
    ensures |parts| >= 2 && !Truthy(StartOf(c)) && !Truthy(prevEnd) ==> r.sCity == Some(parts[0])
    ensures |parts| >= 2 && !Truthy(EndOf(c)) ==> r.eCity == Some(parts[|parts| - 1])
    ensures !Truthy(r.sCity) ==> r.sCity == c.sCity
    ensures !Truthy(r.eCity) ==> r.eCity == c.eCity
    ensures RouteAgrees(r)
    ensures !(Truthy(r.sCity) && Truthy(r.eCity)) ==> r.route == c.route
    ensures r.sCityCamel == c.sCityCamel && r.eCityCamel == c.eCityCamel
  {
    var s2 := StartCity(c, prevEnd, parts);
    var e1 := EndCity(c, parts);
    c.(sCity := if Truthy(s2) then s2 else c.sCity,
       eCity := if Truthy(e1) then e1 else c.eCity,
       route := if Truthy(s2) && Truthy(e1) then Some(s2.value + "-" + e1.value) else c.route)
  }

  /** Resolving the cities of resolved keys with the same carried city
      changes nothing. */
  lemma ResolveCitiesFixed(c: CityKeys, prevEnd: Option<string>)
    ensures ResolveCities(ResolveCities(c, prevEnd), prevEnd) == ResolveCities(c, prevEnd)
  {
    var r := ResolveCities(c, prevEnd);
    if !(Truthy(StartOf(r)) && Truthy(EndOf(r))) && Truthy(r.route) {
      assert r.route == c.route;
      assert RouteParts(r) == Parts(c.route.value, RouteSeparators);
    }
  }

  /** The city the next day starts from, as the loop's `prev_end` computes it
      from what was written: the end city, else the start city, else the
      one carried so far. */
  function Carry(prevEnd: Option<string>, c: CityKeys): Option<string> {
    if Truthy(c.eCity) then c.eCity else if Truthy(c.sCity) then c.sCity else prevEnd
  }

  function NormalizeLists(l: ListKeys): (r: ListKeys)
    ensures r.ticketName.LList? && r.activityName.LList? && !r.transport.LNone?
  {
    ListKeys(CoerceNames(l.ticketName), CoerceNames(l.activityName), CoerceTransport(l.transport))
  }

  lemma NormalizeListsFixed(l: ListKeys)
    ensures NormalizeLists(NormalizeLists(l)) == NormalizeLists(l)
  {
  }

  /** What every item of a normalized list satisfies. */
  predicate Normalized(o: DayItem) {
    TruthyInt(o.day) && RouteAgrees(o.cities)
    && o.lists.ticketName.LList? && o.lists.activityName.LList? && !o.lists.transport.LNone?
  }

  /** The outcome of normalizing one dictionary: the item written out and
      the city carried over to the next day. */
  datatype Step = Step(out: DayItem, prevEnd: Option<string>)

  /** The loop body of `_normalize_itinerary` for the dictionary at 1-based
      position `idx`. */
  function NormalizeItem(item: DayItem, idx: int, prevEnd: Option<string>): (st: Step)
    ensures idx >= 1 ==> Normalized(st.out)
    ensures st.out.day == if TruthyInt(item.day) then item.day else Some(idx)
    ensures st.out.refs == item.refs && st.out.costs == item.costs
    ensures Truthy(prevEnd) ==> st.out.cities.sCity == prevEnd
    ensures st.prevEnd == Carry(prevEnd, st.out.cities)
  {
    var cities := ResolveCities(item.cities, prevEnd);
    var out := item.(day := if TruthyInt(item.day) then item.day else Some(idx),
                     cities := cities,
                     lists := NormalizeLists(item.lists));
    Step(out, Carry(prevEnd, cities))
  }

  /** An item already normalized with the same carried city is written back
      unchanged, whatever its position. */
  lemma NormalizeItemFixed(item: DayItem, idx: int, idx2: int, prevEnd: Option<string>)
    requires idx >= 1
    ensures var st := NormalizeItem(item, idx, prevEnd);
      NormalizeItem(st.out, idx2, prevEnd) == st
  {
    ResolveCitiesFixed(item.cities, prevEnd);
    NormalizeListsFixed(item.lists);
  }

  /** A loop body: an item, its 1-based position and the carried city give
      the written item and the next carried city. */
  type StepFn = (DayItem, int, Option<string>) -> Step

  /** The loop of `_normalize_itinerary` from position `idx` on, with the
      city carried so far, for a given loop body. */
  function Scan(items: seq<RawItem>, idx: int, prevEnd: Option<string>, step: StepFn): seq<DayItem>
    decreases |items|
  {
    if items == [] then []
    else match items[0]
      case NonDict => Scan(items[1..], idx + 1, prevEnd, step)
      case Dict(it) =>
        var st := step(it, idx, prevEnd);
        [st.out] + Scan(items[1..], idx + 1, st.prevEnd, step)
  }

  /** `_normalize_itinerary`. */
  function Normalize(items: seq<RawItem>): seq<DayItem> {
    Scan(items, 1, None, NormalizeItem)
  }

  /** The dictionaries of `items` with their 1-based positions, counted from `idx`. */
  function Dicts(items: seq<RawItem>, idx: int): (r: seq<(int, DayItem)>)
    ensures |r| <= |items|
  {
    if items == [] then []
    else match items[0]
      case NonDict => Dicts(items[1..], idx + 1)
      case Dict(it) => [(idx, it)] + Dicts(items[1..], idx + 1)
  }

  /** Each output is the dictionary at the same rank, normalized: it has a
      day (its own, or else its input position), and keeps the dictionary's
      references and costs. */
  predicate Matches(outs: seq<DayItem>, ds: seq<(int, DayItem)>)
    decreases |outs|
  {
    |outs| == |ds| &&
    (outs != [] ==>
      && Normalized(outs[0])
      && outs[0].day == (if TruthyInt(ds[0].1.day) then ds[0].1.day else Some(ds[0].0))
      && outs[0].refs == ds[0].1.refs && outs[0].costs == ds[0].1.costs
      && Matches(outs[1..], ds[1..]))
  }

  /** A loop body that normalizes each item it writes. */
  ghost predicate KeepsKeys(step: StepFn) {
    forall it, i, p :: i >= 1 ==>
      && Normalized(step(it, i, p).out)
      && step(it, i, p).out.day == (if TruthyInt(it.day) then it.day else Some(i))
      && step(it, i, p).out.refs == it.refs && step(it, i, p).out.costs == it.costs
  }

  lemma {:induction false} ScanMatches(items: seq<RawItem>, idx: int, prevEnd: Option<string>, step: StepFn)
    requires idx >= 1 && KeepsKeys(step)
    ensures Matches(Scan(items, idx, prevEnd, step), Dicts(items, idx))
    decreases |items|
  {
    if items != [] {
      match items[0]
      case NonDict =>
        ScanMatches(items[1..], idx + 1, prevEnd, step);
      case Dict(it) =>
        var st := step(it, idx, prevEnd);
        var rest := Scan(items[1..], idx + 1, st.prevEnd, step);
        var ds := Dicts(items[1..], idx + 1);
        ScanMatches(items[1..], idx + 1, st.prevEnd, step);
        assert ([st.out] + rest)[1..] == rest;
        assert ([(idx, it)] + ds)[1..] == ds;
    }
  }

  lemma {:induction false} MatchesAt(outs: seq<DayItem>, ds: seq<(int, DayItem)>, k: int)
    requires Matches(outs, ds) && 0 <= k < |outs|
    ensures Normalized(outs[k])
    ensures outs[k].day == (if TruthyInt(ds[k].1.day) then ds[k].1.day else Some(ds[k].0))
    ensures outs[k].refs == ds[k].1.refs && outs[k].costs == ds[k].1.costs
    decreases |outs|
  {
    if k > 0 {
      MatchesAt(outs[1..], ds[1..], k - 1);
    }
  }

  /** The positions `Dicts` records are the 1-based input positions. */
  lemma {:induction false} DictsPositions(items: seq<RawItem>, idx: int, k: int)
    requires 0 <= k < |Dicts(items, idx)|
    ensures idx <= Dicts(items, idx)[k].0 < idx + |items|
    ensures items[Dicts(items, idx)[k].0 - idx] == Dict(Dicts(items, idx)[k].1)
    decreases |items|
  {
    match items[0]
    case NonDict =>
      DictsPositions(items[1..], idx + 1, k);
    case Dict(it) =>
      if k > 0 {
        DictsPositions(items[1..], idx + 1, k - 1);
      }
  }

  lemma NormalizeItemKeepsKeys()
    ensures KeepsKeys(NormalizeItem)
  {
  }

  /** Normalization keeps the dictionaries, in order, and drops everything
      else: the `k`-th output comes from the `k`-th dictionary, found at
      1-based input position `p`; it has a day (its own, or `p`), a route
      consistent with its cities, list-valued name keys, and the
      dictionary's references and costs. */
  lemma NormalizeKeepsDicts(items: seq<RawItem>, k: int)
    requires 0 <= k < |Normalize(items)|
    ensures |Normalize(items)| == |Dicts(items, 1)|
    ensures var p := Dicts(items, 1)[k].0;
      && 1 <= p <= |items| && items[p - 1].Dict?
      && var d := items[p - 1].item;
      && Normalized(Normalize(items)[k])
      && Normalize(items)[k].day == (if TruthyInt(d.day) then d.day else Some(p))
      && Normalize(items)[k].refs == d.refs && Normalize(items)[k].costs == d.costs
  {
    NormalizeItemKeepsKeys();
    ScanMatches(items, 1, None, NormalizeItem);
    MatchesAt(Normalize(items), Dicts(items, 1), k);
    DictsPositions(items, 1, k);
  }

  /** The city `prev_end` holds after writing `outs`, starting from `prevEnd`. */
  function CarriedAfter(prevEnd: Option<string>, outs: seq<DayItem>): Option<string>
    decreases |outs|
  {
    if outs == [] then prevEnd else CarriedAfter(Carry(prevEnd, outs[0].cities), outs[1..])
  }

  /** Every item starts at the city carried from the items before it, when
      there is one. */
  predicate Chained(prevEnd: Option<string>, outs: seq<DayItem>)
    decreases |outs|
  {
    outs != [] ==>
      && (Truthy(prevEnd) ==> outs[0].cities.sCity == prevEnd)
      && Chained(Carry(prevEnd, outs[0].cities), outs[1..])
  }

  /** A loop body that starts each item at the carried city and carries
      the item's end (or start) city on. */
  ghost predicate Chains(step: StepFn) {
    forall it, i, p ::
      && (Truthy(p) ==> step(it, i, p).out.cities.sCity == p)
      && step(it, i, p).prevEnd == Carry(p, step(it, i, p).out.cities)
  }

  lemma {:induction false} ScanChained(items: seq<RawItem>, idx: int, prevEnd: Option<string>, step: StepFn)
    requires Chains(step)
    ensures Chained(prevEnd, Scan(items, idx, prevEnd, step))
    decreases |items|
  {
    if items != [] {
      match items[0]
      case NonDict =>
        ScanChained(items[1..], idx + 1, prevEnd, step);
      case Dict(it) =>
        var st := step(it, idx, prevEnd);
        var rest := Scan(items[1..], idx + 1, st.prevEnd, step);
        ScanChained(items[1..], idx + 1, st.prevEnd, step);
        assert ([st.out] + rest)[1..] == rest;
    }
  }

  lemma {:induction false} ChainedAt(prevEnd: Option<string>, outs: seq<DayItem>, k: int)
    requires Chained(prevEnd, outs) && 0 <= k < |outs|
    requires Truthy(CarriedAfter(prevEnd, outs[..k]))
    ensures outs[k].cities.sCity == CarriedAfter(prevEnd, outs[..k])
    decreases |outs|
  {
    if k > 0 {
      assert outs[..k][1..] == outs[1..][..k - 1];
      ChainedAt(Carry(prevEnd, outs[0].cities), outs[1..], k - 1);
    }
  }

  lemma NormalizeItemChains()
    ensures Chains(NormalizeItem)
  {
  }

  /** Once a city has been carried from an earlier day, every later day
      starts there, whatever start city it named itself. */
  lemma Continuity(items: seq<RawItem>, k: int)
    requires 0 <= k < |Normalize(items)|
    requires Truthy(CarriedAfter(None, Normalize(items)[..k]))
    ensures Normalize(items)[k].cities.sCity == CarriedAfter(None, Normalize(items)[..k])
  {
    NormalizeItemChains();
    ScanChained(items, 1, None, NormalizeItem);
    ChainedAt(None, Normalize(items), k);
  }

  /** The list of dictionaries `items` is, as raw model output. */
  function AsRaw(items: seq<DayItem>): (r: seq<RawItem>)
    ensures |r| == |items|
  {
    if items == [] then [] else [Dict(items[0])] + AsRaw(items[1..])
  }

  /** A loop body that gives back what it wrote when run on it again, at
      any position, with the same carried city. */
  ghost predicate Reproduces(step: StepFn) {
    forall it, i, j, p :: i >= 1 ==> step(step(it, i, p).out, j, p) == step(it, i, p)
  }

  lemma {:induction false} ScanFixed(items: seq<RawItem>, idx: int, idx2: int, prevEnd: Option<string>, step: StepFn)
    requires idx >= 1 && Reproduces(step)
    ensures Scan(AsRaw(Scan(items, idx, prevEnd, step)), idx2, prevEnd, step) == Scan(items, idx, prevEnd, step)
    decreases |items|
  {
    if items == [] {
      assert AsRaw([]) == [];
    } else {
      match items[0]
      case NonDict =>
        ScanFixed(items[1..], idx + 1, idx2, prevEnd, step);
      case Dict(it) =>
        var st := step(it, idx, prevEnd);
        var rest := Scan(items[1..], idx + 1, st.prevEnd, step);
        var raw := AsRaw([st.out] + rest);
        assert ([st.out] + rest)[1..] == rest;
        assert raw[0] == Dict(st.out) && raw[1..] == AsRaw(rest);
        assert step(st.out, idx2, prevEnd) == st;
        ScanFixed(items[1..], idx + 1, idx2 + 1, st.prevEnd, step);
    }
  }

  lemma NormalizeItemReproduces()
    ensures Reproduces(NormalizeItem)
  {
    forall it, i, j, p | i >= 1
      ensures NormalizeItem(NormalizeItem(it, i, p).out, j, p) == NormalizeItem(it, i, p)
    {
      NormalizeItemFixed(it, i, j, p);
    }
  }

  /** Normalizing a normalized list changes nothing. */
  lemma NormalizeIdempotent(items: seq<RawItem>)
    ensures Normalize(AsRaw(Normalize(items))) == Normalize(items)
  {
    NormalizeItemReproduces();
    ScanFixed(items, 1, 1, None, NormalizeItem);
  }
}

=== FILE: agent_pipeline.dfy ===
/** The five-stage graph of `generate_itinerary_with_react` in
    backend/src/app/services/agent_service.py: assess the requirements,
    detect the intent, fetch the city's resources, generate the plan and
    validate it. Each stage is a `State -> State` function; the language
    model's answers, the catalog and the schema validation are parameters. */
module AgentPipeline {
  import opened Wrappers
  import opened Text
  import opened AgentItems
  import opened AgentHeuristics
  import opened AgentNormalize
  import opened AgentBackfill

  /** The request fields the graph reads. */
  datatype Request = Request(
    currentDestinations: seq<string>,
    currentDays: Option<int>,
    userPrompt: Option<string>,
    currentRows: nat,
    peopleCount: Option<int>,
    roomCount: Option<int>,
    conversationId: Option<string>)

  /** The resource lists `fetch_resources` stores for the prompt. */
  datatype Resources = Resources(hotels: seq<Priced>, spots: seq<Priced>, activities: seq<Priced>)

  /** The value held under the state's `itinerary` key: a list of JSON
      values, or a JSON `null`, number or boolean, which Python cannot
      iterate over. (A decoded string or object iterates to strings, so it
      is a list of non-dictionaries here.) */
  datatype PlanValue = Items(items: seq<RawItem>) | Scalar

  /** The graph state (`AgentState`). */
  datatype State = State(
    resources: Resources,
    itinerary: PlanValue,
    error: Option<string>,
    intent: Option<Intent>,
    needsMoreInfo: bool,
    followUp: Option<string>)

  const Initial := State(Resources([], [], []), Items([]), None, None, false, None)

  /** A stage that sees this state passes it on unchanged. */
  predicate Blocked(s: State) {
    Truthy(s.error) || s.needsMoreInfo
  }

  /** The draft proposal sent when no trip length was given. */
  function DefaultDaysMessage(days: int): (r: string)
    ensures StartsWith(r, "我先按" + IntToString(days) + "天")
  {
    "我先按" + IntToString(days) + "天给你出一版行程草案，可以吗？如需调整天数/节奏请告诉我。"
  }

  /** `assess_requirements`, given the question `_assess_requirements`
      produced. */
  function Assess(s: State, req: Request, question: Option<string>, cityCountry: CityTable): (r: State)
    ensures Truthy(question) && !HasMinimumRequirements(req.currentDestinations)
            ==> r.error == question && r.needsMoreInfo
    ensures Truthy(question) && HasMinimumRequirements(req.currentDestinations)
            ==> r.followUp == question && !r.needsMoreInfo && r.error == s.error
    ensures !Truthy(question) && HasMinimumRequirements(req.currentDestinations) && !TruthyInt(req.currentDays)
            ==> r.followUp == Some(DefaultDaysMessage(RecommendDays(req.currentDestinations[0], cityCountry)))
    ensures !Truthy(question) ==> !r.needsMoreInfo && r.error == s.error
    ensures !Truthy(question) && !(HasMinimumRequirements(req.currentDestinations) && !TruthyInt(req.currentDays))
            ==> r.followUp == s.followUp
    ensures r.itinerary == s.itinerary && r.resources == s.resources && r.intent == s.intent
  {
    if Truthy(question) then
      if HasMinimumRequirements(req.currentDestinations) then s.(followUp := question, needsMoreInfo := false)
      else s.(error := question, needsMoreInfo := true)
    else if HasMinimumRequirements(req.currentDestinations) && !TruthyInt(req.currentDays) then
      var days := RecommendDays(req.currentDestinations[0], cityCountry);
      s.(followUp := Some(DefaultDaysMessage(days)), needsMoreInfo := false)
    else s.(needsMoreInfo := false)
  }

  /** `detect_intent`. */
  function Detect(s: State, req: Request): (r: State)
    ensures Blocked(s) ==> r == s
    ensures !Blocked(s) ==> r == s.(intent := Some(DetectIntent(if req.userPrompt.Some? then req.userPrompt.value else "", req.currentRows)))
  {
    if Blocked(s) then s
    else s.(intent := Some(DetectIntent(if req.userPrompt.Some? then req.userPrompt.value else "", req.currentRows)))
  }

  /** `fetch_resources`, given what the three catalog queries return. */
  function Fetch(s: State, fetched: Resources): (r: State)
    ensures Blocked(s) ==> r == s
    ensures !Blocked(s) ==> r == s.(resources := fetched)
  {
    if Blocked(s) then s else s.(resources := fetched)
  }

  /** What the planning model's call ends in: an answer in the structured
      schema, a plain answer that decodes to JSON (already reduced to the
      value of its `itinerary` key when it is an object), one whose value
      is a JSON `null`, number or boolean, one that does not decode, or an
      exception from both the structured and the plain call, with its
      message. */
  datatype PlanReply =
    | Structured(items: seq<DayItem>)
    | Decoded(raw: seq<RawItem>)
    | DecodedScalar
    | Undecodable
    | CallFailed(message: string)

  /** The list a decoded or structured answer stores, and nothing else. */
  function ReplyItems(reply: PlanReply): (r: seq<RawItem>)
    ensures reply.Decoded? ==> r == reply.raw
    ensures reply.Structured? ==> |r| == |reply.items|
    ensures !reply.Decoded? && !reply.Structured? ==> r == []
  {
    match reply
    case Structured(items) => AsRaw(items)
    case Decoded(raw) => raw
    case _ => []
  }

  const ParseError := "Failed to parse JSON from AI"
  const ValidationError := "Validation failed"

  /** `generate_plan`. */
  function Generate(s: State, reply: PlanReply): (r: State)
    ensures Blocked(s) ==> r == s
    ensures !Blocked(s) && reply.Undecodable? ==> r.error == Some(ParseError) && r.itinerary == Items([])
    ensures !Blocked(s) && reply.CallFailed? ==> r.error == Some(reply.message) && r.itinerary == Items([])
    ensures !Blocked(s) && reply.Structured? ==> r.error == None && r.itinerary == Items(AsRaw(reply.items))
    ensures !Blocked(s) && reply.Decoded? ==> r.error == None && r.itinerary == Items(reply.raw)
    ensures !Blocked(s) && reply.DecodedScalar? ==> r.error == None && r.itinerary == Scalar
    ensures r.needsMoreInfo == s.needsMoreInfo && r.followUp == s.followUp
  {
    if Blocked(s) then s
    else match reply
      case Structured(items) => s.(itinerary := Items(AsRaw(items)), error := None)
      case Decoded(raw) => s.(itinerary := Items(raw), error := None)
      case DecodedScalar => s.(itinerary := Scalar, error := None)
      case Undecodable => s.(error := Some(ParseError), itinerary := Items([]))
      case CallFailed(msg) => s.(error := Some(msg), itinerary := Items([]))
  }

  /** How a run of the graph ends: with a final state, or with an
      exception no stage catches. */
  datatype Outcome = Finished(state: State) | Raised

  /** `validate_plan`: normalize, backfill prices, and check the schema
      (`accepts` stands for the pydantic validation). Only an error stops
      it. An itinerary that is not iterable makes `_normalize_itinerary`
      raise a `TypeError`, which only a `ValidationError` handler would
      have caught: the run raises. */
  function Validate(s: State, req: Request, c: Catalog, accepts: seq<DayItem> -> bool): (r: Outcome)
    ensures Truthy(s.error) ==> r == Finished(s)
    ensures !Truthy(s.error) && s.itinerary.Scalar? <==> r.Raised?
    ensures !Truthy(s.error) && s.itinerary.Items?
            && !accepts(Backfill(Normalize(s.itinerary.items), c, req.peopleCount, req.roomCount))
            ==> r.Finished? && r.state.error == Some(ValidationError) && r.state.itinerary == Items([])
    ensures !Truthy(s.error) && s.itinerary.Items?
            && accepts(Backfill(Normalize(s.itinerary.items), c, req.peopleCount, req.roomCount))
            ==> r.Finished? && r.state.error == s.error
                && r.state.itinerary == Items(AsRaw(Backfill(Normalize(s.itinerary.items), c, req.peopleCount, req.roomCount)))
    ensures r.Finished? ==> r.state.needsMoreInfo == s.needsMoreInfo && r.state.followUp == s.followUp
  {
    if Truthy(s.error) then Finished(s)
    else match s.itinerary
      case Scalar => Raised
      case Items(raw) =>
        var days := Backfill(Normalize(raw), c, req.peopleCount, req.roomCount);
        if accepts(days) then Finished(s.(itinerary := Items(AsRaw(days))))
        else Finished(s.(error := Some(ValidationError), itinerary := Items([])))
  }

  datatype Next = End | DetectIntentNode

  /** `route_after_assess`. */
  function RouteAfterAssess(s: State): (r: Next)
    ensures r == End <==> s.needsMoreInfo
  {
    if s.needsMoreInfo then End else DetectIntentNode
  }

  /** Everything outside the service the graph depends on. */
  datatype World = World(
    question: Option<string>,
    cityCountry: CityTable,
    fetched: Resources,
    reply: PlanReply,
    catalog: Catalog,
    accepts: seq<DayItem> -> bool)

  /** The compiled graph run on the initial state. */
  function RunGraph(req: Request, w: World): Outcome {
    var s1 := Assess(Initial, req, w.question, w.cityCountry);
    if RouteAfterAssess(s1) == End then Finished(s1)
    else Validate(Generate(Fetch(Detect(s1, req), w.fetched), w.reply), req, w.catalog, w.accepts)
  }

  /** Once an error is set, the later stages change nothing (validation
      looks at the error only; the three stages before it also stop at a
      request for more information). */
  lemma ErrorPassesThrough(s: State, req: Request, w: World)
    requires Truthy(s.error)
    ensures Validate(Generate(Fetch(Detect(s, req), w.fetched), w.reply), req, w.catalog, w.accepts) == Finished(s)
  {
  }

  /** The assessment asks for more information only together with an
      error, so a blocked run is stopped by every later stage. */
  lemma AssessBlocksWithError(s: State, req: Request, question: Option<string>, cityCountry: CityTable)
    requires !s.needsMoreInfo
    ensures Assess(s, req, question, cityCountry).needsMoreInfo ==> Truthy(Assess(s, req, question, cityCountry).error)
  {
  }

  /** Without a destination, a question ends the run with that question as
      the error and no itinerary. */
  lemma QuestionWithoutDestinationEnds(req: Request, w: World)
    requires Truthy(w.question) && req.currentDestinations == []
    ensures RunGraph(req, w).Finished?
    ensures RunGraph(req, w).state.error == w.question
    ensures RunGraph(req, w).state.needsMoreInfo
    ensures RunGraph(req, w).state.itinerary == Items([])
  {
  }

  /** With a destination, the question becomes a follow-up and the plan is
      still made. */
  lemma QuestionWithDestinationFollowsUp(req: Request, w: World)
    requires Truthy(w.question) && req.currentDestinations != []
    ensures RunGraph(req, w).Finished? ==> RunGraph(req, w).state.followUp == w.question
    ensures RunGraph(req, w).Finished? ==> !RunGraph(req, w).state.needsMoreInfo
    ensures RunGraph(req, w).Raised? <==> w.reply.DecodedScalar?
  {
  }

  /** With a destination, no question and no trip length, the follow-up
      proposes the recommended length. */
  lemma DefaultDaysFollowUp(req: Request, w: World)
    requires !Truthy(w.question) && req.currentDestinations != [] && !TruthyInt(req.currentDays)
    ensures RunGraph(req, w).Finished? ==>
              RunGraph(req, w).state.followUp == Some(DefaultDaysMessage(RecommendDays(req.currentDestinations[0], w.cityCountry)))
  {
  }

  /** An answer that does not decode ends the run with the parse error and
      no itinerary; validation does not run. */
  lemma UndecodableReplyFails(req: Request, w: World)
    requires req.currentDestinations != [] && w.reply.Undecodable?
    ensures RunGraph(req, w).Finished?
    ensures RunGraph(req, w).state.error == Some(ParseError)
    ensures RunGraph(req, w).state.itinerary == Items([])
  {
    var s1 := ProceedsWithDestination(req, w);
    var s3 := Generate(Fetch(Detect(s1, req), w.fetched), w.reply);
    assert s3.error == Some(ParseError);
    assert RunGraph(req, w) == Validate(s3, req, w.catalog, w.accepts);
  }

  /** An answer that decodes to a JSON `null`, number or boolean reaches
      validation, which cannot iterate over it: the run raises. */
  lemma ScalarReplyRaises(req: Request, w: World)
    requires req.currentDestinations != [] && w.reply.DecodedScalar?
    ensures RunGraph(req, w).Raised?
  {
    var s1 := ProceedsWithDestination(req, w);
    var s3 := Generate(Fetch(Detect(s1, req), w.fetched), w.reply);
    assert s3.error == None && s3.itinerary == Scalar;
    assert RunGraph(req, w) == Validate(s3, req, w.catalog, w.accepts);
  }

  /** With a destination the assessment blocks nothing: the run goes on to
      the later stages with no error set. */
  lemma ProceedsWithDestination(req: Request, w: World) returns (s1: State)
    requires req.currentDestinations != []
    ensures s1 == Assess(Initial, req, w.question, w.cityCountry)
    ensures !Blocked(s1) && RouteAfterAssess(s1) == DetectIntentNode
  {
    s1 := Assess(Initial, req, w.question, w.cityCountry);
  }

  /** A plan the schema rejects ends the run with the validation error and
      no itinerary. */
  lemma RejectedPlanFails(req: Request, w: World)
    requires req.currentDestinations != [] && (w.reply.Structured? || w.reply.Decoded?)
    requires !w.accepts(Backfill(Normalize(ReplyItems(w.reply)), w.catalog, req.peopleCount, req.roomCount))
    ensures RunGraph(req, w).Finished?
    ensures RunGraph(req, w).state.error == Some(ValidationError)
    ensures RunGraph(req, w).state.itinerary == Items([])
  {
    var s1 := ProceedsWithDestination(req, w);
    var s3 := Generate(Fetch(Detect(s1, req), w.fetched), w.reply);
    assert s3.error == None;
    assert RunGraph(req, w) == Validate(s3, req, w.catalog, w.accepts);
  }

  /** The items of an accepted plan are normalized days: numbered, with a
      route agreeing with their cities and list-valued name keys. */
  lemma AcceptedPlanIsNormalized(req: Request, w: World, k: int)
    requires RunGraph(req, w).Finished?
    requires !RunGraph(req, w).state.needsMoreInfo && !Truthy(RunGraph(req, w).state.error)
    requires w.reply.Structured? || w.reply.Decoded?
    requires RunGraph(req, w).state.itinerary.Items?
    requires 0 <= k < |RunGraph(req, w).state.itinerary.items|
    ensures RunGraph(req, w).state.itinerary.items[k].Dict?
    ensures Normalized(RunGraph(req, w).state.itinerary.items[k].item)
  {
    var s1 := Assess(Initial, req, w.question, w.cityCountry);
    var s4 := Generate(Fetch(Detect(s1, req), w.fetched), w.reply);
    var normalized := Normalize(s4.itinerary.items);
    var days := Backfill(normalized, w.catalog, req.peopleCount, req.roomCount);
    assert RunGraph(req, w).state.itinerary == Items(AsRaw(days));
    AsRawAt(days, k);
    NormalizeKeepsDicts(s4.itinerary.items, k);
  }

  lemma {:induction false} AsRawAt(items: seq<DayItem>, k: int)
    requires 0 <= k < |items|
    ensures AsRaw(items)[k] == Dict(items[k])
  {
    if k > 0 {
      AsRawAt(items[1..], k - 1);
    }
  }

  /** The service's answer. */
  datatype Answer = Answer(itinerary: PlanValue, error: Option<string>, followUp: Option<string>)

  const NotConfiguredError := "LLM not configured (LangChain)"

  /** `generate_itinerary_with_react`: the graph's answer (`None` when the
      run raised, which also skips the summary), and the memory store after
      the summary of a conversation with an id was saved. `username` is the
      signed-in user's name, `summary` the summary model's reply. */
  function GenerateItinerary(req: Request, w: World, llmConfigured: bool, username: Option<string>,
                     store: MemoryStore, summary: SummaryReply): (r: (Option<Answer>, MemoryStore))
    ensures !llmConfigured ==> r == (Some(Answer(Items([]), Some(NotConfiguredError), None)), store)
    ensures llmConfigured && RunGraph(req, w).Raised? ==> r == (None, store)
    ensures llmConfigured && RunGraph(req, w).Finished? ==>
              var s := RunGraph(req, w).state;
              r.0 == Some(Answer(s.itinerary, s.error, s.followUp))
    ensures !Truthy(req.conversationId) ==> r.1 == store
  {
    if !llmConfigured then (Some(Answer(Items([]), Some(NotConfiguredError), None)), store)
    else
      var run := RunGraph(req, w);
      if run.Raised? then (None, store)
      else
      var s := run.state;
      var answer := Some(Answer(s.itinerary, s.error, s.followUp));
      if !Truthy(req.conversationId) then (answer, store)
      else
        var existing := LoadMemory(store, username, req.conversationId);
        var next := SummarizeMemory(existing, llmConfigured, summary);
        if Truthy(next) then (answer, SaveMemory(store, username, req.conversationId, next.value))
        else (answer, store)
  }

  /** A run of a conversation whose summary the model produced leaves that
      summary where the next run loads it. */
  lemma RunSavesSummary(req: Request, w: World, username: Option<string>, store: MemoryStore, text: string)
    requires Truthy(req.conversationId) && text != "" && RunGraph(req, w).Finished?
    ensures var r := GenerateItinerary(req, w, true, username, store, Summarized(text));
      LoadMemory(r.1, username, req.conversationId) == Some(text)
  {
    SaveThenLoad(store, username, req.conversationId, text);
  }
}

=== FILE: catalog_access.dfy ===
/** The client-side catalog rules of the resource database screen, in
    both of its versions: frontend/src/components/ResourceDatabase.tsx
    (the current one, where `admin` counts as a super administrator) and
    components/ResourceDatabase.tsx (the earlier one, where only
    `super_admin` does). Who may see an entry, see its real price, and
    edit it; and the local list edits those rules guard. A confirmation
    dialog is a boolean, the clock and generated ids are parameters. */
module CatalogAccess {
  import opened Wrappers
  import opened Text
  import opened Seqs
  import opened Accounts
  import LegacyPlanner

  /** Which version of the screen. */
  datatype Policy = Current | Earlier

  /** A catalog entry: its id, creator, public flag (either may be
      missing), last change time and the remaining columns. */
  datatype Entry = Entry(id: string, createdBy: Option<string>, isPublic: Option<bool>, lastUpdated: int,
                         fields: map<string, string>)

  predicate IsSuper(policy: Policy, user: Option<Account>) {
    user.Some? && (user.value.role == SuperAdmin || (policy == Current && user.value.role == Admin))
  }

  predicate IsAdmin(user: Option<Account>) {
    user.Some? && user.value.role == Admin
  }

  predicate PublicFlag(e: Entry) {
    e.isPublic == Some(true)
  }

  /** The entry names a creator (`item.createdBy` is truthy). */
  predicate Owned(e: Entry) {
    e.createdBy.Some? && e.createdBy.value != ""
  }

  /** `item.createdBy === currentUser?.username`: also true when both are
      missing. */
  predicate SameOwner(e: Entry, user: Option<Account>) {
    e.createdBy == (if user.Some? then Some(user.value.username) else None)
  }

  /** `isVisible`. */
  predicate Visible(policy: Policy, user: Option<Account>, e: Entry) {
    IsSuper(policy, user) || PublicFlag(e) || SameOwner(e, user) || !Owned(e)
  }

  /** `canSeeRealPrice`. */
  predicate CanSeeRealPrice(policy: Policy, user: Option<Account>, e: Entry) {
    if SameOwner(e, user) then true
    else if !Owned(e) then IsSuper(policy, user) || IsAdmin(user)
    else if PublicFlag(e) then IsSuper(policy, user) || IsAdmin(user)
    else IsSuper(policy, user)
  }

  /** `canEdit`. */
  predicate CanEdit(policy: Policy, user: Option<Account>, e: Entry) {
    if IsSuper(policy, user) then true
    else if PublicFlag(e) then false
    else if !Owned(e) then false
    else SameOwner(e, user)
  }

  /** The three permissions of one user on one entry. */
  datatype Permissions = Permissions(visible: bool, realPrice: bool, edit: bool)

  function PermissionsOf(policy: Policy, user: Option<Account>, e: Entry): (p: Permissions)
    ensures p.edit ==> p.visible && p.realPrice
    ensures !IsSuper(policy, user) && (PublicFlag(e) || !Owned(e)) ==> !p.edit
    ensures IsSuper(policy, user) ==> p == Permissions(true, true, true)
    ensures policy == Current && IsAdmin(user) ==> p.edit
    ensures policy == Earlier && IsAdmin(user) && (PublicFlag(e) || !Owned(e)) ==> p.realPrice && !p.edit
    ensures p.visible <==> IsSuper(policy, user) || PublicFlag(e) || !Owned(e) || SameOwner(e, user)
  {
    Permissions(Visible(policy, user, e), CanSeeRealPrice(policy, user, e), CanEdit(policy, user, e))
  }

  /** `maskPrice` of the earlier screen. */
  function MaskPrice(policy: Policy, user: Option<Account>, price: int, e: Entry): (r: string)
    ensures CanSeeRealPrice(policy, user, e) ==> r == IntToString(price)
    ensures |r| == |IntToString(price)| && r[0] == IntToString(price)[0]
    ensures !CanSeeRealPrice(policy, user, e) ==> forall k :: 1 <= k < |r| ==> r[k] == '*'
  {
    LegacyPlanner.MaskNumber(price, !CanSeeRealPrice(policy, user, e))
  }

  // ---------------------------------------------------------------------
  // Reading server rows
  // ---------------------------------------------------------------------

  /** A row as the server sends it: the entry as spread, plus the
      server's `ownerId`/`owner_id` and `is_public` spellings. */
  datatype RawEntry = RawEntry(entry: Entry, ownerId: Option<string>, ownerIdSnake: Option<string>, isPublicSnake: Option<bool>)

  /** `normalizeOwner`: `createdBy` from `ownerId ?? owner_id`, `isPublic`
      from `isPublic ?? is_public`; everything else kept. */
  function NormalizeOwner(raw: RawEntry): (r: RawEntry)
    ensures r.entry.createdBy == (if raw.ownerId.Some? then raw.ownerId else raw.ownerIdSnake)
    ensures r.entry.isPublic == (if raw.entry.isPublic.Some? then raw.entry.isPublic else raw.isPublicSnake)
    ensures r == raw.(entry := raw.entry.(createdBy := r.entry.createdBy, isPublic := r.entry.isPublic))
  {
    var owner := if raw.ownerId.Some? then raw.ownerId else raw.ownerIdSnake;
    var pub := if raw.entry.isPublic.Some? then raw.entry.isPublic else raw.isPublicSnake;
    raw.(entry := raw.entry.(createdBy := owner, isPublic := pub))
  }

  lemma NormalizeOwnerIdempotent(raw: RawEntry)
    ensures NormalizeOwner(NormalizeOwner(raw)) == NormalizeOwner(raw)
  {
  }

  /** `mergeByCity` / `mergeByRegion` / `mergeByCountry`: the entries of
      one group (`key` gives an item's city id, region or country) are
      replaced by `next`. */
  function MergeBy<T(==,!new)>(items: seq<T>, key: T -> Option<string>, k: string, next: seq<T>): (r: seq<T>)
    ensures |r| >= |next| && r[|r| - |next|..] == next
    ensures forall x :: x in r[..|r| - |next|] <==> x in items && key(x) != Some(k)
    ensures IsSubseq(r[..|r| - |next|], items)
  {
    var kept := Filter(items, x => key(x) != Some(k));
    FilterIsSubseq(items, x => key(x) != Some(k));
    assert (kept + next)[..|kept|] == kept;
    kept + next
  }

  /** When `next` is all of one group, that group of the result is exactly
      `next` and the other groups are untouched. */
  lemma MergeByReplacesGroup<T(!new)>(items: seq<T>, key: T -> Option<string>, k: string, next: seq<T>)
    requires forall x :: x in next ==> key(x) == Some(k)
    ensures Filter(MergeBy(items, key, k, next), x => key(x) == Some(k)) == next
    ensures Filter(MergeBy(items, key, k, next), x => key(x) != Some(k)) == Filter(items, x => key(x) != Some(k))
  {
    var other := (x: T) => key(x) != Some(k);
    var same := (x: T) => key(x) == Some(k);
    var kept := Filter(items, other);
    FilterAppend(kept, next, same);
    FilterAppend(kept, next, other);
    FilterNone(kept, same);
    FilterNone(next, other);
    FilterAll(next, same);
    FilterAll(kept, other);
  }

  /** Merging the same group twice is merging it once. */
  lemma MergeByTwice<T(!new)>(items: seq<T>, key: T -> Option<string>, k: string, next: seq<T>)
    requires forall x :: x in next ==> key(x) == Some(k)
    ensures MergeBy(MergeBy(items, key, k, next), key, k, next) == MergeBy(items, key, k, next)
  {
    MergeByReplacesGroup(items, key, k, next);
  }

  // ---------------------------------------------------------------------
  // Local edits
  // ---------------------------------------------------------------------

  /** `items.find(i => i.id === id)`. */
  function Find(items: seq<Entry>, id: string): (r: Option<Entry>)
    ensures r.Some? ==> r.value in items && r.value.id == id
    ensures r.None? ==> forall e :: e in items ==> e.id != id
  {
    if items == [] then None
    else if items[0].id == id then Some(items[0])
    else Find(items[1..], id)
  }

  /** Whether the local edit of entry `id` goes ahead. */
  predicate Editable(policy: Policy, user: Option<Account>, items: seq<Entry>, id: string) {
    Find(items, id).Some? && CanEdit(policy, user, Find(items, id).value)
  }

  /** `updateItemLocal` (current) and `updateItem` (earlier): every entry
      with the id takes the new column values and the time of the change. */
  function UpdateItem(policy: Policy, user: Option<Account>, items: seq<Entry>, id: string,
                      diff: map<string, string>, now: int): (r: seq<Entry>)
    ensures !Editable(policy, user, items, id) ==> r == items
    ensures |r| == |items|
    ensures Editable(policy, user, items, id) ==> forall i :: 0 <= i < |items| ==>
              r[i] == (if items[i].id == id then items[i].(fields := items[i].fields + diff, lastUpdated := now) else items[i])
  {
    if !Editable(policy, user, items, id) then items
    else MapWhere(items, (e: Entry) => e.id == id, (e: Entry) => e.(fields := e.fields + diff, lastUpdated := now))
  }

  lemma {:induction false} FindAfterUpdate(items: seq<Entry>, id: string, diff: map<string, string>, now: int)
    requires Find(items, id).Some?
    ensures var r := MapWhere(items, (e: Entry) => e.id == id, (e: Entry) => e.(fields := e.fields + diff, lastUpdated := now));
            Find(r, id) == Some(Find(items, id).value.(fields := Find(items, id).value.fields + diff, lastUpdated := now))
  {
    var f := (e: Entry) => e.(fields := e.fields + diff, lastUpdated := now);
    var r := MapWhere(items, (e: Entry) => e.id == id, f);
    if items[0].id != id {
      FindAfterUpdate(items[1..], id, diff, now);
      assert r[1..] == MapWhere(items[1..], (e: Entry) => e.id == id, f);
    }
  }

  lemma MergeTwice(m: map<string, string>, d: map<string, string>)
    ensures m + d + d == m + d
  {
  }

  /** An update keeps the entry's owner and public flag, so it stays
      editable, and repeating it changes nothing more. */
  lemma UpdateTwice(policy: Policy, user: Option<Account>, items: seq<Entry>, id: string, diff: map<string, string>, now: int)
    ensures UpdateItem(policy, user, UpdateItem(policy, user, items, id, diff, now), id, diff, now)
            == UpdateItem(policy, user, items, id, diff, now)
  {
    if Editable(policy, user, items, id) {
      FindAfterUpdate(items, id, diff, now);
      var e := Find(items, id).value;
      var r := UpdateItem(policy, user, items, id, diff, now);
      assert Find(r, id) == Some(e.(fields := e.fields + diff, lastUpdated := now));
      assert Editable(policy, user, r, id);
      var rr := UpdateItem(policy, user, r, id, diff, now);
      forall i | 0 <= i < |items| ensures rr[i] == r[i] {
        if items[i].id == id {
          MergeTwice(items[i].fields, diff);
        }
      }
    }
  }

  /** `deleteItemLocal` (current) and `deleteItem` (earlier). */
  function DeleteItem(policy: Policy, user: Option<Account>, items: seq<Entry>, id: string, confirmed: bool): (r: seq<Entry>)
    ensures !(Editable(policy, user, items, id) && confirmed) ==> r == items
    ensures Editable(policy, user, items, id) && confirmed ==>
              IsSubseq(r, items) && forall e :: e in r <==> e in items && e.id != id
  {
    if Editable(policy, user, items, id) && confirmed then
      FilterIsSubseq(items, (e: Entry) => e.id != id);
      Filter(items, (e: Entry) => e.id != id)
    else items
  }

  /** A deleted entry is gone for good: deleting it again does nothing. */
  lemma DeleteTwice(policy: Policy, user: Option<Account>, items: seq<Entry>, id: string, confirmed: bool)
    ensures var r := DeleteItem(policy, user, items, id, confirmed);
            Editable(policy, user, items, id) && confirmed ==> Find(r, id).None? && DeleteItem(policy, user, r, id, confirmed) == r
  {
  }

  /** `togglePublicLocal` of the current screen: every entry with the id
      has its own public flag negated. */
  function TogglePublic(user: Option<Account>, items: seq<Entry>, id: string): (r: seq<Entry>)
    ensures !IsSuper(Current, user) ==> r == items
    ensures |r| == |items|
    ensures IsSuper(Current, user) ==> forall i :: 0 <= i < |items| ==>
              (items[i].id == id ==> r[i] == items[i].(isPublic := Some(!PublicFlag(items[i]))))
              && (items[i].id != id ==> r[i] == items[i])
  {
    if !IsSuper(Current, user) then items
    else MapWhere(items, (e: Entry) => e.id == id, (e: Entry) => e.(isPublic := Some(!PublicFlag(e))))
  }

  /** Toggling twice restores the list, once the flags involved are set. */
  lemma TogglePublicTwice(user: Option<Account>, items: seq<Entry>, id: string)
    requires forall e :: e in items && e.id == id ==> e.isPublic.Some?
    ensures TogglePublic(user, TogglePublic(user, items, id), id) == items
  {
    var r := TogglePublic(user, items, id);
    var rr := TogglePublic(user, r, id);
    if IsSuper(Current, user) {
      forall i | 0 <= i < |items| ensures rr[i] == items[i] {
        assert r[i].id == items[i].id;
        if items[i].id == id {
          assert items[i] in items;
          var b := items[i].isPublic.value;
          assert r[i] == items[i].(isPublic := Some(!b));
          assert rr[i] == r[i].(isPublic := Some(b));
        }
      }
    }
  }

  /** `togglePublic` of the earlier screen: the flag shown on the clicked
      entry, negated, is written to every entry with its id, with the time. */
  function TogglePublicEarlier(user: Option<Account>, items: seq<Entry>, item: Entry, now: int): (r: seq<Entry>)
    ensures !IsSuper(Earlier, user) ==> r == items
    ensures |r| == |items|
    ensures IsSuper(Earlier, user) ==> forall i :: 0 <= i < |items| ==>
              (items[i].id == item.id ==> r[i] == items[i].(isPublic := Some(!PublicFlag(item)), lastUpdated := now))
              && (items[i].id != item.id ==> r[i] == items[i])
  {
    if !IsSuper(Earlier, user) then items
    else MapWhere(items, (e: Entry) => e.id == item.id, (e: Entry) => e.(isPublic := Some(!PublicFlag(item)), lastUpdated := now))
  }

  /** `handleCreate` of the earlier screen: one new entry at the end,
      public exactly when a super administrator creates it. */
  function HandleCreate(user: Option<Account>, readOnly: bool, items: seq<Entry>, freshId: string, now: int,
                        fields: map<string, string>): (r: seq<Entry>)
    ensures readOnly ==> r == items
    ensures !readOnly ==> |r| == |items| + 1 && r[..|items|] == items
                          && r[|items|].id == freshId && r[|items|].isPublic == Some(IsSuper(Earlier, user))
  {
    if readOnly then items
    else
      var who := if user.Some? && user.value.username != "" then user.value.username else "unknown";
      items + [Entry(freshId, Some(who), Some(IsSuper(Earlier, user)), now, fields)]
  }

  /** Whoever creates an entry under their own name may edit it. */
  lemma CreatorCanEdit(user: Account, items: seq<Entry>, freshId: string, now: int, fields: map<string, string>)
    requires user.username != ""
    ensures var r := HandleCreate(Some(user), false, items, freshId, now, fields);
            CanEdit(Earlier, Some(user), r[|items|]) && Visible(Earlier, Some(user), r[|items|])
  {
  }
}

=== FILE: community.dfy ===
/** The post feed of components/Community.tsx: likes, view and comment
    counters, deleting and editing a post, and the feed filter. Storage
    calls become returned lists; the confirmation dialog is a boolean; the
    clock and generated ids are parameters. */
module Community {
  import opened Wrappers
  import opened Text
  import opened Seqs
  import opened Accounts

  /** A published trip. `destinations` are the destinations of the trip's
      settings, a field every post carries. */
  datatype Post = Post(id: string, title: string, description: string, tags: seq<string>,
                       likes: int, likedBy: Option<seq<string>>, viewCount: Option<int>, commentCount: Option<int>,
                       destinations: seq<string>, startDate: string)

  datatype Comment = Comment(id: string, postId: string, userId: string, content: string, createdAt: int)

  const PredefinedTags: seq<string> := ["求包车", "求租车", "约搭子", "求导游", "求拼房"]

  /** The users who liked a post (`post.likedBy || []`). */
  function Likers(p: Post): seq<string> {
    p.likedBy.GetOr([])
  }

  /** The post after `username` presses like: a like is withdrawn if given,
      else added. */
  function ToggleLike(p: Post, username: string): (r: Post)
    ensures r == p.(likes := r.likes, likedBy := r.likedBy)
    ensures username in Likers(p) ==> r.likes == p.likes - 1 && username !in Likers(r)
    ensures username !in Likers(p) ==> r.likes == p.likes + 1 && username in Likers(r)
    ensures forall u :: u != username ==> (u in Likers(r) <==> u in Likers(p))
  {
    if username in Likers(p) then p.(likes := p.likes - 1, likedBy := Some(Filter(Likers(p), u => u != username)))
    else p.(likes := p.likes + 1, likedBy := Some(Likers(p) + [username]))
  }

  /** Pressing like twice restores the count and who liked the post. */
  lemma LikeTwiceRestores(p: Post, username: string)
    ensures ToggleLike(ToggleLike(p, username), username).likes == p.likes
    ensures forall u :: u in Likers(ToggleLike(ToggleLike(p, username), username)) <==> u in Likers(p)
  {
  }

  /** `handleLike`: the clicked post (as displayed) replaces every post with
      its id. */
  function HandleLike(posts: seq<Post>, post: Post, username: string): (r: seq<Post>)
    ensures |r| == |posts|
    ensures forall i :: 0 <= i < |posts| ==> r[i] == (if posts[i].id == post.id then ToggleLike(post, username) else posts[i])
  {
    MapWhere(posts, (p: Post) => p.id == post.id, (p: Post) => ToggleLike(post, username))
  }

  /** A counter that may be missing, read as in `(count || 0)`. */
  function Count(c: Option<int>): int {
    c.GetOr(0)
  }

  /** `openPost`: the view counter goes up by one. */
  function OpenPost(posts: seq<Post>, post: Post): (r: seq<Post>)
    ensures |r| == |posts|
    ensures forall i :: 0 <= i < |posts| && posts[i].id == post.id ==>
              Count(r[i].viewCount) == Count(post.viewCount) + 1 && r[i] == post.(viewCount := r[i].viewCount)
    ensures forall i :: 0 <= i < |posts| && posts[i].id != post.id ==> r[i] == posts[i]
  {
    MapWhere(posts, (p: Post) => p.id == post.id, (p: Post) => post.(viewCount := Some(Count(post.viewCount) + 1)))
  }

  /** What a comment changes: all stored comments, the feed, the post on show. */
  datatype Commented = Commented(comments: seq<Comment>, posts: seq<Post>, active: Post)

  /** `submitComment`: nothing for a blank comment or no open post;
      otherwise the trimmed comment is stored and the post's comment
      counter goes up by one. */
  function SubmitComment(posts: seq<Post>, stored: seq<Comment>, active: Option<Post>, content: string,
                         user: Account, freshId: string, now: int): (r: Option<Commented>)
    ensures r.None? <==> active.None? || Trim(content) == ""
    ensures r.Some? ==> |r.value.comments| == |stored| + 1 && r.value.comments[..|stored|] == stored
    ensures r.Some? ==> var c := r.value.comments[|stored|];
              c.content == Trim(content) && c.content != "" && Trimmed(c.content)
              && c.postId == active.value.id && c.userId == user.username
    ensures r.Some? ==> Count(r.value.active.commentCount) == Count(active.value.commentCount) + 1
    ensures r.Some? ==> (|r.value.posts| == |posts|
              && forall i :: 0 <= i < |posts| ==> r.value.posts[i] == (if posts[i].id == active.value.id then r.value.active else posts[i]))
  {
    if active.None? || Trim(content) == "" then None
    else
      var c := Comment(freshId, active.value.id, user.username, Trim(content), now);
      var updated := active.value.(commentCount := Some(Count(active.value.commentCount) + 1));
      var all := stored + [c];
      assert all[..|stored|] == stored;
      Some(Commented(all, MapWhere(posts, (p: Post) => p.id == updated.id, (p: Post) => updated), updated))
  }

  /** `handleDeletePost`. */
  function DeletePost(posts: seq<Post>, id: string, confirmed: bool): (r: seq<Post>)
    ensures !confirmed ==> r == posts
    ensures confirmed ==> IsSubseq(r, posts) && forall p :: p in r <==> p in posts && p.id != id
  {
    if confirmed then
      FilterIsSubseq(posts, (p: Post) => p.id != id);
      Filter(posts, (p: Post) => p.id != id)
    else posts
  }

  /** `handleStartEdit`: only the predefined tags are offered for editing. */
  function EditableTags(tags: seq<string>): (r: seq<string>)
    ensures forall t :: t in r <==> t in tags && t in PredefinedTags
    ensures IsSubseq(r, tags)
  {
    FilterIsSubseq(tags, t => t in PredefinedTags);
    Filter(tags, t => t in PredefinedTags)
  }

  datatype EditOutcome = NotEditing | BlankField | Edited(posts: seq<Post>, post: Post)

  /** `handleSaveEdit`: a blank title or description is refused; otherwise
      the post takes the new title and description, and as tags the trip's
      destinations and the chosen tags, each once. */
  function SaveEdit(posts: seq<Post>, editing: Option<Post>, title: string, description: string,
                    chosenTags: seq<string>): (r: EditOutcome)
    ensures r == NotEditing <==> editing.None?
    ensures r == BlankField <==> editing.Some? && (Trim(title) == "" || Trim(description) == "")
    ensures r.Edited? ==> r.post == editing.value.(title := title, description := description, tags := r.post.tags)
    ensures r.Edited? ==> (Distinct(r.post.tags)
              && forall t :: t in r.post.tags <==> t in editing.value.destinations || t in chosenTags)
    ensures r.Edited? ==> (|r.posts| == |posts|
              && forall i :: 0 <= i < |posts| ==> r.posts[i] == (if posts[i].id == editing.value.id then r.post else posts[i]))
  {
    if editing.None? then NotEditing
    else if Trim(title) == "" || Trim(description) == "" then BlankField
    else
      var tags := Dedupe(editing.value.destinations + chosenTags, {});
      var updated := editing.value.(title := title, description := description, tags := tags);
      Edited(MapWhere(posts, (p: Post) => p.id == updated.id, (p: Post) => updated), updated)
  }

  /** Saving without changing anything keeps tags that were already a
      duplicate-free list of destinations then chosen tags. */
  lemma SaveEditKeepsCleanTags(posts: seq<Post>, p: Post, chosenTags: seq<string>)
    requires Trim(p.title) != "" && Trim(p.description) != ""
    requires p.tags == p.destinations + chosenTags && Distinct(p.tags)
    ensures SaveEdit(posts, Some(p), p.title, p.description, chosenTags).post == p
  {
    DedupeOfDistinct(p.tags, {});
  }

  /** One post against the feed filters; an empty filter matches everything. */
  predicate Matches(p: Post, search: string, country: string, tag: string, date: string) {
    (Contains(ToLower(p.title), ToLower(search)) || Contains(ToLower(p.description), ToLower(search)))
    && (country == "" || country in p.destinations)
    && (tag == "" || tag in p.tags)
    && (date == "" || LexLe(date, p.startDate))
  }

  /** `filteredPosts`. */
  function FilteredPosts(posts: seq<Post>, search: string, country: string, tag: string, date: string): (r: seq<Post>)
    ensures forall p :: p in r <==> p in posts && Matches(p, search, country, tag, date)
    ensures IsSubseq(r, posts)
  {
    FilterIsSubseq(posts, p => Matches(p, search, country, tag, date));
    Filter(posts, p => Matches(p, search, country, tag, date))
  }

  /** With every filter empty the whole feed shows. */
  lemma EmptyFiltersShowAll(posts: seq<Post>)
    ensures FilteredPosts(posts, "", "", "", "") == posts
  {
    forall p | p in posts ensures Matches(p, "", "", "", "") {
      assert StartsWith(ToLower(p.title), "");
    }
    FilterAll(posts, p => Matches(p, "", "", "", ""));
  }
}

=== FILE: legacy_planner.dfy ===
/** The arithmetic and rules of the earlier planner front end (App.tsx):
    masked price display, room-type choice, splitting a party over hotel
    rooms, the room and vehicle counts of the assistant's plan, growing the
    day table, and the overwrite rule of saving. Here only `super_admin`
    counts as a super administrator. */
module LegacyPlanner {
  import opened Wrappers
  import opened Text
  import opened TripRows
  import opened Accounts

  predicate IsSuper(user: Option<Account>) {
    user.Some? && user.value.role == "super_admin"
  }

  /** `isResourceVisible`: a super administrator sees every catalog entry;
      anyone sees public entries, their own, and entries without a creator. */
  predicate Visible(user: Option<Account>, createdBy: Option<string>, isPublic: bool) {
    IsSuper(user) || isPublic || createdBy.None? || createdBy.value == ""
    || (user.Some? && createdBy.value == user.value.username)
  }

  /** `shouldMaskPrice`: only plain members see public prices masked. */
  predicate ShouldMask(user: Option<Account>, sourcePublic: bool) {
    user.Some? && user.value.role == "user" && sourcePublic
  }

  // ---------------------------------------------------------------------
  // Masked numbers
  // ---------------------------------------------------------------------

  function Stars(n: nat): (r: string)
    ensures |r| == n && forall k :: 0 <= k < n ==> r[k] == '*'
  {
    seq(n, k requires 0 <= k < n => '*')
  }

  /** `maskNumber` on an integer amount: the plain decimal text, or, when
      masked, its first character followed by one `*` per further character. */
  function MaskNumber(num: int, masked: bool): (r: string)
    ensures !masked ==> r == IntToString(num)
    ensures |r| == |IntToString(num)| && r[0] == IntToString(num)[0]
    ensures masked ==> forall k :: 1 <= k < |r| ==> r[k] == '*'
  {
    var s := IntToString(num);
    if !masked || |s| <= 1 then s else [s[0]] + Stars(|s| - 1)
  }

  /** The unmasked text of an amount reads back as the amount. */
  lemma UnmaskedReadsBack(num: nat)
    ensures ParseDigits(MaskNumber(num, false)) == num
  {
    ParseNatToString(num);
  }

  /** Masking shows nothing but the length and the leading character:
      amounts that agree on those look the same. */
  lemma MaskHidesDigits(a: int, b: int)
    requires |IntToString(a)| == |IntToString(b)| && IntToString(a)[0] == IntToString(b)[0]
    ensures MaskNumber(a, true) == MaskNumber(b, true)
  {
  }

  // ---------------------------------------------------------------------
  // Room types and the party split
  // ---------------------------------------------------------------------

  /** A hotel catalog entry: one room type of one hotel. */
  datatype HotelEntry = HotelEntry(name: string, roomType: string, price: int, createdBy: Option<string>, isPublic: bool)

  /** The room type chosen when the catalog knows nothing of the hotel. */
  function FallbackRoomType(occupancy: int, prefType: string): (r: string)
    ensures occupancy <= 1 ==> r == "单人间"
    ensures occupancy == 3 ==> r == "三人间"
    ensures occupancy >= 4 ==> r == "家庭房"
    ensures occupancy == 2 ==> r == prefType || r == "标准间"
    ensures occupancy == 2 && r != "标准间" ==> prefType != "" && (Contains(prefType, "大") || Contains(prefType, "双"))
    ensures occupancy == 2 && prefType != "" && (Contains(prefType, "大") || Contains(prefType, "双")) ==> r == prefType
  {
    if occupancy <= 1 then "单人间"
    else if occupancy == 2 then
      if prefType != "" && (Contains(prefType, "大") || Contains(prefType, "双")) then prefType else "标准间"
    else if occupancy == 3 then "三人间"
    else "家庭房"
  }

  /** The `score` of a room type for an occupancy. */
  function Score(roomType: string, occupancy: int, prefType: string): int {
    var t := ToLower(roomType);
    if occupancy == 1 then
      if Contains(t, "单") || Contains(t, "single") then 10 else 0
    else if occupancy == 2 then
      (if Contains(t, "标") || Contains(t, "standard") then 5 else 0)
      + (if Contains(t, "双") || Contains(t, "twin") then 5 else 0)
      + (if Contains(t, "大") || Contains(t, "king") then 5 else 0)
      + (if prefType != "" && Contains(t, prefType) then 20 else 0)
    else if occupancy == 3 then
      (if Contains(t, "三") || Contains(t, "triple") then 10 else 0)
      + (if Contains(t, "家庭") || Contains(t, "family") then 5 else 0)
    else if Contains(t, "家庭") || Contains(t, "family") || Contains(t, "套") || Contains(t, "suite") then 10 else 0
  }

  /** The head of a stable sort by descending score: the first entry of
      highest score. */
  function FirstBest(ts: seq<string>, score: string -> int): (r: string)
    requires ts != []
    ensures exists i :: 0 <= i < |ts| && ts[i] == r && forall j :: 0 <= j < i ==> score(ts[j]) < score(r)
    ensures forall j :: 0 <= j < |ts| ==> score(ts[j]) <= score(r)
  {
    if |ts| == 1 then ts[0]
    else
      var b := FirstBest(ts[1..], score);
      assert forall j :: 1 <= j < |ts| ==> ts[j] == ts[1..][j - 1];
      if score(ts[0]) >= score(b) then ts[0]
      else
        var i :| 0 <= i < |ts[1..]| && ts[1..][i] == b && forall j :: 0 <= j < i ==> score(ts[1..][j]) < score(b);
        assert ts[i + 1] == b;
        b
  }

  /** The room types the catalog lists for a hotel, in catalog order. */
  function RoomTypesOf(hotelName: string, hotels: seq<HotelEntry>): (r: seq<string>)
    ensures forall t :: t in r <==> exists j :: 0 <= j < |hotels| && hotels[j].name == hotelName && hotels[j].roomType == t
  {
    if hotels == [] then []
    else
      var rest := RoomTypesOf(hotelName, hotels[1..]);
      assert forall j :: 1 <= j < |hotels| ==> hotels[j] == hotels[1..][j - 1];
      (if hotels[0].name == hotelName then [hotels[0].roomType] else []) + rest
  }

  /** `findBestRoomTypeMatch`. */
  function BestRoomType(hotelName: string, occupancy: int, prefType: string, hotels: seq<HotelEntry>): (r: string)
    ensures RoomTypesOf(hotelName, hotels) == [] ==> r == FallbackRoomType(occupancy, prefType)
    ensures RoomTypesOf(hotelName, hotels) != [] ==>
      (exists j :: 0 <= j < |hotels| && hotels[j].name == hotelName && hotels[j].roomType == r)
      && forall j :: 0 <= j < |hotels| && hotels[j].name == hotelName ==>
           Score(hotels[j].roomType, occupancy, prefType) <= Score(r, occupancy, prefType)
  {
    var types := RoomTypesOf(hotelName, hotels);
    if types == [] then FallbackRoomType(occupancy, prefType)
    else
      var score := (t: string) => Score(t, occupancy, prefType);
      var r := FirstBest(types, score);
      assert r in types;
      forall j | 0 <= j < |hotels| && hotels[j].name == hotelName
        ensures Score(hotels[j].roomType, occupancy, prefType) <= Score(r, occupancy, prefType)
      {
        assert hotels[j].roomType in types;
      }
      r
  }

  /** How a party is spread over rooms: `large` rooms with `base + 1`
      people and `small` rooms with `base`. */
  datatype RoomSplit = RoomSplit(large: nat, small: nat, base: nat)

  function SplitParty(people: int, rooms: int): (s: RoomSplit)
    ensures s.large + s.small == (if rooms < 1 then 1 else rooms)
    ensures s.large * (s.base + 1) + s.small * s.base == (if people < 1 then 1 else people)
    ensures s.small > 0 && s.large < s.large + s.small
  {
    var r := if rooms < 1 then 1 else rooms;
    var p := if people < 1 then 1 else people;
    var base := p / r;
    var rem := p % r;
    assert p == base * r + rem;
    assert rem * (base + 1) + (r - rem) * base == rem + r * base;
    RoomSplit(rem, r - rem, base)
  }

  /** The entry `hotels[j]` lists this room type of this hotel. */
  predicate Offers(h: HotelEntry, name: string, roomType: string) {
    h.name == name && h.roomType == roomType
  }

  /** `hotels.find(...)`: the position of the first entry listing this
      room type of this hotel. */
  function FirstOffer(hotels: seq<HotelEntry>, name: string, roomType: string): (r: Option<nat>)
    ensures r.None? <==> forall j :: 0 <= j < |hotels| ==> !Offers(hotels[j], name, roomType)
    ensures r.Some? ==> r.value < |hotels| && Offers(hotels[r.value], name, roomType)
                        && forall k :: 0 <= k < r.value ==> !Offers(hotels[k], name, roomType)
  {
    if hotels == [] then None
    else if Offers(hotels[0], name, roomType) then Some(0)
    else
      var r := FirstOffer(hotels[1..], name, roomType);
      assert forall j :: 1 <= j < |hotels| ==> hotels[j] == hotels[1..][j - 1];
      if r.Some? then Some(r.value + 1) else None
  }

  /** The price and origin of a catalog room, from the first matching
      entry; a room the catalog does not list costs 0 and is not public. */
  function PriceLine(name: string, roomType: string, quantity: int, hotels: seq<HotelEntry>): (d: Detail)
    ensures d.name == name && d.variant == roomType && d.quantity == quantity
    ensures (forall j :: 0 <= j < |hotels| ==> !Offers(hotels[j], name, roomType)) ==> d.price == 0 && !d.sourcePublic
    ensures (exists j :: 0 <= j < |hotels| && Offers(hotels[j], name, roomType)) ==>
      exists j :: 0 <= j < |hotels| && Offers(hotels[j], name, roomType)
        && (forall k :: 0 <= k < j ==> !Offers(hotels[k], name, roomType))
        && d.price == hotels[j].price
        && d.sourcePublic == (hotels[j].isPublic || hotels[j].createdBy.None? || hotels[j].createdBy.value == "")
  {
    var m := FirstOffer(hotels, name, roomType);
    if m.None? then Detail(name, roomType, quantity, 0, false)
    else
      var h := hotels[m.value];
      Detail(name, roomType, quantity, h.price, h.isPublic || h.createdBy.None? || h.createdBy.value == "")
  }

  function VisibleHotels(hotels: seq<HotelEntry>, user: Option<Account>): (r: seq<HotelEntry>)
    ensures forall h :: h in r <==> h in hotels && Visible(user, h.createdBy, h.isPublic)
  {
    if hotels == [] then []
    else (if Visible(user, hotels[0].createdBy, hotels[0].isPublic) then [hotels[0]] else []) + VisibleHotels(hotels[1..], user)
  }

  function Quantities(ds: seq<Detail>): int {
    if ds == [] then 0 else ds[0].quantity + Quantities(ds[1..])
  }

  lemma QuantitiesPair(a: Detail, b: Detail)
    ensures Quantities([a, b]) == a.quantity + b.quantity
  {
    calc {
      Quantities([a, b]);
      a.quantity + Quantities([a, b][1..]);
      { assert [a, b][1..] == [b]; }
      a.quantity + Quantities([b]);
      { assert [b][1..] == []; }
      a.quantity + b.quantity;
    }
  }

  /** `generateHotelDetails`: one or two lines of the hotel whose room
      counts add up to the rooms booked (at least one), a line of the large
      rooms first, lines of one room type merged. */
  function HotelDetails(hotelName: string, people: int, rooms: int, prefType: string,
                        hotels: seq<HotelEntry>, user: Option<Account>): (r: seq<Detail>)
    ensures hotelName == "" <==> r == []
    ensures hotelName != "" ==> 1 <= |r| <= 2 && Quantities(r) == (if rooms < 1 then 1 else rooms)
    ensures forall i :: 0 <= i < |r| ==> r[i].name == hotelName && r[i].quantity > 0
    ensures |r| == 2 ==> r[0].variant != r[1].variant
    ensures hotelName != "" ==>
      r == HotelLines(hotelName, SplitParty(people, rooms),
                      LargeRoomType(hotelName, people, rooms, prefType, VisibleHotels(hotels, user)),
                      SmallRoomType(hotelName, people, rooms, prefType, VisibleHotels(hotels, user)),
                      VisibleHotels(hotels, user))
  {
    if hotelName == "" then []
    else
      var visible := VisibleHotels(hotels, user);
      HotelLines(hotelName, SplitParty(people, rooms),
                 LargeRoomType(hotelName, people, rooms, prefType, visible),
                 SmallRoomType(hotelName, people, rooms, prefType, visible), visible)
  }

  /** The room type of the rooms that take one person more. */
  function LargeRoomType(hotelName: string, people: int, rooms: int, prefType: string, visible: seq<HotelEntry>): string {
    BestRoomType(hotelName, SplitParty(people, rooms).base + 1, prefType, visible)
  }

  /** The room type of the other rooms (at least single occupancy). */
  function SmallRoomType(hotelName: string, people: int, rooms: int, prefType: string, visible: seq<HotelEntry>): string {
    var base := SplitParty(people, rooms).base;
    BestRoomType(hotelName, if base <= 0 then 1 else base, prefType, visible)
  }

  /** The lines for a split whose large rooms get `largeType` and small
      rooms `smallType`: a line of the large rooms first when there are
      any, a line of the small rooms, and one merged line when the two
      types agree. Each line is priced from the catalog. */
  function HotelLines(hotelName: string, s: RoomSplit, largeType: string, smallType: string,
                      visible: seq<HotelEntry>): (r: seq<Detail>)
    requires s.small > 0
    ensures 1 <= |r| <= 2 && Quantities(r) == s.large + s.small
    ensures forall i :: 0 <= i < |r| ==> r[i].name == hotelName && r[i].quantity > 0
    ensures |r| == 2 <==> s.large > 0 && largeType != smallType
    ensures |r| == 2 ==> r[0] == PriceLine(hotelName, largeType, s.large, visible)
                         && r[1] == PriceLine(hotelName, smallType, s.small, visible)
    ensures |r| == 1 ==> r[0] == PriceLine(hotelName, smallType, s.large + s.small, visible)
  {
    if s.large > 0 && largeType != smallType then
      var a := PriceLine(hotelName, largeType, s.large, visible);
      var b := PriceLine(hotelName, smallType, s.small, visible);
      QuantitiesPair(a, b);
      [a, b]
    else
      var d := PriceLine(hotelName, smallType, s.large + s.small, visible);
      assert [d][1..] == [];
      [d]
  }

  // ---------------------------------------------------------------------
  // The assistant's plan
  // ---------------------------------------------------------------------

  /** `Math.ceil(a / b)` for a positive `b`. */
  function CeilDiv(a: int, b: int): (q: int)
    requires b > 0
    ensures q * b >= a && (q - 1) * b < a
  {
    (a + b - 1) / b
  }

  /** The party the plan is built for: the assistant's counts when it gave
      them; without a room count, half the people rounded up. */
  function EffectiveCounts(people: int, rooms: int, aiPeople: Option<int>, aiRooms: Option<int>): (r: (int, int))
    ensures r.0 == (if aiPeople.Some? then aiPeople.value else people)
    ensures aiRooms.Some? ==> r.1 == aiRooms.value
    ensures aiRooms.None? && aiPeople.None? ==> r.1 == rooms
    ensures aiRooms.None? && aiPeople.Some? ==> 2 * r.1 >= r.0 && 2 * (r.1 - 1) < r.0
  {
    var p := if aiPeople.Some? then aiPeople.value else people;
    var rm := if aiRooms.Some? then aiRooms.value else if aiPeople.Some? then CeilDiv(p, 2) else rooms;
    (p, rm)
  }

  /** Cars needed for the party: enough seats for everyone when the car's
      capacity is known, else one. */
  function VehicleQuantity(people: int, passengers: int): (q: int)
    ensures passengers > 0 ==> q * passengers >= people && (q - 1) * passengers < people
    ensures passengers <= 0 ==> q == 1
  {
    if passengers > 0 then CeilDiv(people, passengers) else 1
  }

  function MaxOf(days: seq<int>): (m: int)
    requires days != []
    ensures forall i :: 0 <= i < |days| ==> days[i] <= m
    ensures m in days
  {
    if |days| == 1 then days[0]
    else
      var m := MaxOf(days[1..]);
      assert forall i :: 1 <= i < |days| ==> days[i] == days[1..][i - 1];
      if days[0] >= m then days[0] else m
  }

  /** The table resize of `handleAIPlanning`: grown with empty days to the
      plan's last day; cut to it only for a full replacement and a positive
      last day. An empty plan changes nothing. */
  function ResizeForPlan(rows: seq<DayRow>, days: seq<int>, fullReplacement: bool,
                         startDate: string, addDays: (string, int) -> string): (r: seq<DayRow>)
    ensures days == [] ==> r == rows
    ensures days != [] && MaxOf(days) > |rows| ==> |r| == MaxOf(days)
    ensures days != [] && MaxOf(days) <= |rows| ==>
      |r| == (if fullReplacement && MaxOf(days) > 0 then MaxOf(days) else |rows|)
    ensures forall i :: 0 <= i < |r| && i < |rows| ==> r[i] == rows[i]
    ensures forall i :: |rows| <= i < |r| ==> r[i] == EmptyRow(i + 1, startDate, addDays)
    ensures !fullReplacement ==> |r| >= |rows|
  {
    if days == [] then rows
    else
      var m := MaxOf(days);
      if m > |rows| then rows + seq(m - |rows|, k requires 0 <= k < m - |rows| => EmptyRow(|rows| + k + 1, startDate, addDays))
      else if fullReplacement && m < |rows| && m > 0 then rows[..m]
      else rows
  }

  // ---------------------------------------------------------------------
  // Saving
  // ---------------------------------------------------------------------

  /** `canOverwrite`: a super administrator, the trip's creator, or anyone
      for a trip without a creator. */
  predicate CanOverwrite(user: Option<Account>, trip: SavedTrip) {
    IsSuper(user) || (user.Some? && trip.createdBy == Some(user.value.username))
    || trip.createdBy.None? || trip.createdBy.value == ""
  }

  function NewTrip(id: string, name: string, now: int, rows: seq<DayRow>, user: Option<Account>): SavedTrip {
    var who := if user.Some? && user.value.username != "" then user.value.username else "anonymous";
    SavedTrip(id, name, now, rows, Some(who), Some(who), IsSuper(user))
  }


  /** The trip a save writes over, if the user is allowed and agrees:
      `None` for `NotPermitted` or `Cancelled`, else the id. */
  function SaveTarget(trips: seq<SavedTrip>, name: string, activeTripId: string, user: Option<Account>,
                      freshId: string, confirmOverwrite: bool): (r: Result<string, SaveOutcome>)
    ensures var c := FindName(trips, name);
            (c.Some? && (activeTripId == "" || trips[c.value].id != activeTripId) && !CanOverwrite(user, trips[c.value]))
            <==> r == Err(NotPermitted)
    ensures r.Err? ==> r.error == NotPermitted || r.error == Cancelled
    ensures r.Ok? && FindName(trips, name).None? ==> r.value == (if activeTripId != "" then activeTripId else freshId)
  {
    var c := FindName(trips, name);
    var isSelf := c.Some? && activeTripId != "" && trips[c.value].id == activeTripId;
    if c.Some? && !isSelf && !CanOverwrite(user, trips[c.value]) then Err(NotPermitted)
    else if c.Some? && !isSelf && !confirmOverwrite then Err(Cancelled)
    else if c.Some? && !isSelf then Ok(trips[c.value].id)
    else if activeTripId != "" then Ok(activeTripId)
    else Ok(freshId)
  }

  /** `handleConfirmSave` as the source writes it. A name clash with
      another trip needs `canOverwrite` and the user's confirmation; with no
      clash, the trip being edited (`activeTripId`, empty when none) is
      written over, whoever owns it. */
  function ConfirmSave(trips: seq<SavedTrip>, saveName: string, activeTripId: string, user: Option<Account>,
                       rows: seq<DayRow>, now: int, freshId: string, confirmOverwrite: bool): (r: SaveOutcome)
    ensures Trim(saveName) == "" <==> r == NameMissing
    ensures r.Saved? ==> r.trips != [] && r.trips[|r.trips| - 1] == NewTrip(r.targetId, Trim(saveName), now, rows, user)
    ensures r.Saved? ==> forall t :: t in trips && t.id != r.targetId ==> t in r.trips
    ensures r.Saved? && FindName(trips, Trim(saveName)).None? ==>
              r.targetId == (if activeTripId != "" then activeTripId else freshId)
  {
    var name := Trim(saveName);
    if name == "" then NameMissing
    else SaveNamed(trips, name, activeTripId, user, rows, now, freshId, confirmOverwrite)
  }

  /** The save once the name is known to be non-blank. */
  function SaveNamed(trips: seq<SavedTrip>, name: string, activeTripId: string, user: Option<Account>,
                     rows: seq<DayRow>, now: int, freshId: string, confirmOverwrite: bool): (r: SaveOutcome)
    ensures r != NameMissing
    ensures r.Saved? ==> r.trips != [] && r.trips[|r.trips| - 1] == NewTrip(r.targetId, name, now, rows, user)
    ensures r.Saved? ==> forall t :: t in trips && t.id != r.targetId ==> t in r.trips
    ensures r.Saved? && FindName(trips, name).None? ==>
              r.targetId == (if activeTripId != "" then activeTripId else freshId)
  {
    var target := SaveTarget(trips, name, activeTripId, user, freshId, confirmOverwrite);
    if target.Err? then target.error
    else Saved(Replace(trips, NewTrip(target.value, name, now, rows, user)), target.value)
  }

  /** With no name clash, the save writes over the trip under
      `activeTripId`, whoever owns it. */
  lemma {:induction false} UnclashedSaveReusesActive(trips: seq<SavedTrip>, saveName: string, activeTripId: string, user: Option<Account>,
                                  rows: seq<DayRow>, now: int, freshId: string, confirmOverwrite: bool)
    requires Trim(saveName) != "" && FindName(trips, Trim(saveName)).None? && activeTripId != ""
    ensures ConfirmSave(trips, saveName, activeTripId, user, rows, now, freshId, confirmOverwrite)
            == Saved(Replace(trips, NewTrip(activeTripId, Trim(saveName), now, rows, user)), activeTripId)
  {
  }

  /** A super administrator who saves under the name of a trip of another
      user, and confirms, takes the trip over: it keeps its id and is now
      theirs. */
  lemma {:induction false} OverwriteTakesTripOver(tb: SavedTrip, admin: Account, rows: seq<DayRow>, now: int, freshId: string)
    requires tb.id != "" && tb.name != "" && Trim(tb.name) == tb.name
    requires admin.role == "super_admin" && admin.username != ""
    ensures ConfirmSave([tb], tb.name, "", Some(admin), rows, now, freshId, true)
            == Saved([NewTrip(tb.id, tb.name, now, rows, Some(admin))], tb.id)
    ensures NewTrip(tb.id, tb.name, now, rows, Some(admin)).createdBy == Some(admin.username)
  {
    SuperTargetsClash(tb, admin, freshId);
    ReplaceOnly(tb, NewTrip(tb.id, tb.name, now, rows, Some(admin)));
  }

  /** A confirmed save by a super administrator under a taken name targets
      the trip holding it. */
  lemma SuperTargetsClash(tb: SavedTrip, admin: Account, freshId: string)
    requires admin.role == "super_admin"
    ensures SaveTarget([tb], tb.name, "", Some(admin), freshId, true) == Ok(tb.id)
  {
    assert FindName([tb], tb.name) == Some(0);
  }

  /** A renamed save of the trip `activeTripId` names removes it, even when
      it now belongs to someone else. `activeTripId` only ever holds an id
      this session saved (opening a trip clears it, logging out reloads the
      page); the trip under it changes hands when a super administrator
      saves over it by name (`OverwriteTakesTripOver`) and the list is
      refreshed from the shared store before the renamed save. */
  lemma {:induction false} RenamedSaveDropsOthersTrip(t: SavedTrip, saveName: string, user: Account, rows: seq<DayRow>,
                                   now: int, freshId: string, confirmOverwrite: bool)
    requires t.id != "" && t.createdBy.Some? && t.createdBy.value != user.username && t.createdBy.value != ""
    requires user.role != "super_admin"
    requires Trim(saveName) != "" && Trim(saveName) != t.name
    ensures !CanOverwrite(Some(user), t)
    ensures ConfirmSave([t], saveName, t.id, Some(user), rows, now, freshId, confirmOverwrite).Saved?
    ensures t !in ConfirmSave([t], saveName, t.id, Some(user), rows, now, freshId, confirmOverwrite).trips
  {
    RenamedSaveOfOnlyTrip(t, saveName, Some(user), rows, now, freshId, confirmOverwrite);
    OnlyTripReplaced(t, NewTrip(t.id, Trim(saveName), now, rows, Some(user)),
                     ConfirmSave([t], saveName, t.id, Some(user), rows, now, freshId, confirmOverwrite));
  }

  /** Writing a differently named trip in place of the only one loses it. */
  lemma OnlyTripReplaced(t: SavedTrip, nt: SavedTrip, r: SaveOutcome)
    requires r == Saved([nt], t.id) && nt.name != t.name
    ensures r.Saved? && t !in r.trips
  {
  }

  /** A save of the only trip under a new name writes over it by id. */
  lemma {:induction false} RenamedSaveOfOnlyTrip(t: SavedTrip, saveName: string, user: Option<Account>, rows: seq<DayRow>,
                                                 now: int, freshId: string, confirmOverwrite: bool)
    requires t.id != "" && Trim(saveName) != "" && Trim(saveName) != t.name
    ensures ConfirmSave([t], saveName, t.id, user, rows, now, freshId, confirmOverwrite)
            == Saved([NewTrip(t.id, Trim(saveName), now, rows, user)], t.id)
  {
    var name := Trim(saveName);
    assert FindName([t], name) == None;
    UnclashedSaveReusesActive([t], saveName, t.id, user, rows, now, freshId, confirmOverwrite);
    ReplaceOnly(t, NewTrip(t.id, name, now, rows, user));
  }

  /** The save with the owner check applied to the trip being edited too:
      a trip the user may not overwrite is saved as a new copy instead.
      Provided `freshId` names no saved trip, no trip of someone else is
      ever lost. */
  function ConfirmSaveChecked(trips: seq<SavedTrip>, saveName: string, activeTripId: string, user: Option<Account>,
                              rows: seq<DayRow>, now: int, freshId: string, confirmOverwrite: bool): (r: SaveOutcome)
    ensures Trim(saveName) == "" <==> r == NameMissing
    ensures r.Saved? ==> r.trips != [] && r.trips[|r.trips| - 1] == NewTrip(r.targetId, Trim(saveName), now, rows, user)
    ensures r.Saved? && (forall u :: u in trips ==> u.id != freshId) ==>
              forall t :: t in trips && !CanOverwrite(user, t) ==> t in r.trips
    ensures r.Saved? && r.targetId != freshId ==> r == ConfirmSave(trips, saveName, activeTripId, user, rows, now, freshId, confirmOverwrite)
  {
    var name := Trim(saveName);
    if name == "" then NameMissing
    else
      var target := SaveTarget(trips, name, activeTripId, user, freshId, confirmOverwrite);
      if target.Err? then target.error
      else
        var id := OwnedTarget(trips, user, target.value, freshId);
        Saved(Replace(trips, NewTrip(id, name, now, rows, user)), id)
  }

  /** The id the corrected save writes under: the chosen target when every
      trip carrying it may be overwritten, else `freshId`. */
  function OwnedTarget(trips: seq<SavedTrip>, user: Option<Account>, target: string, freshId: string): (id: string)
    ensures id == target || id == freshId
    ensures forall t :: t in trips && t.id == id && t.id != freshId ==> CanOverwrite(user, t)
    ensures (forall t :: t in trips && t.id == target ==> CanOverwrite(user, t)) ==> id == target
  {
    if forall t :: t in trips && t.id == target ==> CanOverwrite(user, t) then target else freshId
  }
}

=== FILE: planner.dfy ===
/** The itinerary-table operations of the planner front end
    (frontend/src/App.tsx): reading cities out of a route, recomputing a
    row's costs, deleting and reordering days, propagating a route to the
    next day, merging the assistant's plan into the table, and saving a
    trip under a name. Dialog answers (`window.confirm`), fresh UUIDs, the
    clock and the calendar are parameters. */
module Planner {
  import opened Wrappers
  import opened Text
  import opened TripRows
  import opened Accounts

  // ---------------------------------------------------------------------
  // Routes
  // ---------------------------------------------------------------------

  /** The characters `extractCitiesFromRoute` splits a route on. */
  const RouteSeparators: set<char> := {'-', '—', '>', '，', ','}

  /** `extractCitiesFromRoute`: the trimmed, non-empty pieces of a route. */
  function ExtractCities(route: string): (r: seq<string>)
    ensures route == "" ==> r == []
    ensures forall i :: 0 <= i < |r| ==> r[i] != "" && Trimmed(r[i]) && NoneIn(r[i], RouteSeparators)
  {
    if route == "" then [] else Parts(route, RouteSeparators)
  }

  /** A city name as a route can hold it. */
  predicate CityName(c: string) {
    CleanPiece(c, RouteSeparators)
  }

  /** Reading the cities back out of a route `A-B-…` gives the cities. */
  lemma ExtractJoinRoute(cs: seq<string>)
    requires forall i :: 0 <= i < |cs| ==> CityName(cs[i])
    ensures ExtractCities(Join(cs, '-')) == cs
  {
    PartsOfJoin(cs, '-', RouteSeparators);
  }

  /** The placeholder route `C-` names exactly the city `C`. */
  lemma OpenRouteNamesOneCity(c: string)
    requires CityName(c)
    ensures ExtractCities(c + "-") == [c]
  {
    PartsOfPartBeforeSeparator(c, '-', RouteSeparators);
    assert c + "-" == c + ['-'];
  }

  lemma PartsOfPartBeforeSeparator(c: string, sep: char, seps: set<char>)
    requires sep in seps && c != [] && Trimmed(c) && NoneIn(c, seps)
    ensures Parts(c + [sep], seps) == [c]
  {
    var e: string := [];
    PartsOfPart(c, seps);
    PartsAtSeparator(c, sep, e, seps);
    PartsOfEmpty(seps);
    calc {
      Parts(c + [sep], seps);
      { assert c + [sep] == c + [sep] + e; }
      Parts(c + [sep] + e, seps);
      Parts(c, seps) + Parts(e, seps);
      [c] + [];
    }
  }

  /** `handleRouteUpdate`: sets row `index`'s route; when it ends in a city
      and the next row has no cities yet, the next row's route becomes
      `<that city>-`. */
  function RouteUpdate(rows: seq<DayRow>, index: int, val: string): (r: seq<DayRow>)
    requires 0 <= index < |rows|
    ensures |r| == |rows|
    ensures r[index] == rows[index].(route := val)
    ensures forall i :: 0 <= i < |rows| && i != index && i != index + 1 ==> r[i] == rows[i]
    ensures index + 1 < |rows| ==>
      r[index + 1] == (if ExtractCities(val) != [] && ExtractCities(rows[index + 1].route) == []
                       then rows[index + 1].(route := ExtractCities(val)[|ExtractCities(val)| - 1] + "-")
                       else rows[index + 1])
  {
    var rs := rows[index := rows[index].(route := val)];
    var cities := ExtractCities(val);
    if cities != [] && index < |rs| - 1 && ExtractCities(rs[index + 1].route) == [] then
      rs[index + 1 := rs[index + 1].(route := cities[|cities| - 1] + "-")]
    else rs
  }

  /** After a propagation the next day starts where this one ends. */
  lemma RouteUpdateLinksNextDay(rows: seq<DayRow>, index: int, val: string)
    requires 0 <= index && index + 1 < |rows|
    requires ExtractCities(val) != [] && ExtractCities(rows[index + 1].route) == []
    ensures ExtractCities(RouteUpdate(rows, index, val)[index + 1].route) == [ExtractCities(val)[|ExtractCities(val)| - 1]]
  {
    var cs := ExtractCities(val);
    OpenRouteNamesOneCity(cs[|cs| - 1]);
  }

  // ---------------------------------------------------------------------
  // Costs
  // ---------------------------------------------------------------------

  /** `details.reduce((sum, item) => sum + item.price * item.quantity, 0)`. */
  function DetailsTotal(ds: seq<Detail>): int {
    if ds == [] then 0 else DetailsTotal(ds[..|ds| - 1]) + ds[|ds| - 1].price * ds[|ds| - 1].quantity
  }

  /** The total of two lists is the sum of their totals. */
  lemma {:induction false} DetailsTotalAppend(a: seq<Detail>, b: seq<Detail>)
    ensures DetailsTotal(a + b) == DetailsTotal(a) + DetailsTotal(b)
    decreases |b|
  {
    if b != [] {
      assert (a + b)[..|a + b| - 1] == a + b[..|b| - 1];
      DetailsTotalAppend(a, b[..|b| - 1]);
    } else {
      assert a + b == a;
    }
  }

  function CostFor(row: DayRow, cat: Category): int {
    if FlagOf(row.manual, cat) then CostOf(row.costs, cat) else DetailsTotal(DetailsOf(row, cat))
  }

  /** `calculateRowCosts`: every category not flagged as typed in by hand
      gets the total of its details. */
  function RowCosts(row: DayRow): (r: DayRow)
    ensures r == row.(costs := r.costs)
    ensures forall cat :: FlagOf(row.manual, cat) ==> CostOf(r.costs, cat) == CostOf(row.costs, cat)
    ensures forall cat :: !FlagOf(row.manual, cat) ==> CostOf(r.costs, cat) == DetailsTotal(DetailsOf(row, cat))
  {
    row.(costs := Costs(CostFor(row, TransportCat), CostFor(row, HotelCat), CostFor(row, TicketCat),
                        CostFor(row, ActivityCat), CostFor(row, OtherCat)))
  }

  /** Recomputing twice changes nothing more. */
  lemma RowCostsIdempotent(row: DayRow)
    ensures RowCosts(RowCosts(row)) == RowCosts(row)
  {
    var r1 := RowCosts(row);
    var r2 := RowCosts(r1);
    assert forall cat :: CostOf(r2.costs, cat) == CostOf(r1.costs, cat);
    assert r2.costs == r1.costs by {
      assert CostOf(r2.costs, TransportCat) == CostOf(r1.costs, TransportCat);
      assert CostOf(r2.costs, HotelCat) == CostOf(r1.costs, HotelCat);
      assert CostOf(r2.costs, TicketCat) == CostOf(r1.costs, TicketCat);
      assert CostOf(r2.costs, ActivityCat) == CostOf(r1.costs, ActivityCat);
      assert CostOf(r2.costs, OtherCat) == CostOf(r1.costs, OtherCat);
    }
  }

  /** Adding a ticket line to a computed row raises its ticket cost by
      exactly that line's price times quantity. */
  lemma AddedTicketRaisesCost(row: DayRow, d: Detail)
    requires !row.manual.ticket
    ensures RowCosts(row.(ticketDetails := row.ticketDetails + [d])).costs.ticket
            == RowCosts(row).costs.ticket + d.price * d.quantity
  {
    DetailsTotalAppend(row.ticketDetails, [d]);
    assert DetailsTotal([d]) == d.price * d.quantity by {
      assert [d][..0] == [];
    }
  }

  // ---------------------------------------------------------------------
  // Deleting and reordering days
  // ---------------------------------------------------------------------

  /** Day numbers 1..n and the dates that go with them. */
  function Reindex(rows: seq<DayRow>, startDate: string, addDays: (string, int) -> string): (r: seq<DayRow>)
    ensures |r| == |rows|
    ensures forall i :: 0 <= i < |r| ==> r[i] == rows[i].(dayIndex := i + 1, date := DateAt(startDate, addDays, i))
  {
    seq(|rows|, i requires 0 <= i < |rows| => rows[i].(dayIndex := i + 1, date := DateAt(startDate, addDays, i)))
  }

  /** `handleDeleteRow`: refused while one day or none is left, or when the
      user does not confirm; otherwise the day goes and the rest are
      renumbered and redated. */
  function DeleteRow(rows: seq<DayRow>, index: int, confirmed: bool,
                     startDate: string, addDays: (string, int) -> string): (r: seq<DayRow>)
    ensures |rows| <= 1 || !confirmed ==> r == rows
    ensures |rows| > 1 && confirmed && 0 <= index < |rows| ==> |r| == |rows| - 1
    ensures |rows| > 1 && confirmed ==>
      forall i :: 0 <= i < |r| ==> r[i].dayIndex == i + 1 && r[i].date == DateAt(startDate, addDays, i)
    ensures |rows| > 1 && confirmed && 0 <= index < |rows| ==>
      forall i :: 0 <= i < |r| ==>
        r[i] == rows[if i < index then i else i + 1].(dayIndex := i + 1, date := DateAt(startDate, addDays, i))
    ensures |rows| > 1 && confirmed && !(0 <= index < |rows|) ==>
      |r| == |rows| && forall i :: 0 <= i < |r| ==> r[i] == rows[i].(dayIndex := i + 1, date := DateAt(startDate, addDays, i))
  {
    if |rows| <= 1 || !confirmed then rows
    else Reindex(RemoveAt(rows, index), startDate, addDays)
  }

  /** `splice(s, 1)` then `splice(d, 0, item)`: takes the item at `s` out
      and puts it back at `d`. */
  function Move<T>(xs: seq<T>, s: int, d: int): (r: seq<T>)
    requires 0 <= s < |xs| && 0 <= d < |xs|
    ensures |r| == |xs| && r[d] == xs[s]
    ensures RemoveAt(r, d) == RemoveAt(xs, s)
  {
    var ys := RemoveAt(xs, s);
    var r := ys[..d] + [xs[s]] + ys[d..];
    assert RemoveAt(r, d) == ys by {
      assert r[..d] == ys[..d];
      assert r[d + 1..] == ys[d..];
    }
    r
  }

  /** Moving keeps every item. */
  lemma MovePermutes<T>(xs: seq<T>, s: int, d: int)
    requires 0 <= s < |xs| && 0 <= d < |xs|
    ensures multiset(Move(xs, s, d)) == multiset(xs)
  {
    var ys := RemoveAt(xs, s);
    var r := Move(xs, s, d);
    assert r == ys[..d] + [xs[s]] + ys[d..];
    assert ys == ys[..d] + ys[d..];
    assert ys == xs[..s] + xs[s + 1..];
    assert xs == xs[..s] + [xs[s]] + xs[s + 1..];
    calc {
      multiset(r);
      multiset(ys[..d]) + multiset{xs[s]} + multiset(ys[d..]);
      multiset(ys) + multiset{xs[s]};
      multiset(xs[..s]) + multiset(xs[s + 1..]) + multiset{xs[s]};
      multiset(xs);
    }
  }

  /** Dragging back undoes a drag. */
  lemma MoveBack<T>(xs: seq<T>, s: int, d: int)
    requires 0 <= s < |xs| && 0 <= d < |xs|
    ensures Move(Move(xs, s, d), d, s) == xs
  {
    var r := Move(xs, s, d);
    var back := Move(r, d, s);
    assert RemoveAt(back, s) == RemoveAt(xs, s);
    assert back[s] == xs[s];
    forall i | 0 <= i < |xs| ensures back[i] == xs[i] {
      if i < s {
        assert RemoveAt(back, s)[i] == back[i];
        assert RemoveAt(xs, s)[i] == xs[i];
      } else if i > s {
        assert RemoveAt(back, s)[i - 1] == back[i];
        assert RemoveAt(xs, s)[i - 1] == xs[i];
      }
    }
  }

  /** `handleDragEnd`: nothing happens without a drop target or when the
      day is dropped where it was; otherwise the day moves and all days
      are renumbered (their dates stay). */
  function DragEnd(rows: seq<DayRow>, source: int, destination: Option<int>): (r: seq<DayRow>)
    requires destination.Some? ==> 0 <= source < |rows| && 0 <= destination.value < |rows|
    ensures destination.None? || destination.value == source ==> r == rows
    ensures |r| == |rows|
    ensures destination.Some? && destination.value != source ==>
      forall i :: 0 <= i < |r| ==> r[i] == Move(rows, source, destination.value)[i].(dayIndex := i + 1)
  {
    if destination.None? || destination.value == source then rows
    else
      var m := Move(rows, source, destination.value);
      seq(|m|, i requires 0 <= i < |m| => m[i].(dayIndex := i + 1))
  }

  // ---------------------------------------------------------------------
  // Merging the assistant's plan
  // ---------------------------------------------------------------------

  /** A `ticketName`/`activityName` value: missing, a string, or a list. */
  datatype ListValue = Missing | Text(s: string) | Items(items: seq<string>)

  const ListSeparators: set<char> := {',', '，', '、'}

  /** `normalizeList`. */
  function NormalizeList(v: ListValue): (r: seq<string>)
    ensures v.Missing? ==> r == []
    ensures v.Items? ==> r == v.items
    ensures v.Text? ==> forall i :: 0 <= i < |r| ==> r[i] != "" && Trimmed(r[i]) && NoneIn(r[i], ListSeparators)
  {
    match v
    case Missing => []
    case Text(s) => if s == "" then [] else Parts(s, ListSeparators)
    case Items(items) => items
  }

  /** Names joined with `,` come back as the names. */
  lemma NormalizeListOfJoin(ns: seq<string>)
    requires forall i :: 0 <= i < |ns| ==> CleanPiece(ns[i], ListSeparators)
    ensures NormalizeList(Text(Join(ns, ','))) == ns
  {
    PartsOfJoin(ns, ',', ListSeparators);
  }

  /** A JSON value where a number is expected. Numbers are integers;
      `NonFinite` stands for `NaN` and the infinities. */
  datatype JsonValue = Undefined | Null | Num(n: int) | NonFinite | Str(s: string) | Bool(b: bool)

  /** `Number(s)` on a string holding an optionally signed decimal
      integer or an unsigned `0x`, `0o` or `0b` integer, surrounded by
      whitespace; a blank string is 0. */
  function NumberOfString(s: string): (r: Option<int>)
    ensures AllSpace(s) ==> r == Some(0)
  {
    NumberOfTrimmed(Trim(s))
  }

  /** `Number` on text with no surrounding whitespace. */
  function NumberOfTrimmed(t: string): Option<int> {
    if t == "" then Some(0)
    else if AllDigits(t) then Some(ParseDigits(t))
    else if |t| > 1 && t[0] == '-' && AllDigits(t[1..]) then Some(-ParseDigits(t[1..]))
    else if |t| > 1 && t[0] == '+' && AllDigits(t[1..]) then Some(ParseDigits(t[1..]))
    else if |t| > 2 && t[0] == '0' && RadixOf(t[1]) > 0 && AllRadix(t[2..], RadixOf(t[1]))
      then Some(ParseRadix(t[2..], RadixOf(t[1])))
    else None
  }

  predicate AllDigits(s: string) {
    forall k :: 0 <= k < |s| ==> IsDigit(s[k])
  }

  /** The base a literal prefix `0x`, `0o` or `0b` names (either case), or 0. */
  function RadixOf(c: char): int {
    if c == 'x' || c == 'X' then 16
    else if c == 'o' || c == 'O' then 8
    else if c == 'b' || c == 'B' then 2
    else 0
  }

  /** The value of `c` as a digit of base `base`, or -1. */
  function RadixDigit(c: char, base: int): (v: int)
    ensures v == -1 || 0 <= v < base
    ensures IsDigit(c) && DigitValue(c) < base ==> v == DigitValue(c)
  {
    var d := if '0' <= c <= '9' then c as int - '0' as int
             else if 'a' <= c <= 'f' then c as int - 'a' as int + 10
             else if 'A' <= c <= 'F' then c as int - 'A' as int + 10
             else -1;
    if 0 <= d < base then d else -1
  }

  predicate AllRadix(s: string, base: int) {
    forall k :: 0 <= k < |s| ==> RadixDigit(s[k], base) >= 0
  }

  function ParseRadix(s: string, base: int): int {
    if s == [] then 0 else ParseRadix(s[..|s| - 1], base) * base + RadixDigit(s[|s| - 1], base)
  }

  /** Decimal digits read in base ten by the prefix parser give the
      decimal value: the two readings agree. */
  lemma {:induction false} ParseRadixTen(ds: string)
    requires AllDigits(ds)
    ensures ParseRadix(ds, 10) == ParseDigits(ds)
  {
    if ds != [] {
      ParseRadixTen(ds[..|ds| - 1]);
    }
  }

  /** Text that ends in a digit of some base has no trailing whitespace. */
  lemma {:induction false} EndsInDigit(t: string, base: int)
    requires t != [] && !IsSpace(t[0]) && RadixDigit(t[|t| - 1], base) >= 0
    ensures Trim(t) == t
  {
    TrimOfTrimmed(t);
  }

  /** A prefixed literal reads as its digits in the prefix's base. */
  lemma {:induction false} PrefixedNumber(p: char, ds: string)
    requires RadixOf(p) > 0 && ds != [] && AllRadix(ds, RadixOf(p))
    ensures NumberOfString(['0', p] + ds) == Some(ParseRadix(ds, RadixOf(p)))
  {
    var t := ['0', p] + ds;
    assert t[2..] == ds && t[1] == p && t[0] == '0';
    assert t[|t| - 1] == ds[|ds| - 1];
    EndsInDigit(t, RadixOf(p));
    TrimmedPrefixed(t);
  }

  /** Text without surrounding whitespace that starts `0x`, `0o` or `0b`
      takes the prefixed branch. */
  lemma {:induction false} TrimmedPrefixed(t: string)
    requires |t| > 2 && t[0] == '0' && RadixOf(t[1]) > 0 && AllRadix(t[2..], RadixOf(t[1]))
    ensures NumberOfTrimmed(t) == Some(ParseRadix(t[2..], RadixOf(t[1])))
  {
    assert !AllDigits(t) by { assert !IsDigit(t[1]); }
  }

  /** A sign in front of a prefixed literal makes it no number. */
  lemma {:induction false} SignedPrefixedNumber(p: char, ds: string)
    requires RadixOf(p) > 0 && ds != [] && AllRadix(ds, RadixOf(p))
    ensures NumberOfString(['-', '0', p] + ds) == None
  {
    var u := ['-', '0', p] + ds;
    assert |u| > 3 && u[0] == '-' && u[1] == '0' && u[2] == p;
    assert u[|u| - 1] == ds[|ds| - 1];
    EndsInDigit(u, RadixOf(p));
    assert Trim(u) == u;
    TrimmedSignedPrefixed(u);
  }

  /** Text that starts `-0x`, `-0o` or `-0b` takes no branch. */
  lemma {:induction false} TrimmedSignedPrefixed(u: string)
    requires |u| > 3 && u[0] == '-' && u[1] == '0' && RadixOf(u[2]) > 0
    ensures NumberOfTrimmed(u) == None
  {
    assert !AllDigits(u) by { assert !IsDigit(u[0]); }
    assert !AllDigits(u[1..]) by { assert u[1..][1] == u[2]; }
  }

  /** The hexadecimal digits `10` are sixteen. */
  lemma HexTen(ds: string)
    requires ds == ['1', '0']
    ensures AllRadix(ds, 16) && ParseRadix(ds, 16) == 16
  {
    assert RadixDigit('1', 16) == 1 && RadixDigit('0', 16) == 0;
    assert ds[..1] == ['1'] && ds[..1][..0] == [];
    assert ParseRadix(ds[..1], 16) == 1;
  }

  /** `Number("0x10")` is 16. */
  lemma HexSixteen(s: string)
    requires s == "0x10"
    ensures NumberOfString(s) == Some(16)
  {
    var ds := ['1', '0'];
    HexTen(ds);
    assert s == ['0', 'x'] + ds;
    PrefixedNumber('x', ds);
  }

  /** `toNumberOrUndefined`. */
  function ToNumber(v: JsonValue): (r: Option<int>)
    ensures v.Undefined? || v.Null? || v.NonFinite? || v == Str("") ==> r == None
    ensures v.Num? ==> r == Some(v.n)
  {
    match v
    case Undefined => None
    case Null => None
    case Num(n) => Some(n)
    case NonFinite => None
    case Str(s) => if s == "" then None else NumberOfString(s)
    case Bool(b) => Some(if b then 1 else 0)
  }

  /** A non-empty run of digits has no whitespace at either end. */
  lemma DigitsTrimmed(ds: string)
    requires ds != [] && AllDigits(ds)
    ensures Trimmed(ds)
  {
    assert IsDigit(ds[0]) && IsDigit(ds[|ds| - 1]);
  }

  /** A number sent as its decimal text reads back as itself. */
  lemma ToNumberOfDecimal(n: int)
    ensures ToNumber(Str(IntToString(n))) == Some(n)
  {
    var t := IntToString(n);
    var m := if n < 0 then -n else n;
    var ds := NatToString(m);
    ParseNatToString(m);
    assert AllDigits(ds);
    if n < 0 {
      assert t == "-" + ds;
      NegativeDecimal(ds);
      ToNumberOfText(t);
    } else {
      assert t == ds;
      NumberOfDigits(ds);
      ToNumberOfText(t);
    }
  }

  lemma ToNumberOfText(s: string)
    requires s != ""
    ensures ToNumber(Str(s)) == NumberOfString(s)
  {
  }

  lemma NumberOfDigits(ds: string)
    requires ds != [] && AllDigits(ds)
    ensures NumberOfString(ds) == Some(ParseDigits(ds))
  {
    DigitsTrimmed(ds);
    TrimOfTrimmed(ds);
  }

  lemma {:induction false} NegativeDecimal(ds: string)
    requires ds != [] && AllDigits(ds)
    ensures NumberOfString(['-'] + ds) == Some(-ParseDigits(ds))
  {
    var t := ['-'] + ds;
    assert t[1..] == ds && t[0] == '-';
    assert t[|t| - 1] == ds[|ds| - 1] && IsDigit(ds[|ds| - 1]);
    EndsInDigit(t, 10);
    TrimmedNegative(t);
  }

  /** Text without surrounding whitespace that is a minus sign before
      digits takes the negative branch. */
  lemma {:induction false} TrimmedNegative(t: string)
    requires |t| > 1 && t[0] == '-' && AllDigits(t[1..])
    ensures NumberOfTrimmed(t) == Some(-ParseDigits(t[1..]))
  {
    assert !AllDigits(t) by { assert !IsDigit(t[0]); }
  }

  datatype AiCosts = AiCosts(transport: JsonValue, hotel: JsonValue, ticket: JsonValue, activity: JsonValue, other: JsonValue)

  function AiCostOf(c: AiCosts, cat: Category): JsonValue {
    match cat
    case TransportCat => c.transport
    case HotelCat => c.hotel
    case TicketCat => c.ticket
    case ActivityCat => c.activity
    case OtherCat => c.other
  }

  /** One day of the assistant's answer. */
  datatype AiItem = AiItem(
    day: Option<int>,
    route: string,
    sCity: string,
    eCity: string,
    ticketName: ListValue,
    activityName: ListValue,
    hotelName: string,
    description: string,
    costs: AiCosts)

  /** `item.day || 1`. */
  function DayOf(item: AiItem): int {
    if item.day.None? || item.day.value == 0 then 1 else item.day.value
  }

  /** `Math.max(...items.map(i => i.day || 1))`. */
  function MaxDay(items: seq<AiItem>): (m: int)
    requires items != []
    ensures forall i :: 0 <= i < |items| ==> DayOf(items[i]) <= m
    ensures exists i :: 0 <= i < |items| && DayOf(items[i]) == m
  {
    if |items| == 1 then DayOf(items[0])
    else
      var m := MaxDay(items[1..]);
      assert forall i :: 1 <= i < |items| ==> items[i] == items[1..][i - 1];
      if DayOf(items[0]) >= m then DayOf(items[0]) else m
  }

  /** Grows the table with empty days up to `n`, or cuts it with
      `splice(n)` (a negative `n` counts from the end). */
  function Resize(rows: seq<DayRow>, n: int, startDate: string, addDays: (string, int) -> string): (r: seq<DayRow>)
    ensures |r| == if n >= |rows| then n else if n >= 0 then n else if |rows| + n >= 0 then |rows| + n else 0
    ensures forall i :: 0 <= i < |r| && i < |rows| ==> r[i] == rows[i]
    ensures forall i :: |rows| <= i < |r| ==> r[i] == EmptyRow(i + 1, startDate, addDays)
  {
    if n > |rows| then rows + seq(n - |rows|, k requires 0 <= k < n - |rows| => EmptyRow(|rows| + k + 1, startDate, addDays))
    else if n >= 0 then rows[..n]
    else if |rows| + n >= 0 then rows[..|rows| + n]
    else []
  }

  /** `route.split('-')[k] || ''`. */
  function DashPart(route: string, k: nat): string {
    var ps := Split(route, {'-'});
    if k < |ps| then ps[k] else ""
  }

  /** The route a merged day gets. */
  function MergedRoute(current: string, item: AiItem): (r: string)
    ensures item.route != "" ==> r == item.route
    ensures item.route == "" && item.sCity != "" && item.eCity != "" ==> r == item.sCity + "-" + item.eCity
    ensures item.route == "" && item.sCity == "" && item.eCity == "" ==> r == current
  {
    if item.route != "" then item.route
    else if item.sCity != "" || item.eCity != "" then
      var start := if item.sCity != "" then item.sCity else DashPart(current, 0);
      var end := if item.eCity != "" then item.eCity else DashPart(current, 1);
      if start != "" && end != "" then start + "-" + end else current
    else current
  }

  /** New lines for the assistant's names, priced later. */
  function NewLines(names: seq<string>, variant: string, quantity: int): (r: seq<Detail>)
    ensures |r| == |names|
    ensures forall i :: 0 <= i < |r| ==> r[i] == Detail(names[i], variant, quantity, 0, false)
  {
    seq(|names|, i requires 0 <= i < |names| => Detail(names[i], variant, quantity, 0, false))
  }

  /** The costs after a merge: a number the assistant sent replaces the
      cost, anything else keeps it. */
  function MergeCosts(c: Costs, a: AiCosts): (r: Costs)
    ensures r.transport == ToNumber(a.transport).GetOr(c.transport)
    ensures r.hotel == ToNumber(a.hotel).GetOr(c.hotel)
    ensures r.ticket == ToNumber(a.ticket).GetOr(c.ticket)
    ensures r.activity == ToNumber(a.activity).GetOr(c.activity)
    ensures r.other == ToNumber(a.other).GetOr(c.other)
  {
    Costs(ToNumber(a.transport).GetOr(c.transport), ToNumber(a.hotel).GetOr(c.hotel),
          ToNumber(a.ticket).GetOr(c.ticket), ToNumber(a.activity).GetOr(c.activity),
          ToNumber(a.other).GetOr(c.other))
  }

  lemma MergeCostsAll(c: Costs, a: AiCosts)
    ensures forall cat :: CostOf(MergeCosts(c, a), cat) == ToNumber(AiCostOf(a, cat)).GetOr(CostOf(c, cat))
  {
    forall cat ensures CostOf(MergeCosts(c, a), cat) == ToNumber(AiCostOf(a, cat)).GetOr(CostOf(c, cat)) {
      match cat
      case TransportCat =>
      case HotelCat =>
      case TicketCat =>
      case ActivityCat =>
      case OtherCat =>
    }
  }

  /** Ticket or activity lines after a merge: the assistant's names at
      `people` each, or the current lines when it named none. */
  function MergeLines(current: seq<Detail>, v: ListValue, people: int): (r: seq<Detail>)
    ensures NormalizeList(v) == [] ==> r == current
    ensures NormalizeList(v) != [] ==>
      |r| == |NormalizeList(v)| && forall i :: 0 <= i < |r| ==> r[i] == Detail(NormalizeList(v)[i], "", people, 0, false)
  {
    var lines := NewLines(NormalizeList(v), "", people);
    if |lines| > 0 then lines else current
  }

  /** One assistant day merged into the table's row. */
  function MergeItem(row: DayRow, item: AiItem, people: int, rooms: int): (r: DayRow)
    ensures r.dayIndex == row.dayIndex && r.date == row.date && r.transport == row.transport
    ensures r.transportDetails == row.transportDetails && r.otherDetails == row.otherDetails
    ensures r.route == MergedRoute(row.route, item)
    ensures r.hotelDetails == if item.hotelName != "" then [Detail(item.hotelName, "标准间", rooms, 0, false)] else row.hotelDetails
    ensures r.ticketDetails == MergeLines(row.ticketDetails, item.ticketName, people)
    ensures r.activityDetails == MergeLines(row.activityDetails, item.activityName, people)
    ensures r.description == if item.description != "" then item.description else row.description
    ensures forall cat :: CostOf(r.costs, cat) == ToNumber(AiCostOf(item.costs, cat)).GetOr(CostOf(row.costs, cat))
    ensures r.manual == row.manual.(hotel := false, ticket := false, activity := false, transport := false)
  {
    MergeCostsAll(row.costs, item.costs);
    row.(route := MergedRoute(row.route, item),
         hotelDetails := if item.hotelName != "" then [Detail(item.hotelName, "标准间", rooms, 0, false)] else row.hotelDetails,
         ticketDetails := MergeLines(row.ticketDetails, item.ticketName, people),
         activityDetails := MergeLines(row.activityDetails, item.activityName, people),
         description := if item.description != "" then item.description else row.description,
         costs := MergeCosts(row.costs, item.costs),
         manual := row.manual.(hotel := false, ticket := false, activity := false, transport := false))
  }

  /** The 0-based row an item writes to. */
  function Target(item: AiItem): int {
    DayOf(item) - 1
  }

  /** The items merged one after another; an item whose day is outside the
      table is skipped. */
  function MergeItems(rows: seq<DayRow>, items: seq<AiItem>, people: int, rooms: int): (r: seq<DayRow>)
    ensures |r| == |rows|
    ensures forall i :: 0 <= i < |rows| && (forall k :: 0 <= k < |items| ==> Target(items[k]) != i) ==> r[i] == rows[i]
    decreases |items|
  {
    if items == [] then rows
    else
      var last := items[|items| - 1];
      var before := MergeItems(rows, items[..|items| - 1], people, rooms);
      var i := Target(last);
      if 0 <= i < |before| then before[i := MergeItem(before[i], last, people, rooms)] else before
  }

  /** Some item targeting row `i` sent `v` as its cost of `cat`. */
  predicate SentBy(items: seq<AiItem>, i: int, cat: Category, v: int) {
    exists k :: 0 <= k < |items| && Target(items[k]) == i && ToNumber(AiCostOf(items[k].costs, cat)) == Some(v)
  }

  /** One merge step on row `i`'s cost of `cat`. */
  lemma MergeStepCost(rows: seq<DayRow>, items: seq<AiItem>, people: int, rooms: int, i: int, cat: Category)
    requires items != [] && 0 <= i < |rows|
    ensures var before := MergeItems(rows, items[..|items| - 1], people, rooms);
            var last := items[|items| - 1];
            CostOf(MergeItems(rows, items, people, rooms)[i].costs, cat)
            == if Target(last) == i then ToNumber(AiCostOf(last.costs, cat)).GetOr(CostOf(before[i].costs, cat))
               else CostOf(before[i].costs, cat)
  {
  }

  /** A cost the merge leaves on a row is the row's own or a number one of
      the items targeting that row sent. */
  lemma {:induction false} MergedCostsComeFromItems(rows: seq<DayRow>, items: seq<AiItem>, people: int, rooms: int,
                                                    i: int, cat: Category)
    requires 0 <= i < |rows|
    ensures CostOf(MergeItems(rows, items, people, rooms)[i].costs, cat) == CostOf(rows[i].costs, cat)
            || SentBy(items, i, cat, CostOf(MergeItems(rows, items, people, rooms)[i].costs, cat))
    decreases |items|
  {
    if items != [] {
      var init := items[..|items| - 1];
      var last := items[|items| - 1];
      MergedCostsComeFromItems(rows, init, people, rooms, i, cat);
      MergeStepCost(rows, items, people, rooms, i, cat);
      var v := CostOf(MergeItems(rows, items, people, rooms)[i].costs, cat);
      var u := CostOf(MergeItems(rows, init, people, rooms)[i].costs, cat);
      if Target(last) == i && ToNumber(AiCostOf(last.costs, cat)).Some? {
        assert SentBy(items, i, cat, v) by {
          assert items[|items| - 1] == last;
        }
      } else if u != CostOf(rows[i].costs, cat) {
        assert v == u;
        var k :| 0 <= k < |init| && Target(init[k]) == i && ToNumber(AiCostOf(init[k].costs, cat)) == Some(u);
        assert items[k] == init[k];
      }
    }
  }

  /** The merge step of `handleChatRequest`: with a non-empty plan the
      table is resized to the plan's last day and each day merged in; an
      empty plan leaves the table alone. */
  function ApplyPlan(rows: seq<DayRow>, items: seq<AiItem>, people: int, rooms: int,
                     startDate: string, addDays: (string, int) -> string): (r: seq<DayRow>)
    ensures items == [] ==> r == rows
    ensures items != [] && MaxDay(items) >= 0 ==> |r| == MaxDay(items)
    ensures items != [] ==> forall i :: 0 <= i < |r| && i < |rows| && (forall k :: 0 <= k < |items| ==> Target(items[k]) != i)
                                        ==> r[i] == rows[i]
  {
    if items == [] then rows
    else MergeItems(Resize(rows, MaxDay(items), startDate, addDays), items, people, rooms)
  }

  /** Every day of the plan lands in the resized table. */
  lemma PlanDaysFit(rows: seq<DayRow>, items: seq<AiItem>, people: int, rooms: int,
                    startDate: string, addDays: (string, int) -> string, k: int)
    requires 0 <= k < |items| && DayOf(items[k]) >= 1
    ensures 0 <= Target(items[k]) < |ApplyPlan(rows, items, people, rooms, startDate, addDays)|
  {
  }

  // ---------------------------------------------------------------------
  // Saving
  // ---------------------------------------------------------------------

  /** `isSuperAdmin` of this front end: `admin` and `super_admin` alike. */
  predicate IsSuper(user: Option<Account>) {
    user.Some? && (user.value.role == "super_admin" || user.value.role == "admin")
  }

  /** `canModify` of `handleConfirmSave`. */
  predicate CanModify(user: Option<Account>, trip: SavedTrip) {
    user.Some? && (IsSuper(user) || trip.createdBy.None? || trip.createdBy.value == "" || trip.createdBy.value == user.value.username)
  }

  /** The id a save writes under, or why it stops: a same-named trip that
      is the one being edited is written over when the user may modify it
      and copied under `freshId` when they agree to a copy; another
      same-named trip needs the right to modify it and the user's
      confirmation; no clash writes a new trip. */
  function SaveTarget(trips: seq<SavedTrip>, name: string, activeTripId: string, user: Option<Account>,
                      freshId: string, confirmCopy: bool, confirmOverwrite: bool): (r: Result<string, SaveOutcome>)
    ensures r.Err? ==> r.error == NotPermitted || r.error == Cancelled
    ensures r.Ok? ==> r.value == freshId || exists j :: 0 <= j < |trips| && trips[j].id == r.value && CanModify(user, trips[j])
    ensures FindName(trips, name).None? ==> r == Ok(freshId)
  {
    var existing := FindName(trips, name);
    var current := if activeTripId != "" then FindId(trips, activeTripId) else None;
    if existing.None? then Ok(freshId)
    else
      var e := trips[existing.value];
      if current.Some? && e.id == trips[current.value].id then
        if CanModify(user, trips[current.value]) then Ok(e.id)
        else if confirmCopy then Ok(freshId) else Err(Cancelled)
      else if !CanModify(user, e) then Err(NotPermitted)
      else if confirmOverwrite then Ok(e.id) else Err(Cancelled)
  }

  /** `handleConfirmSave`. `freshId` is the UUID a new trip would get;
      `confirmCopy` and `confirmOverwrite` are the answers to the two
      dialogs. */
  function ConfirmSave(trips: seq<SavedTrip>, saveName: string, activeTripId: string, user: Option<Account>,
                       rows: seq<DayRow>, now: int, freshId: string,
                       confirmCopy: bool, confirmOverwrite: bool): (r: SaveOutcome)
    ensures Trim(saveName) == "" <==> r == NameMissing
    ensures r.Saved? ==> CountId(r.trips, r.targetId) == 1
    ensures r.Saved? ==> forall t :: t in trips && t.id != r.targetId ==> t in r.trips
    ensures r.Saved? ==> forall t :: t in r.trips ==> t in trips || t.id == r.targetId
    ensures r.Saved? ==> (r.trips != [] && r.trips[|r.trips| - 1].id == r.targetId && r.trips[|r.trips| - 1].name == Trim(saveName)
                          && r.trips[|r.trips| - 1].rows == rows && r.trips[|r.trips| - 1].isPublic == IsSuper(user))
    ensures r.Saved? ==> r.targetId == freshId || exists j :: 0 <= j < |trips| && trips[j].id == r.targetId && CanModify(user, trips[j])
  {
    var name := Trim(saveName);
    if name == "" then NameMissing
    else SaveNamed(trips, name, activeTripId, user, rows, now, freshId, confirmCopy, confirmOverwrite)
  }

  /** The save once the name is known to be non-blank. */
  function SaveNamed(trips: seq<SavedTrip>, name: string, activeTripId: string, user: Option<Account>,
                     rows: seq<DayRow>, now: int, freshId: string,
                     confirmCopy: bool, confirmOverwrite: bool): (r: SaveOutcome)
    ensures r != NameMissing
    ensures r.Saved? ==> CountId(r.trips, r.targetId) == 1
    ensures r.Saved? ==> forall t :: t in trips && t.id != r.targetId ==> t in r.trips
    ensures r.Saved? ==> forall t :: t in r.trips ==> t in trips || t.id == r.targetId
    ensures r.Saved? ==> (r.trips != [] && r.trips[|r.trips| - 1].id == r.targetId && r.trips[|r.trips| - 1].name == name
                          && r.trips[|r.trips| - 1].rows == rows && r.trips[|r.trips| - 1].isPublic == IsSuper(user))
    ensures r.Saved? ==> r.targetId == freshId || exists j :: 0 <= j < |trips| && trips[j].id == r.targetId && CanModify(user, trips[j])
  {
    var target := SaveTarget(trips, name, activeTripId, user, freshId, confirmCopy, confirmOverwrite);
    if target.Err? then target.error
    else
      var who := if user.Some? && user.value.username != "" then user.value.username else "anonymous";
      var trip := SavedTrip(target.value, name, now, rows, Some(who), Some(who), IsSuper(user));
      Saved(Replace(trips, trip), target.value)
  }

  /** Another user's same-named trip is never overwritten by a plain user. */
  lemma {:induction false} SaveRefusesOthersTrip(trips: seq<SavedTrip>, saveName: string, activeTripId: string, user: Account,
                              rows: seq<DayRow>, now: int, freshId: string, confirmCopy: bool, confirmOverwrite: bool, j: nat)
    requires user.role != "admin" && user.role != "super_admin"
    requires FindName(trips, Trim(saveName)) == Some(j) && Trim(saveName) != ""
    requires trips[j].createdBy.Some? && trips[j].createdBy.value != "" && trips[j].createdBy.value != user.username
    requires activeTripId == "" || FindId(trips, activeTripId).None? || trips[FindId(trips, activeTripId).value].id != trips[j].id
    ensures ConfirmSave(trips, saveName, activeTripId, Some(user), rows, now, freshId, confirmCopy, confirmOverwrite) == NotPermitted
  {
    var name := Trim(saveName);
    assert !CanModify(Some(user), trips[j]);
    assert SaveTarget(trips, name, activeTripId, Some(user), freshId, confirmCopy, confirmOverwrite) == Err(NotPermitted);
  }
  /** Saving the trip being edited under its own name asks no overwrite
      question: it is written in place when the user may modify that trip,
      and otherwise becomes a copy under `freshId` if the user agrees. */
  lemma {:induction false} SaveEditedTrip(trips: seq<SavedTrip>, saveName: string, activeTripId: string, user: Option<Account>,
                       rows: seq<DayRow>, now: int, freshId: string, confirmCopy: bool, confirmOverwrite: bool, j: nat)
    requires Trim(saveName) != "" && FindName(trips, Trim(saveName)) == Some(j)
    requires activeTripId != "" && FindId(trips, activeTripId).Some?
    requires trips[FindId(trips, activeTripId).value].id == trips[j].id
    ensures var r := ConfirmSave(trips, saveName, activeTripId, user, rows, now, freshId, confirmCopy, confirmOverwrite);
      r == ConfirmSave(trips, saveName, activeTripId, user, rows, now, freshId, confirmCopy, !confirmOverwrite)
      && (CanModify(user, trips[FindId(trips, activeTripId).value]) ==> r.Saved? && r.targetId == trips[j].id)
      && (!CanModify(user, trips[FindId(trips, activeTripId).value]) ==>
            if confirmCopy then r.Saved? && r.targetId == freshId else r == Cancelled)
  {
  }
}

=== FILE: resources_router.dfy ===
/** The access rules and upload checks of backend/src/app/routers/resources.py:
    which catalog rows a caller sees, how guests' prices are hidden, who may
    create, update and delete a row, how a listing is paged, and when an
    uploaded document is accepted. The database is a map from id to row;
    the uploaded file is its sequence of bytes. */
module ResourcesRouter {
  import opened Wrappers
  import opened Text
  import opened Seqs

  // ---------------------------------------------------------------------
  // Rows and callers
  // ---------------------------------------------------------------------

  /** The catalog tables. */
  datatype Kind = Country | City | Spot | Hotel | Activity | Transport | Restaurant

  /** A column value. */
  datatype Value = Null | Num(n: int) | Str(s: string)

  /** A catalog row: the access columns, and every other column by name
      (`price`, `price_low`, `price_high`, `avg_price`, `name`, …). */
  datatype Row = Row(kind: Kind, ownerId: string, isPublic: bool, columns: map<string, Value>)

  /** The signed-in caller. */
  datatype User = User(username: string, role: string)

  // ---------------------------------------------------------------------
  // Listing
  // ---------------------------------------------------------------------

  /** `apply_scope_filter`, as a condition on one row. */
  predicate InScope(r: Row, user: Option<User>, scope: string) {
    if user.None? then scope != "private" && r.isPublic
    else if scope == "private" then r.ownerId == user.value.username
    else if scope == "public" then r.isPublic
    else r.ownerId == user.value.username || r.isPublic
  }

  /** The rows of `rows` that pass the scope filter, in order. */
  function ScopeFilter(rows: seq<Row>, user: Option<User>, scope: string): (r: seq<Row>)
    ensures |r| <= |rows|
    ensures forall i :: 0 <= i < |r| ==> r[i] in rows && InScope(r[i], user, scope)
    ensures forall i :: 0 <= i < |rows| && InScope(rows[i], user, scope) ==> rows[i] in r
  {
    if rows == [] then []
    else (if InScope(rows[0], user, scope) then [rows[0]] else []) + ScopeFilter(rows[1..], user, scope)
  }

  /** The filter keeps the rows in scope in their order. */
  lemma {:induction false} ScopeFilterKeepsOrder(rows: seq<Row>, user: Option<User>, scope: string)
    ensures IsSubseq(ScopeFilter(rows, user, scope), rows)
  {
    if rows != [] {
      var rest := ScopeFilter(rows[1..], user, scope);
      ScopeFilterKeepsOrder(rows[1..], user, scope);
      if InScope(rows[0], user, scope) {
        assert ScopeFilter(rows, user, scope) == [rows[0]] + rest;
        assert ([rows[0]] + rest)[1..] == rest;
      } else {
        assert ScopeFilter(rows, user, scope) == rest;
      }
    }
  }

  /** The filter keeps each row in scope as often as it occurs, and drops
      the rest. */
  lemma {:induction false} ScopeFilterCounts(rows: seq<Row>, user: Option<User>, scope: string)
    ensures forall x :: multiset(ScopeFilter(rows, user, scope))[x] == (if InScope(x, user, scope) then multiset(rows)[x] else 0)
  {
    if rows != [] {
      var rest := ScopeFilter(rows[1..], user, scope);
      ScopeFilterCounts(rows[1..], user, scope);
      assert rows == [rows[0]] + rows[1..];
      if InScope(rows[0], user, scope) {
        assert ScopeFilter(rows, user, scope) == [rows[0]] + rest;
      }
    }
  }

  /** A guest sees public rows only, and nothing at all of the private scope. */
  lemma GuestSeesPublicOnly(rows: seq<Row>, scope: string)
    ensures forall i :: 0 <= i < |ScopeFilter(rows, None, scope)| ==> ScopeFilter(rows, None, scope)[i].isPublic
    ensures scope == "private" ==> ScopeFilter(rows, None, scope) == []
  {
  }

  /** A signed-in caller's default scope is their own rows and the public
      ones; the private scope is exactly their own. */
  lemma UserScopes(r: Row, u: User)
    ensures InScope(r, Some(u), "all") <==> r.ownerId == u.username || r.isPublic
    ensures InScope(r, Some(u), "private") <==> r.ownerId == u.username
    ensures InScope(r, Some(u), "public") <==> r.isPublic
  {
  }

  /** `paginate_query`: `OFFSET (page - 1) * size LIMIT size`, with no
      check of its own on `page` or `size`. A negative offset or limit is
      refused (`None`); a page of size zero is empty whatever its number. */
  function Paginate<T>(xs: seq<T>, page: int, size: int): (r: Option<seq<T>>)
    ensures r.Some? <==> (page - 1) * size >= 0 && size >= 0
    ensures size > 0 ==> (r.Some? <==> page >= 1)
    ensures r.Some? ==> |r.value| <= size
    ensures r.Some? ==> |r.value| == if (page - 1) * size + size <= |xs| then size
                                     else if (page - 1) * size <= |xs| then |xs| - (page - 1) * size
                                     else 0
    ensures r.Some? ==> forall i :: 0 <= i < |r.value| ==>
      (page - 1) * size + i < |xs| && r.value[i] == xs[(page - 1) * size + i]
    ensures r.Some? && (page - 1) * size < |xs| ==> |r.value| > 0 || size == 0
  {
    var off := (page - 1) * size;
    if off < 0 || size < 0 then None
    else
      assert size > 0 ==> page >= 1 by {
        if size > 0 && page < 1 { NegativeOffset(page, size); }
      }
      var lo := if off < |xs| then off else |xs|;
      var hi := if off + size < |xs| then off + size else |xs|;
      Some(xs[lo..hi])
  }

  /** A page before the first, with a positive size, starts before the
      table. */
  lemma NegativeOffset(page: int, size: int)
    requires page < 1 && size > 0
    ensures (page - 1) * size < 0
  {
    assert (page - 1) * size == -((1 - page) * size);
    assert (1 - page) * size >= size;
  }

  /** Two different pages of the same listing come from disjoint positions,
      so a listing without repeated rows shows no row twice. */
  lemma PagesDisjoint<T>(xs: seq<T>, p1: int, p2: int, size: int, i: int, j: int)
    requires p1 != p2 && Paginate(xs, p1, size).Some? && Paginate(xs, p2, size).Some?
    requires 0 <= i < |Paginate(xs, p1, size).value| && 0 <= j < |Paginate(xs, p2, size).value|
    requires forall a, b :: 0 <= a < b < |xs| ==> xs[a] != xs[b]
    ensures Paginate(xs, p1, size).value[i] != Paginate(xs, p2, size).value[j]
  {
    assert size > 0;
    var a := (p1 - 1) * size + i;
    var b := (p2 - 1) * size + j;
    if p1 < p2 {
      LaterPageStartsAfter(p1, p2, size);
      assert a < b;
    } else {
      LaterPageStartsAfter(p2, p1, size);
      assert b < a;
    }
  }

  /** A later page starts no earlier than the end of an earlier one. */
  lemma LaterPageStartsAfter(p1: int, p2: int, size: int)
    requires 1 <= p1 < p2 && size >= 0
    ensures (p1 - 1) * size + size <= (p2 - 1) * size
  {
    var d := p2 - p1 - 1;
    assert (p2 - 1) * size == (p1 - 1) * size + size + d * size;
    assert d * size >= 0;
  }

  /** `mask_prices_for_guest` on one row: spots, hotels and activities lose
      `price`, transports `price_low` and `price_high`. */
  function MaskRow(r: Row): (m: Row)
    ensures m.kind == r.kind && m.ownerId == r.ownerId && m.isPublic == r.isPublic
    ensures forall k :: k in r.columns ==> k in m.columns
    ensures forall k :: k in m.columns && k != "price" && k != "price_low" && k != "price_high"
                        ==> k in r.columns && m.columns[k] == r.columns[k]
    ensures r.kind in {Spot, Hotel, Activity} ==> "price" in m.columns && m.columns["price"] == Null
    ensures r.kind == Transport ==> "price_low" in m.columns && m.columns["price_low"] == Null
                                    && "price_high" in m.columns && m.columns["price_high"] == Null
    ensures r.kind !in {Spot, Hotel, Activity, Transport} ==> m == r
  {
    match r.kind
    case Spot | Hotel | Activity => r.(columns := r.columns["price" := Null])
    case Transport => r.(columns := r.columns["price_low" := Null]["price_high" := Null])
    case _ => r
  }

  function MaskAll(rows: seq<Row>): (r: seq<Row>)
    ensures |r| == |rows|
    ensures forall i :: 0 <= i < |rows| ==> r[i] == MaskRow(rows[i])
  {
    if rows == [] then [] else [MaskRow(rows[0])] + MaskAll(rows[1..])
  }

  /** A restaurant's `avg_price` is shown to guests as it is. */
  lemma MaskKeepsAveragePrice(r: Row)
    requires "avg_price" in r.columns
    ensures MaskRow(r).columns["avg_price"] == r.columns["avg_price"]
  {
  }

  /** Masking twice is masking once. */
  lemma MaskIdempotent(r: Row)
    ensures MaskRow(MaskRow(r)) == MaskRow(r)
  {
  }

  /** A page of public rows holds public rows only. */
  lemma PagePublic(xs: seq<Row>, page: int, size: int)
    requires Paginate(xs, page, size).Some?
    requires forall j :: 0 <= j < |xs| ==> xs[j].isPublic
    ensures forall i :: 0 <= i < |Paginate(xs, page, size).value| ==> Paginate(xs, page, size).value[i].isPublic
  {
    var p := Paginate(xs, page, size).value;
    forall i | 0 <= i < |p| ensures p[i].isPublic {
      assert p[i] == xs[(page - 1) * size + i];
    }
  }

  /** A list endpoint: scope filter, paging, and masking for guests. (The
      name search and the ordering are left to the caller: `rows` is the
      already searched and ordered table.) */
  function ListRows(rows: seq<Row>, user: Option<User>, scope: string, page: int, size: int): (r: Option<seq<Row>>)
    ensures r.Some? <==> (page - 1) * size >= 0 && size >= 0
    ensures size > 0 ==> (r.Some? <==> page >= 1)
    ensures r.Some? ==> |r.value| <= size
    ensures r.Some? && user.None? ==> forall i :: 0 <= i < |r.value| ==> r.value[i].isPublic
    ensures r.Some? ==> var p := Paginate(ScopeFilter(rows, user, scope), page, size).value;
      |r.value| == |p| && forall i :: 0 <= i < |p| ==> r.value[i] == (if user.Some? then p[i] else MaskRow(p[i]))
  {
    var f := ScopeFilter(rows, user, scope);
    var p := Paginate(f, page, size);
    if p.None? then None
    else if user.Some? then Some(p.value)
    else
      GuestSeesPublicOnly(rows, scope);
      PagePublic(f, page, size);
      var m := MaskAll(p.value);
      assert forall i :: 0 <= i < |m| ==> m[i] == MaskRow(p.value[i]);
      Some(m)
  }

  // ---------------------------------------------------------------------
  // Create, update, delete
  // ---------------------------------------------------------------------

  /** `create_*`: the row is public only when asked for and the creator's
      role is exactly `admin`; public rows belong to `system`. */
  function CreateRow(kind: Kind, askPublic: bool, user: User, columns: map<string, Value>): (r: Row)
    ensures r.isPublic <==> askPublic && user.role == "admin"
    ensures r.ownerId == (if r.isPublic then "system" else user.username)
    ensures r.kind == kind && r.columns == columns
  {
    var pub := askPublic && user.role == "admin";
    Row(kind, if pub then "system" else user.username, pub, columns)
  }

  /** Who may update or delete a row: its owner, or an `admin` when it is public. */
  predicate CanModify(r: Row, user: User) {
    r.ownerId == user.username || (r.isPublic && user.role == "admin")
  }

  datatype HttpError = NotFound | Forbidden | BadRequest(detail: string) | TooLarge

  /** An update payload: the columns it sets (those not `None`), and
      `is_public` when given. */
  datatype Patch = Patch(columns: map<string, Value>, isPublic: Option<bool>)

  type Table = map<string, Row>

  /** `update_*`. A refused update leaves the table as it was (the session
      is not committed). */
  function UpdateRow(t: Table, id: string, p: Patch, user: User): (r: Result<Table, HttpError>)
    ensures id !in t ==> r == Err(NotFound)
    ensures id in t && !CanModify(t[id], user) ==> r == Err(Forbidden)
    ensures id in t && CanModify(t[id], user) && p.isPublic.Some? && user.role != "admin" ==> r == Err(Forbidden)
    ensures r.Ok? ==> id in t && CanModify(t[id], user) && r.value.Keys == t.Keys
    ensures r.Ok? ==> forall k :: k in t && k != id ==> r.value[k] == t[k]
    ensures r.Ok? ==> forall c :: c in p.columns ==> c in r.value[id].columns && r.value[id].columns[c] == p.columns[c]
    ensures r.Ok? && p.isPublic.None? ==> r.value[id].ownerId == t[id].ownerId && r.value[id].isPublic == t[id].isPublic
    ensures r.Ok? && p.isPublic.Some? ==>
      r.value[id].isPublic == p.isPublic.value
      && r.value[id].ownerId == (if p.isPublic.value then "system" else user.username)
  {
    if id !in t then Err(NotFound)
    else
      var row := t[id];
      if !CanModify(row, user) then Err(Forbidden)
      else if p.isPublic.Some? && user.role != "admin" then Err(Forbidden)
      else
        var cols := row.columns + p.columns;
        var row2 := if p.isPublic.Some? then
            row.(columns := cols, isPublic := p.isPublic.value,
                 ownerId := if p.isPublic.value then "system" else user.username)
          else row.(columns := cols);
        Ok(t[id := row2])
  }

  /** `delete_*`: deleting a missing id succeeds and changes nothing. */
  function DeleteRow(t: Table, id: string, user: User): (r: Result<Table, HttpError>)
    ensures id !in t ==> r == Ok(t)
    ensures id in t && !CanModify(t[id], user) ==> r == Err(Forbidden)
    ensures id in t && CanModify(t[id], user) ==> r.Ok? && r.value.Keys == t.Keys - {id}
    ensures r.Ok? ==> forall k :: k in r.value ==> k in t && r.value[k] == t[k]
  {
    if id !in t then Ok(t)
    else if !CanModify(t[id], user) then Err(Forbidden)
    else Ok(t - {id})
  }

  /** Only the owner and, for public rows, an `admin` get past the
      permission check; a `super_admin` gets no special right here. */
  lemma SuperAdminHasNoOverride(t: Table, id: string, name: string)
    requires id in t && t[id].ownerId != name
    ensures DeleteRow(t, id, User(name, "super_admin")) == Err(Forbidden)
  {
  }

  // ---------------------------------------------------------------------
  // Document upload
  // ---------------------------------------------------------------------

  type Byte = x: int | 0 <= x < 256

  /** `_validate_magic`: the header must be non-empty and, for the formats
      with a signature, start with it: the PDF file header (section 7.5.2 of
      ISO 32000-1), the JPEG start-of-image marker, the PNG signature
      (section 3.1 of RFC 2083), the RIFF container with the `WEBP` form
      type, the ZIP local-file-header signature of the OOXML formats
      (section 4.3.7 of the PKWARE APPNOTE), and the compound-file signature
      of the legacy Office formats (section 2.2 of [MS-CFB]). */
  predicate ValidMagic(ext: string, header: seq<Byte>) {
    if header == [] then false
    else if ext == ".pdf" then StartsWith(header, [0x25, 0x50, 0x44, 0x46, 0x2D])
    else if ext == ".jpg" || ext == ".jpeg" then StartsWith(header, [0xFF, 0xD8, 0xFF])
    else if ext == ".png" then StartsWith(header, [0x89, 0x50, 0x4E, 0x47, 0x0D, 0x0A, 0x1A, 0x0A])
    else if ext == ".webp" then |header| >= 12 && StartsWith(header, [0x52, 0x49, 0x46, 0x46]) && header[8..12] == [0x57, 0x45, 0x42, 0x50]
    else if ext == ".docx" || ext == ".xlsx" || ext == ".pptx" then StartsWith(header, [0x50, 0x4B, 0x03, 0x04])
    else if ext == ".doc" || ext == ".xls" || ext == ".ppt" then StartsWith(header, [0xD0, 0xCF, 0x11, 0xE0, 0xA1, 0xB1, 0x1A, 0xE1])
    else true
  }

  /** The signatures, checked on one example each. */
  lemma MagicExamples()
    ensures ValidMagic(".pdf", [0x25, 0x50, 0x44, 0x46, 0x2D, 0x31])
    ensures !ValidMagic(".pdf", [0x50, 0x4B, 0x03, 0x04])
    ensures ValidMagic(".docx", [0x50, 0x4B, 0x03, 0x04, 0x14])
    ensures !ValidMagic(".txt", [])
    ensures ValidMagic(".txt", [0x41])
  {
  }

  /** Any header passes for an extension without a signature, as long as
      it is not empty. */
  lemma NoSignatureAcceptsAny(ext: string, header: seq<Byte>)
    requires ext !in {".pdf", ".jpg", ".jpeg", ".png", ".webp", ".docx", ".xlsx", ".pptx", ".doc", ".xls", ".ppt"}
    ensures ValidMagic(ext, header) <==> header != []
  {
  }

  const MaxUploadBytes := 20 * 1024 * 1024

  const AllowedExtensions: set<string> := {".pdf", ".txt", ".md", ".csv", ".doc", ".docx", ".xls", ".xlsx",
                                           ".ppt", ".pptx", ".jpg", ".jpeg", ".png", ".webp"}

  const AllowedMimeTypes: set<string> := {
    "application/pdf", "text/plain", "text/markdown", "text/csv", "application/msword",
    "application/vnd.openxmlformats-officedocument.wordprocessingml.document",
    "application/vnd.ms-excel",
    "application/vnd.openxmlformats-officedocument.spreadsheetml.sheet",
    "application/vnd.ms-powerpoint",
    "application/vnd.openxmlformats-officedocument.presentationml.presentation",
    "image/jpeg", "image/png", "image/webp"}

  /** `MIME_BY_EXT`. */
  function MimeByExt(ext: string): (r: Option<string>)
    ensures r.Some? <==> ext in AllowedExtensions
    ensures r.Some? ==> r.value in AllowedMimeTypes
  {
    if ext == ".pdf" then Some("application/pdf")
    else if ext == ".txt" then Some("text/plain")
    else if ext == ".md" then Some("text/markdown")
    else if ext == ".csv" then Some("text/csv")
    else if ext == ".doc" then Some("application/msword")
    else if ext == ".docx" then Some("application/vnd.openxmlformats-officedocument.wordprocessingml.document")
    else if ext == ".xls" then Some("application/vnd.ms-excel")
    else if ext == ".xlsx" then Some("application/vnd.openxmlformats-officedocument.spreadsheetml.sheet")
    else if ext == ".ppt" then Some("application/vnd.ms-powerpoint")
    else if ext == ".pptx" then Some("application/vnd.openxmlformats-officedocument.presentationml.presentation")
    else if ext == ".jpg" || ext == ".jpeg" then Some("image/jpeg")
    else if ext == ".png" then Some("image/png")
    else if ext == ".webp" then Some("image/webp")
    else None
  }

  const TextExtensions: set<string> := {".txt", ".md", ".csv"}
  const OctetStream := "application/octet-stream"

  /** `Path(name).suffix`: from the last `.` on, unless that dot starts or
      ends the name. */
  function Suffix(name: string): (r: string)
    ensures r == [] || (r[0] == '.' && |r| >= 2 && |r| < |name| && r == name[|name| - |r|..])
    ensures r != [] ==> '.' !in r[1..]
  {
    var i := LastDot(name, |name|);
    if i.Some? && 0 < i.value < |name| - 1 then name[i.value..] else []
  }

  /** The position of the last `.` before `end`. */
  function LastDot(name: string, end: nat): (r: Option<nat>)
    requires end <= |name|
    ensures r.Some? ==> r.value < end && name[r.value] == '.' && '.' !in name[r.value + 1..end]
    ensures r.None? ==> '.' !in name[..end]
  {
    if end == 0 then None
    else if name[end - 1] == '.' then Some(end - 1)
    else
      var r := LastDot(name, end - 1);
      assert name[..end] == name[..end - 1] + [name[end - 1]];
      if r.Some? then
        assert name[r.value + 1..end] == name[r.value + 1..end - 1] + [name[end - 1]];
        r
      else r
  }

  /** The content-type checks of `upload_document`, on the lower-cased,
      stripped content type. */
  predicate ContentTypeAccepted(ct: string, ext: string) {
    && (ct == "" || ct in AllowedMimeTypes || ct == OctetStream || (StartsWith(ct, "text/") && ext in TextExtensions))
    && (ct == "" || MimeByExt(ext).None? || ct == MimeByExt(ext).value || ct == OctetStream
        || (StartsWith(ct, "text/") && ext in TextExtensions))
  }

  /** The content-type error `upload_document` reports, in its order. */
  function ContentTypeError(ct: string, ext: string): (r: Option<string>)
    ensures r.None? <==> ContentTypeAccepted(ct, ext)
    ensures r.Some? ==> r.value in {"Unsupported content type", "Content type mismatch"}
  {
    if ct != "" && ct !in AllowedMimeTypes && ct != OctetStream && !(StartsWith(ct, "text/") && ext in TextExtensions) then
      Some("Unsupported content type")
    else if ct != "" && MimeByExt(ext).Some? && ct != MimeByExt(ext).value && ct != OctetStream
            && !(StartsWith(ct, "text/") && ext in TextExtensions) then
      Some("Content type mismatch")
    else None
  }

  /** An allowed extension takes an empty content type, the generic
      `application/octet-stream`, its own MIME type, and for the text
      formats any `text/` type; nothing else. */
  lemma ContentTypeLattice(ct: string, ext: string)
    requires ext in AllowedExtensions
    ensures ContentTypeAccepted(ct, ext) <==>
      ct == "" || ct == OctetStream || ct == MimeByExt(ext).value || (StartsWith(ct, "text/") && ext in TextExtensions)
  {
  }

  /** `text/plain` is refused for a PDF. */
  lemma TextPlainPdfRejected()
    ensures !ContentTypeAccepted("text/plain", ".pdf")
  {
    assert !StartsWith("text/plain", "application/pdf");
    assert "text/plain" != OctetStream;
  }

  /** What an accepted upload stores. */
  datatype Upload = Upload(ext: string, size: nat, mimeType: Option<string>)

  const ChunkSize := 1024 * 1024

  /** The first `n` bytes of `data`, or all of it when shorter. */
  function Prefix(data: seq<Byte>, n: nat): (r: seq<Byte>)
    ensures |r| == if |data| < n then |data| else n
    ensures r == data[..|r|]
  {
    if |data| < n then data else data[..n]
  }

  /** The read of `upload_document`: the first 1 MiB chunk must be
      non-empty and its first 512 bytes must carry the signature; then
      chunks are counted until the end of the file, failing as soon as the
      running size exceeds the bound. The result is the file's size. */
  method ReadUpload(ext: string, data: seq<Byte>) returns (r: Result<nat, HttpError>)
    ensures data == [] ==> r == Err(BadRequest("Empty file"))
    ensures data != [] && !ValidMagic(ext, Prefix(data, 512)) ==> r == Err(BadRequest("File signature mismatch"))
    ensures data != [] && ValidMagic(ext, Prefix(data, 512)) && |data| > MaxUploadBytes ==> r == Err(TooLarge)
    ensures r.Ok? <==> data != [] && ValidMagic(ext, Prefix(data, 512)) && |data| <= MaxUploadBytes
    ensures r.Ok? ==> r.value == |data| && 0 < r.value <= MaxUploadBytes
  {
    var first := Prefix(data, ChunkSize);
    if first == [] {
      return Err(BadRequest("Empty file"));
    }
    assert Prefix(first, 512) == Prefix(data, 512);
    if !ValidMagic(ext, Prefix(first, 512)) {
      return Err(BadRequest("File signature mismatch"));
    }
    var size := |first|;
    if size > MaxUploadBytes {
      return Err(TooLarge);
    }
    while true
      invariant 0 < size <= |data| && size <= MaxUploadBytes
      decreases |data| - size
    {
      var chunk := Prefix(data[size..], ChunkSize);
      if chunk == [] {
        break;
      }
      size := size + |chunk|;
      if size > MaxUploadBytes {
        return Err(TooLarge);
      }
    }
    return Ok(size);
  }

  /** The categories a document may be filed under. */
  const Categories: set<string> := {"country", "hotel", "ticket", "activity", "transport"}

  /** The lower-cased extension of the uploaded file's name, `document`
      standing in for a missing name. */
  function UploadExt(fileName: string): string {
    ToLower(Suffix(PathName(if fileName == "" then "document" else fileName)))
  }

  /** `Path(s).name` on a POSIX path: the last component, where empty
      components and `.` do not count; `""` when nothing is left. */
  function PathName(s: string): (r: string)
    ensures r == "" || (r != "." && NoneIn(r, {'/'}))
  {
    LastComponent(Split(s, {'/'}))
  }

  /** The last part that is neither empty nor `.`. */
  function LastComponent(parts: seq<string>): (r: string)
    ensures r == "" || (r != "." && r in parts)
  {
    if parts == [] then ""
    else
      var last := parts[|parts| - 1];
      if last == "" || last == "." then LastComponent(parts[..|parts| - 1]) else last
  }

  /** A plain file name is its own name. */
  lemma PlainFileName(name: string)
    requires name != "" && name != "." && NoneIn(name, {'/'})
    ensures PathName(name) == name
  {
    SplitWithoutSeparator(name, {'/'});
  }

  /** The directories in front of a plain file name are dropped. */
  lemma DirectoriesDropped(dir: string, name: string)
    requires name != "" && name != "." && NoneIn(name, {'/'})
    ensures PathName(dir + "/" + name) == name
  {
    SplitAtSeparator(dir, '/', name, {'/'});
    SplitWithoutSeparator(name, {'/'});
    assert dir + "/" + name == dir + ['/'] + name;
  }

  /** A trailing `/` does not change the name. */
  lemma TrailingSlashIgnored(path: string)
    ensures PathName(path + "/") == PathName(path)
  {
    SplitAtSeparator(path, '/', "", {'/'});
    assert path + "/" == path + ['/'] + "";
    var parts := Split(path, {'/'});
    assert (parts + [""])[..|parts|] == parts;
  }

  /** Taking the name twice is taking it once. */
  lemma PathNameIdempotent(path: string)
    ensures PathName(PathName(path)) == PathName(path)
  {
    var n := PathName(path);
    if n != "" { PlainFileName(n); }
  }

  /** The client's content type, lower-cased and stripped; none is `""`. */
  function NormalizedType(contentType: Option<string>): string {
    Trim(ToLower(if contentType.Some? then contentType.value else ""))
  }

  /** The conditions `upload_document` checks before reading the file, on
      the extension `ext` and the normalized content type `ct`. */
  predicate FormAccepted(user: User, category: string, country: string, ext: string, ct: string) {
    && user.role == "super_admin"
    && category in Categories
    && country != ""
    && ext in AllowedExtensions
    && ContentTypeAccepted(ct, ext)
  }

  /** Every condition `upload_document` puts on an upload before storing
      it, on the extension and the normalized content type. */
  predicate Accepted(user: User, category: string, country: string, ext: string, ct: string, data: seq<Byte>) {
    && FormAccepted(user, category, country, ext, ct)
    && data != [] && |data| <= MaxUploadBytes
    && ValidMagic(ext, Prefix(data, 512))
  }

  /** The same conditions on the upload as the client sends it. */
  predicate UploadAccepted(user: User, category: string, country: string, fileName: string,
                           contentType: Option<string>, data: seq<Byte>) {
    Accepted(user, category, country, UploadExt(fileName), NormalizedType(contentType), data)
  }

  /** The checks before the read, in the source's order: the caller's role,
      the form fields, the extension, the content type. */
  function UploadGate(user: User, category: string, country: string, ext: string, ct: string): (r: Option<HttpError>)
    ensures user.role != "super_admin" ==> r == Some(Forbidden)
    ensures r.None? <==> FormAccepted(user, category, country, ext, ct)
  {
    if user.role != "super_admin" then Some(Forbidden)
    else if category !in Categories then Some(BadRequest("Invalid category"))
    else if country == "" then Some(BadRequest("Country required"))
    else if ext == "" || ext !in AllowedExtensions then Some(BadRequest("Unsupported file type"))
    else
      var ctError := ContentTypeError(ct, ext);
      if ctError.Some? then Some(BadRequest(ctError.value)) else None
  }

  /** The stored MIME type: the client's content type as sent, else the
      one the extension implies. */
  function StoredMime(contentType: Option<string>, ext: string): Option<string> {
    if contentType.Some? && contentType.value != "" then contentType else MimeByExt(ext)
  }

  /** The checks of the form, then the read, for the extension `ext` and
      the normalized content type `ct`. */
  method CheckForm(user: User, category: string, country: string, ext: string, ct: string,
                   contentType: Option<string>, data: seq<Byte>) returns (r: Result<Upload, HttpError>)
    ensures user.role != "super_admin" ==> r == Err(Forbidden)
    ensures r.Ok? <==> Accepted(user, category, country, ext, ct, data)
    ensures r.Ok? ==> r.value == Upload(ext, |data|, StoredMime(contentType, ext))
  {
    var gate := UploadGate(user, category, country, ext, ct);
    if gate.Some? {
      return Err(gate.value);
    }
    var size := ReadUpload(ext, data);
    if size.Err? {
      return Err(size.error);
    }
    return Ok(Upload(ext, size.value, StoredMime(contentType, ext)));
  }

  /** `upload_document` up to storing the file. `contentType` is the
      client's header as sent. */
  method CheckUpload(user: User, category: string, country: string, fileName: string,
                     contentType: Option<string>, data: seq<Byte>) returns (r: Result<Upload, HttpError>)
    ensures user.role != "super_admin" ==> r == Err(Forbidden)
    ensures r.Ok? <==> UploadAccepted(user, category, country, fileName, contentType, data)
    ensures r.Ok? ==> r.value.ext == UploadExt(fileName) && r.value.size == |data|
    ensures r.Ok? ==> r.value.mimeType == StoredMime(contentType, r.value.ext)
  {
    r := CheckForm(user, category, country, UploadExt(fileName), NormalizedType(contentType), contentType, data);
  }

  const MaxContentText := 5000

  /** The stored `content_text`: the file's text, cut to 5000 characters,
      when the client's (unnormalized) content type starts with `text/` or
      the extension is `.txt` or `.md`. `text` is the decoded file. */
  function ContentText(contentType: Option<string>, ext: string, text: string): (r: Option<string>)
    ensures r.Some? <==> (contentType.Some? && StartsWith(contentType.value, "text/")) || ext in {".txt", ".md"}
    ensures r.Some? ==> |r.value| <= MaxContentText && StartsWith(text, r.value)
    ensures r.Some? && |text| <= MaxContentText ==> r.value == text
  {
    if (contentType.Some? && StartsWith(contentType.value, "text/")) || ext in {".txt", ".md"} then
      Some(if |text| <= MaxContentText then text else text[..MaxContentText])
    else None
  }
}

=== FILE: seqs.dfy ===
/** Sequence helpers shared by the front-end models: `Array.prototype.filter`,
    order-preserving selection, and `Array.from(new Set(xs))`. */
module Seqs {

  /** `xs.filter(p)`. */
  function Filter<T(==,!new)>(xs: seq<T>, p: T -> bool): (r: seq<T>)
    ensures |r| <= |xs|
    ensures forall x :: x in r <==> x in xs && p(x)
  {
    if xs == [] then []
    else (if p(xs[0]) then [xs[0]] else []) + Filter(xs[1..], p)
  }

  lemma {:induction false} FilterAppend<T(!new)>(a: seq<T>, b: seq<T>, p: T -> bool)
    ensures Filter(a + b, p) == Filter(a, p) + Filter(b, p)
  {
    if a == [] {
      assert a + b == b;
    } else {
      assert (a + b)[0] == a[0] && (a + b)[1..] == a[1..] + b;
      FilterAppend(a[1..], b, p);
    }
  }

  /** Filtering by a test every element passes changes nothing. */
  lemma {:induction false} FilterAll<T(!new)>(xs: seq<T>, p: T -> bool)
    requires forall x :: x in xs ==> p(x)
    ensures Filter(xs, p) == xs
  {
    if xs != [] {
      assert forall x :: x in xs[1..] ==> x in xs;
      FilterAll(xs[1..], p);
    }
  }

  /** Filtering by a test no element passes leaves nothing. */
  lemma {:induction false} FilterNone<T(!new)>(xs: seq<T>, p: T -> bool)
    requires forall x :: x in xs ==> !p(x)
    ensures Filter(xs, p) == []
  {
    if xs != [] {
      assert forall x :: x in xs[1..] ==> x in xs;
      FilterNone(xs[1..], p);
    }
  }

  /** `a` is `b` with some elements left out, the rest in their order. */
  predicate IsSubseq<T(==,!new)>(a: seq<T>, b: seq<T>)
    decreases |b|
  {
    a == [] || (b != [] && ((a[0] == b[0] && IsSubseq(a[1..], b[1..])) || IsSubseq(a, b[1..])))
  }

  /** A subsequence of a suffix is a subsequence of the whole. */
  lemma {:induction false} SubseqOfSuffix<T(!new)>(a: seq<T>, b: seq<T>, k: int)
    requires 0 <= k <= |b| && IsSubseq(a, b[k..])
    ensures IsSubseq(a, b)
    decreases k
  {
    if k > 0 {
      assert b[k - 1..][1..] == b[k..];
      SubseqOfSuffix(a, b, k - 1);
    }
  }

  /** The same, for a suffix `t` given by value. */
  lemma {:induction false} SubseqOfTail<T(!new)>(a: seq<T>, t: seq<T>, b: seq<T>)
    requires |t| <= |b| && t == b[|b| - |t|..] && IsSubseq(a, t)
    ensures IsSubseq(a, b)
  {
    SubseqOfSuffix(a, b, |b| - |t|);
  }

  /** Putting the first element back in front keeps a subsequence one. */
  lemma {:induction false} SubseqCons<T(!new)>(a: seq<T>, b: seq<T>)
    requires b != [] && IsSubseq(a, b[1..])
    ensures IsSubseq([b[0]] + a, b)
  {
    assert ([b[0]] + a)[1..] == a;
  }

  lemma {:induction false} FilterIsSubseq<T(!new)>(xs: seq<T>, p: T -> bool)
    ensures IsSubseq(Filter(xs, p), xs)
  {
    if xs != [] {
      FilterIsSubseq(xs[1..], p);
      var r := Filter(xs, p);
      if p(xs[0]) {
        assert r[0] == xs[0] && r[1..] == Filter(xs[1..], p);
      } else {
        assert r == Filter(xs[1..], p);
      }
    }
  }

  /** `xs` holds no element twice. */
  predicate Distinct<T(==,!new)>(xs: seq<T>) {
    forall i, j :: 0 <= i < j < |xs| ==> xs[i] != xs[j]
  }

  /** `Array.from(new Set(xs))`, leaving out what is in `seen`: the first
      occurrence of each element, in order. An element listed before
      another occurs in `xs` before every occurrence of the other. */
  function Dedupe<T(==,!new)>(xs: seq<T>, seen: set<T>): (r: seq<T>)
    ensures Distinct(r)
    ensures forall x :: x in r <==> x in xs && x !in seen
    ensures IsSubseq(r, xs)
    ensures forall i, j, b :: 0 <= i < j < |r| && 0 <= b < |xs| && xs[b] == r[j] ==> r[i] in xs[..b]
  {
    if xs == [] then []
    else if xs[0] in seen then
      var r := Dedupe(xs[1..], seen);
      assert forall b :: 1 <= b < |xs| ==> xs[b] == xs[1..][b - 1] && xs[..b] == [xs[0]] + xs[1..][..b - 1];
      r
    else
      var rest := Dedupe(xs[1..], seen + {xs[0]});
      var r := [xs[0]] + rest;
      assert forall b :: 1 <= b < |xs| ==> xs[b] == xs[1..][b - 1] && xs[..b] == [xs[0]] + xs[1..][..b - 1];
      r
  }

  /** A list without repeats is its own set's listing. */
  lemma {:induction false} DedupeOfDistinct<T(!new)>(xs: seq<T>, seen: set<T>)
    requires Distinct(xs)
    requires forall x :: x in xs ==> x !in seen
    ensures Dedupe(xs, seen) == xs
  {
    if xs != [] {
      assert forall x :: x in xs[1..] ==> x in xs && x != xs[0];
      DedupeOfDistinct(xs[1..], seen + {xs[0]});
    }
  }

  /** `xs.map(x => sel(x) ? f(x) : x)`. */
  function MapWhere<T>(xs: seq<T>, sel: T -> bool, f: T -> T): (r: seq<T>)
    ensures |r| == |xs|
    ensures forall i :: 0 <= i < |xs| ==> r[i] == (if sel(xs[i]) then f(xs[i]) else xs[i])
  {
    seq(|xs|, i requires 0 <= i < |xs| => if sel(xs[i]) then f(xs[i]) else xs[i])
  }
}

=== FILE: storage_service.dfy ===
/** The list handling of frontend/src/services/storageService.ts: every
    catalog list is stored twice, once publicly and once per user, and
    read back as one list. Items are generic; `id` gives an item's id
    (`""` for an item without one) and `isPublic` its public flag. */
module StorageService {
  import opened Wrappers
  import opened Seqs
  import opened Accounts

  /** The non-empty ids of `xs`. */
  ghost function Ids<T(!new)>(xs: seq<T>, id: T -> string): (r: set<string>)
    ensures forall k :: k in r <==> k != "" && exists x :: x in xs && id(x) == k
  {
    set x | x in xs && id(x) != "" :: id(x)
  }

  lemma IdsUncons<T(!new)>(xs: seq<T>, id: T -> string)
    requires xs != []
    ensures Ids(xs, id) == Mark({}, xs[0], id) + Ids(xs[1..], id)
  {
    assert forall x :: x in xs <==> x == xs[0] || x in xs[1..];
  }

  /** No two items share a non-empty id. */
  predicate UniqueIds<T>(xs: seq<T>, id: T -> string) {
    forall i, j :: 0 <= i < j < |xs| && id(xs[i]) != "" ==> id(xs[i]) != id(xs[j])
  }

  /** The first item of `xs` carrying id `k`. */
  function FirstWithId<T>(xs: seq<T>, k: string, id: T -> string): (r: Option<T>)
    ensures r.Some? ==> r.value in xs && id(r.value) == k
    ensures r.None? ==> forall x :: x in xs ==> id(x) != k
  {
    if xs == [] then None
    else if id(xs[0]) == k then Some(xs[0])
    else FirstWithId(xs[1..], k, id)
  }

  function Mark<T>(seen: set<string>, x: T, id: T -> string): set<string> {
    if id(x) != "" then seen + {id(x)} else seen
  }

  /** The loop of `mergeLists` from a given `seen` set: an item with an id
      already seen is skipped, any other item is kept. */
  function KeepFirst<T>(xs: seq<T>, seen: set<string>, id: T -> string): seq<T> {
    if xs == [] then []
    else if id(xs[0]) != "" && id(xs[0]) in seen then KeepFirst(xs[1..], Mark(seen, xs[0], id), id)
    else [xs[0]] + KeepFirst(xs[1..], Mark(seen, xs[0], id), id)
  }

  lemma {:induction false} KeepFirstSubseq<T(!new)>(xs: seq<T>, seen: set<string>, id: T -> string)
    ensures IsSubseq(KeepFirst(xs, seen, id), xs)
    ensures forall y :: y in KeepFirst(xs, seen, id) ==> y in xs
  {
    if xs != [] {
      var rest := KeepFirst(xs[1..], Mark(seen, xs[0], id), id);
      KeepFirstSubseq(xs[1..], Mark(seen, xs[0], id), id);
      var r := KeepFirst(xs, seen, id);
      if r != rest {
        assert r[0] == xs[0] && r[1..] == rest;
      }
    }
  }

  /** Kept ids are unseen and pairwise distinct. */
  lemma {:induction false} KeepFirstUnique<T(!new)>(xs: seq<T>, seen: set<string>, id: T -> string)
    ensures UniqueIds(KeepFirst(xs, seen, id), id)
    ensures forall y :: y in KeepFirst(xs, seen, id) && id(y) != "" ==> id(y) !in seen
  {
    if xs != [] {
      var m := Mark(seen, xs[0], id);
      var rest := KeepFirst(xs[1..], m, id);
      KeepFirstUnique(xs[1..], m, id);
      var r := KeepFirst(xs, seen, id);
      if r != rest {
        assert r == [xs[0]] + rest;
        forall i, j | 0 <= i < j < |r| && id(r[i]) != "" ensures id(r[i]) != id(r[j]) {
          if i == 0 {
            assert r[j] in rest;
          } else {
            assert r[i] == rest[i - 1] && r[j] == rest[j - 1];
          }
        }
      }
    }
  }

  /** A kept item with an id is the first item carrying it. */
  lemma {:induction false} KeepFirstIsFirst<T(!new)>(xs: seq<T>, seen: set<string>, id: T -> string)
    ensures forall y :: y in KeepFirst(xs, seen, id) && id(y) != "" ==> FirstWithId(xs, id(y), id) == Some(y)
  {
    if xs != [] {
      var m := Mark(seen, xs[0], id);
      var rest := KeepFirst(xs[1..], m, id);
      KeepFirstIsFirst(xs[1..], m, id);
      KeepFirstUnique(xs[1..], m, id);
      var r := KeepFirst(xs, seen, id);
      forall y | y in r && id(y) != "" ensures FirstWithId(xs, id(y), id) == Some(y) {
        if y in rest {
          assert id(y) !in m;
        } else {
          assert y == xs[0];
        }
      }
    }
  }

  /** Items without an id always survive, and the kept ids are the unseen ids. */
  lemma {:induction false} KeepFirstKeeps<T(!new)>(xs: seq<T>, seen: set<string>, id: T -> string)
    ensures forall x :: x in xs && id(x) == "" ==> x in KeepFirst(xs, seen, id)
    ensures Ids(KeepFirst(xs, seen, id), id) == Ids(xs, id) - seen
  {
    if xs != [] {
      var m := Mark(seen, xs[0], id);
      var rest := KeepFirst(xs[1..], m, id);
      KeepFirstKeeps(xs[1..], m, id);
      assert forall x :: x in xs <==> x == xs[0] || x in xs[1..];
      IdsUncons(xs, id);
      var r := KeepFirst(xs, seen, id);
      if r != rest {
        assert r == [xs[0]] + rest;
        IdsUncons(r, id);
        assert r[1..] == rest;
      }
    }
  }

  /** Walking a list in two pieces: the second piece skips the first
      piece's ids. */
  lemma {:induction false} KeepFirstAppend<T(!new)>(a: seq<T>, b: seq<T>, seen: set<string>, id: T -> string)
    ensures KeepFirst(a + b, seen, id) == KeepFirst(a, seen, id) + KeepFirst(b, seen + Ids(a, id), id)
  {
    if a == [] {
      assert a + b == b;
      assert seen + Ids(a, id) == seen;
    } else {
      var m := Mark(seen, a[0], id);
      assert (a + b)[0] == a[0] && (a + b)[1..] == a[1..] + b;
      KeepFirstAppend(a[1..], b, m, id);
      IdsUncons(a, id);
      assert m + Ids(a[1..], id) == seen + Ids(a, id);
      if id(a[0]) != "" && id(a[0]) in seen {
        assert KeepFirst(a + b, seen, id) == KeepFirst(a[1..] + b, m, id);
        assert KeepFirst(a, seen, id) == KeepFirst(a[1..], m, id);
      } else {
        assert KeepFirst(a + b, seen, id) == [a[0]] + KeepFirst(a[1..] + b, m, id);
        assert KeepFirst(a, seen, id) == [a[0]] + KeepFirst(a[1..], m, id);
      }
    }
  }

  /** `mergeLists(pub, priv)`. */
  function MergeLists<T(!new)>(pub: seq<T>, priv: seq<T>, id: T -> string): (r: seq<T>)
    ensures UniqueIds(r, id)
    ensures Ids(r, id) == Ids(priv, id) + Ids(pub, id)
    ensures forall x :: (x in priv || x in pub) && id(x) == "" ==> x in r
    ensures forall y :: y in r ==> y in priv || y in pub
    ensures forall y :: y in r && id(y) != "" ==> FirstWithId(priv + pub, id(y), id) == Some(y)
  {
    var r := KeepFirst(priv + pub, {}, id);
    KeepFirstSubseq(priv + pub, {}, id);
    KeepFirstUnique(priv + pub, {}, id);
    KeepFirstIsFirst(priv + pub, {}, id);
    KeepFirstKeeps(priv + pub, {}, id);
    assert forall x :: x in priv + pub <==> x in priv || x in pub;
    assert Ids(priv + pub, id) == Ids(priv, id) + Ids(pub, id);
    r
  }

  /** The merged list is the private list first, then the public items
      whose id the private list does not already carry. */
  lemma MergeListsPrivateFirst<T(!new)>(pub: seq<T>, priv: seq<T>, id: T -> string)
    ensures MergeLists(pub, priv, id) == KeepFirst(priv, {}, id) + KeepFirst(pub, Ids(priv, id), id)
  {
    KeepFirstAppend(priv, pub, {}, id);
    assert {} + Ids(priv, id) == Ids(priv, id);
  }

  /** On an id both lists carry, the private copy wins. */
  lemma {:induction false} MergeListsPrivateWins<T(!new)>(pub: seq<T>, priv: seq<T>, id: T -> string, y: T)
    requires y in MergeLists(pub, priv, id) && id(y) in Ids(priv, id)
    ensures FirstWithId(priv, id(y), id) == Some(y)
  {
    FirstWithIdAppend(priv, pub, id(y), id);
  }

  lemma {:induction false} FirstWithIdAppend<T>(a: seq<T>, b: seq<T>, k: string, id: T -> string)
    requires exists x :: x in a && id(x) == k
    ensures FirstWithId(a + b, k, id) == FirstWithId(a, k, id)
  {
    assert (a + b)[0] == a[0];
    if id(a[0]) != k {
      assert (a + b)[1..] == a[1..] + b;
      var x :| x in a && id(x) == k;
      assert x in a[1..];
      FirstWithIdAppend(a[1..], b, k, id);
    }
  }

  /** `splitByPublic`: public items and the rest, each in input order. */
  function SplitByPublic<T(==,!new)>(items: seq<T>, isPublic: T -> bool): (r: (seq<T>, seq<T>))
    ensures forall x :: x in r.0 ==> isPublic(x)
    ensures forall x :: x in r.1 ==> !isPublic(x)
    ensures multiset(r.0) + multiset(r.1) == multiset(items)
    ensures IsSubseq(r.0, items) && IsSubseq(r.1, items)
  {
    if items == [] then ([], [])
    else
      var rest := SplitByPublic(items[1..], isPublic);
      assert items == [items[0]] + items[1..];
      if isPublic(items[0]) then
        var r := ([items[0]] + rest.0, rest.1);
        assert r.0[1..] == rest.0;
        assert IsSubseq(r.1, items) by { SubseqOfSuffix(r.1, items, 1); }
        r
      else
        var r := (rest.0, [items[0]] + rest.1);
        assert r.1[1..] == rest.1;
        assert IsSubseq(r.0, items) by { SubseqOfSuffix(r.0, items, 1); }
        r
  }

  /** One storage write: the list and whether it goes to the public copy. */
  datatype Write<T> = Write(items: seq<T>, isPublic: bool)

  /** `saveScoped`: administrators store the private and the public items
      in their two copies; anyone else stores the whole list privately. */
  function SaveScoped<T(==,!new)>(user: Option<Account>, items: seq<T>, isPublic: T -> bool): (w: seq<Write<T>>)
    ensures user.Some? && IsAdministrator(user.value) ==>
              |w| == 2 && !w[0].isPublic && w[1].isPublic
              && (forall x :: x in w[1].items ==> isPublic(x)) && (forall x :: x in w[0].items ==> !isPublic(x))
              && multiset(w[0].items) + multiset(w[1].items) == multiset(items)
    ensures !(user.Some? && IsAdministrator(user.value)) ==> w == [Write(items, false)]
  {
    var parts := SplitByPublic(items, isPublic);
    if user.Some? && IsAdministrator(user.value) then [Write(parts.1, false), Write(parts.0, true)]
    else [Write(items, false)]
  }

  /** Reading back what an administrator saved gives every item again:
      ids of both copies, and with distinct ids, each item once. */
  lemma SaveThenMerge<T(!new)>(user: Account, items: seq<T>, isPublic: T -> bool, id: T -> string)
    requires IsAdministrator(user)
    ensures var w := SaveScoped(Some(user), items, isPublic);
            Ids(MergeLists(w[1].items, w[0].items, id), id) == Ids(items, id)
  {
    var w := SaveScoped(Some(user), items, isPublic);
    forall x | x in items ensures x in w[0].items || x in w[1].items {
      assert x in multiset(items);
    }
    forall x | x in w[0].items || x in w[1].items ensures x in items {
      assert x in multiset(w[0].items) + multiset(w[1].items);
    }
  }
}

=== FILE: text.dfy ===
/** String helpers shared by the backend (Python) and the frontend (TypeScript)
    models: whitespace trimming, splitting on a set of single-character
    separators, substring search, ASCII lower-casing, decimal rendering of
    integers and lexicographic comparison. Strings are `seq<char>`. */
module Text {

  /** The whitespace characters that both Python's `str.strip()` and
      JavaScript's `String.prototype.trim()` remove. */
  predicate IsSpace(c: char) {
    c == ' ' || c == '\t' || c == '\n' || c == '\r' || c == '\U{000B}' || c == '\U{000C}'
    || c == '\U{00A0}' || c == '\U{1680}' || ('\U{2000}' <= c <= '\U{200A}')
    || c == '\U{2028}' || c == '\U{2029}' || c == '\U{202F}' || c == '\U{205F}' || c == '\U{3000}'
  }

  predicate AllSpace(s: string) {
    forall k :: 0 <= k < |s| ==> IsSpace(s[k])
  }

  /** No character of `s` is one of `cs`. */
  predicate NoneIn(s: string, cs: set<char>) {
    forall k :: 0 <= k < |s| ==> s[k] !in cs
  }

  predicate AllNoneIn(ps: seq<string>, cs: set<char>) {
    forall i :: 0 <= i < |ps| ==> NoneIn(ps[i], cs)
  }

  function TrimLeft(s: string): (r: string)
    ensures |r| <= |s| && r == s[|s| - |r|..]
    ensures AllSpace(s[..|s| - |r|])
    ensures r == [] || !IsSpace(r[0])
  {
    if |s| > 0 && IsSpace(s[0]) then
      var t := s[1..];
      var r := TrimLeft(t);
      assert s[|s| - |r|..] == t[|t| - |r|..];
      assert AllSpace(s[..|s| - |r|]) by {
        var front := t[..|t| - |r|];
        var pre := s[..|s| - |r|];
        forall k | 0 <= k < |pre| ensures IsSpace(pre[k]) {
          if k > 0 {
            assert pre[k] == front[k - 1];
          }
        }
      }
      r
    else s
  }

  function TrimRight(s: string): (r: string)
    ensures |r| <= |s| && r == s[..|r|]
    ensures AllSpace(s[|r|..])
    ensures r == [] || !IsSpace(r[|r| - 1])
  {
    if |s| > 0 && IsSpace(s[|s| - 1]) then
      var t := s[..|s| - 1];
      var r := TrimRight(t);
      assert s[..|r|] == t[..|r|];
      assert AllSpace(s[|r|..]) by {
        var back := t[|r|..];
        var post := s[|r|..];
        forall k | 0 <= k < |post| ensures IsSpace(post[k]) {
          if k < |back| {
            assert post[k] == back[k];
          }
        }
      }
      r
    else s
  }

  /** `str.strip()` / `trim()`: the input without leading and trailing
      whitespace. The result is a slice of the input with only whitespace
      around it. */
  function Trim(s: string): (r: string)
    ensures |r| <= |s|
    ensures Trimmed(r)
    ensures r == [] <==> AllSpace(s)
    ensures exists i, j :: 0 <= i <= j <= |s| && r == s[i..j] && AllSpace(s[..i]) && AllSpace(s[j..])
  {
    TrimEmptyIffAllSpace(s);
    TrimIsSlice(s);
    var l := TrimLeft(s);
    var r := TrimRight(l);
    assert r == [] || r[0] == l[0];
    r
  }

  lemma {:induction false} TrimIsSlice(s: string)
    ensures exists i, j :: 0 <= i <= j <= |s| && TrimRight(TrimLeft(s)) == s[i..j] && AllSpace(s[..i]) && AllSpace(s[j..])
  {
    var l := TrimLeft(s);
    var r := TrimRight(l);
    SliceOfSlices(s, l, r);
    var i := |s| - |l|;
    assert r == s[i..i + |r|] && AllSpace(s[..i]) && AllSpace(s[i + |r|..]);
  }

  /** A front-trimmed tail, back-trimmed, is a slice with whitespace around it. */
  lemma {:induction false} SliceOfSlices(s: string, l: string, r: string)
    requires |l| <= |s| && l == s[|s| - |l|..] && AllSpace(s[..|s| - |l|])
    requires |r| <= |l| && r == l[..|r|] && AllSpace(l[|r|..])
    ensures r == s[|s| - |l|..|s| - |l| + |r|] && AllSpace(s[|s| - |l| + |r|..])
  {
    var i := |s| - |l|;
    var j := i + |r|;
    assert s[j..] == l[|r|..];
    assert r == s[i..j];
  }

  lemma TrimEmptyIffAllSpace(s: string)
    ensures TrimRight(TrimLeft(s)) == [] <==> AllSpace(s)
  {
    var l := TrimLeft(s);
    TrimLeftEmptyIff(s);
    TrimRightEmptyIff(l);
    if l != [] {
      assert !IsSpace(l[0]);
    }
  }

  lemma {:induction false} TrimLeftEmptyIff(s: string)
    ensures TrimLeft(s) == [] <==> AllSpace(s)
  {
    if |s| > 0 {
      if IsSpace(s[0]) {
        TrimLeftEmptyIff(s[1..]);
        assert TrimLeft(s) == TrimLeft(s[1..]);
        if AllSpace(s[1..]) {
          forall k | 0 <= k < |s| ensures IsSpace(s[k]) {
            if k > 0 {
              assert s[k] == s[1..][k - 1];
            }
          }
        }
      } else {
        assert TrimLeft(s) == s;
      }
    }
  }

  lemma {:induction false} TrimRightEmptyIff(s: string)
    ensures TrimRight(s) == [] <==> AllSpace(s)
  {
    if |s| > 0 {
      var t := s[..|s| - 1];
      if IsSpace(s[|s| - 1]) {
        TrimRightEmptyIff(t);
        assert TrimRight(s) == TrimRight(t);
        if AllSpace(t) {
          forall k | 0 <= k < |s| ensures IsSpace(s[k]) {
            if k < |t| {
              assert s[k] == t[k];
            }
          }
        }
      } else {
        assert TrimRight(s) == s;
      }
    }
  }

  lemma AllSpaceConcat(a: string, b: string)
    requires AllSpace(a) && AllSpace(b)
    ensures AllSpace(a + b)
  {
    forall k | 0 <= k < |a + b| ensures IsSpace((a + b)[k]) {
      if k >= |a| {
        assert (a + b)[k] == b[k - |a|];
      }
    }
  }

  /** Trimming adds no character: a string free of some characters stays free of them. */
  lemma TrimKeepsNoneIn(s: string, cs: set<char>)
    requires NoneIn(s, cs)
    ensures NoneIn(Trim(s), cs)
  {
    var l := TrimLeft(s);
    assert NoneIn(l, cs) by {
      forall k | 0 <= k < |l| ensures l[k] !in cs {
        assert l[k] == s[|s| - |l| + k];
      }
    }
  }

  /** Neither end of `s` is whitespace. */
  predicate Trimmed(s: string) {
    s == [] || (!IsSpace(s[0]) && !IsSpace(s[|s| - 1]))
  }

  /** A string that has nothing to trim is its own trim. */
  lemma TrimOfTrimmed(s: string)
    requires Trimmed(s)
    ensures Trim(s) == s
  {
  }

  lemma TrimIdempotent(s: string)
    ensures Trim(Trim(s)) == Trim(s)
  {
    TrimOfTrimmed(Trim(s));
  }

  /** Python's `re.split("[...]", s)` and JavaScript's `s.split(/[...]/)` for
      a character class of single characters: the maximal runs between
      separators, including empty ones. */
  function Split(s: string, seps: set<char>): (parts: seq<string>)
    ensures |parts| >= 1
    ensures forall i :: 0 <= i < |parts| ==> NoneIn(parts[i], seps)
  {
    if |s| == 0 then [""]
    else
      var rest := Split(s[1..], seps);
      if s[0] in seps then [""] + rest
      else [[s[0]] + rest[0]] + rest[1..]
  }

  function Concat(parts: seq<string>): string {
    if parts == [] then [] else parts[0] + Concat(parts[1..])
  }

  function RemoveChars(s: string, cs: set<char>): string {
    if s == [] then [] else (if s[0] in cs then [] else [s[0]]) + RemoveChars(s[1..], cs)
  }

  function CountChars(s: string, cs: set<char>): nat {
    if s == [] then 0 else (if s[0] in cs then 1 else 0) + CountChars(s[1..], cs)
  }

  /** Splitting loses exactly the separators: there is one part more than
      there are separators, and the parts glued together give back the input
      without its separators. */
  lemma {:induction false} SplitLosesOnlySeparators(s: string, seps: set<char>)
    ensures |Split(s, seps)| == CountChars(s, seps) + 1
    ensures Concat(Split(s, seps)) == RemoveChars(s, seps)
  {
    if |s| > 0 {
      var rest := Split(s[1..], seps);
      SplitLosesOnlySeparators(s[1..], seps);
      if s[0] !in seps {
        calc {
          Concat(Split(s, seps));
          Concat([[s[0]] + rest[0]] + rest[1..]);
          ([s[0]] + rest[0]) + Concat(rest[1..]);
          [s[0]] + (rest[0] + Concat(rest[1..]));
          [s[0]] + Concat(rest);
        }
      } else {
        assert Concat(Split(s, seps)) == "" + Concat(rest);
      }
    }
  }

  /** A separator splits the text around it into the parts of either side. */
  lemma {:induction false} SplitAtSeparator(a: string, c: char, b: string, seps: set<char>)
    requires c in seps
    ensures Split(a + [c] + b, seps) == Split(a, seps) + Split(b, seps)
  {
    if a == [] {
      assert a + [c] + b == [c] + b;
    } else {
      assert (a + [c] + b)[1..] == a[1..] + [c] + b;
      SplitAtSeparator(a[1..], c, b, seps);
    }
  }

  /** Text without separators is a single part. */
  lemma {:induction false} SplitWithoutSeparator(a: string, seps: set<char>)
    requires NoneIn(a, seps)
    ensures Split(a, seps) == [a]
  {
    if a != [] {
      SplitWithoutSeparator(a[1..], seps);
      assert [a[0]] + a[1..] == a;
    }
  }

  /** Trims every part and drops the empty ones
      (`.map(s => s.trim()).filter(Boolean)` / `[p.strip() for p in parts if p.strip()]`). */
  function CleanParts(ps: seq<string>): (r: seq<string>)
    ensures |r| <= |ps|
    ensures forall i :: 0 <= i < |r| ==> r[i] != [] && Trimmed(r[i])
  {
    if ps == [] then []
    else Cleaned(ps[0]) + CleanParts(ps[1..])
  }

  /** One part, trimmed, or nothing when it is blank. */
  function Cleaned(p: string): (r: seq<string>)
    ensures |r| <= 1
    ensures forall i :: 0 <= i < |r| ==> r[i] != [] && Trimmed(r[i])
  {
    var t := Trim(p);
    if t == [] then [] else [t]
  }

  lemma {:induction false} CleanPartsKeepsNoneIn(ps: seq<string>, cs: set<char>)
    requires AllNoneIn(ps, cs)
    ensures AllNoneIn(CleanParts(ps), cs)
  {
    if ps != [] {
      assert NoneIn(ps[0], cs);
      TrimKeepsNoneIn(ps[0], cs);
      assert AllNoneIn(Cleaned(ps[0]), cs);
      assert AllNoneIn(ps[1..], cs) by {
        forall i | 0 <= i < |ps[1..]| ensures NoneIn(ps[1..][i], cs) {
          assert ps[1..][i] == ps[i + 1];
        }
      }
      CleanPartsKeepsNoneIn(ps[1..], cs);
      AllNoneInAppend(Cleaned(ps[0]), CleanParts(ps[1..]), cs);
    }
  }

  lemma AllNoneInAppend(a: seq<string>, b: seq<string>, cs: set<char>)
    requires AllNoneIn(a, cs) && AllNoneIn(b, cs)
    ensures AllNoneIn(a + b, cs)
  {
    forall i | 0 <= i < |a + b| ensures NoneIn((a + b)[i], cs) {
      if i >= |a| {
        assert (a + b)[i] == b[i - |a|];
      } else {
        assert (a + b)[i] == a[i];
      }
    }
  }

  /** The trimmed, non-empty pieces of `s` between separators. */
  function Parts(s: string, seps: set<char>): (r: seq<string>)
    ensures forall i :: 0 <= i < |r| ==> r[i] != [] && Trimmed(r[i]) && NoneIn(r[i], seps)
  {
    var r := CleanParts(Split(s, seps));
    CleanPartsKeepsNoneIn(Split(s, seps), seps);
    r
  }

  lemma {:induction false} CleanPartsAppend(p: seq<string>, q: seq<string>)
    ensures CleanParts(p + q) == CleanParts(p) + CleanParts(q)
  {
    if p == [] {
      assert p + q == q;
    } else {
      var h := Cleaned(p[0]);
      assert (p + q)[0] == p[0] && (p + q)[1..] == p[1..] + q;
      calc {
        CleanParts(p + q);
        h + CleanParts(p[1..] + q);
        { CleanPartsAppend(p[1..], q); }
        h + (CleanParts(p[1..]) + CleanParts(q));
        { AppendAssoc(h, CleanParts(p[1..]), CleanParts(q)); }
        h + CleanParts(p[1..]) + CleanParts(q);
      }
    }
  }

  lemma AppendAssoc<T>(a: seq<T>, b: seq<T>, c: seq<T>)
    ensures a + (b + c) == a + b + c
  {
  }

  /** The parts on either side of a separator are the parts of the whole. */
  lemma PartsAtSeparator(a: string, c: char, b: string, seps: set<char>)
    requires c in seps
    ensures Parts(a + [c] + b, seps) == Parts(a, seps) + Parts(b, seps)
  {
    SplitAtSeparator(a, c, b, seps);
    CleanPartsAppend(Split(a, seps), Split(b, seps));
  }

  /** A non-empty, trimmed piece without separators is its own only part. */
  lemma PartsOfPart(a: string, seps: set<char>)
    requires a != [] && Trimmed(a) && NoneIn(a, seps)
    ensures Parts(a, seps) == [a]
  {
    SplitWithoutSeparator(a, seps);
    TrimOfTrimmed(a);
    assert CleanParts([a]) == [a] + CleanParts([]);
  }

  lemma PartsOfEmpty(seps: set<char>)
    ensures Parts("", seps) == []
  {
    assert Split("", seps) == [""];
    assert Trim("") == "";
  }

  /** The pieces glued together with `sep` between them (`sep.join(ps)` / `ps.join(sep)`). */
  function Join(ps: seq<string>, sep: char): string {
    if ps == [] then ""
    else if |ps| == 1 then ps[0]
    else ps[0] + [sep] + Join(ps[1..], sep)
  }

  /** A piece a separated list can hold: non-empty, trimmed, and free of
      separators. */
  predicate CleanPiece(p: string, seps: set<char>) {
    p != [] && Trimmed(p) && NoneIn(p, seps)
  }

  /** Splitting joined clean pieces gives the pieces back. */
  lemma {:induction false} PartsOfJoin(ps: seq<string>, sep: char, seps: set<char>)
    requires sep in seps
    requires forall i :: 0 <= i < |ps| ==> CleanPiece(ps[i], seps)
    ensures Parts(Join(ps, sep), seps) == ps
  {
    if ps == [] {
      PartsOfEmpty(seps);
    } else if |ps| == 1 {
      PartsOfPart(ps[0], seps);
    } else {
      var tail := ps[1..];
      assert forall i :: 0 <= i < |tail| ==> tail[i] == ps[i + 1];
      PartsOfJoin(tail, sep, seps);
      PartsOfJoinFront(ps, sep, seps);
    }
  }

  /** One more clean piece in front of a list that reads back correctly. */
  lemma {:induction false} PartsOfJoinFront(ps: seq<string>, sep: char, seps: set<char>)
    requires |ps| > 1 && sep in seps && CleanPiece(ps[0], seps)
    requires Parts(Join(ps[1..], sep), seps) == ps[1..]
    ensures Parts(Join(ps, sep), seps) == ps
  {
    var rest := Join(ps[1..], sep);
    assert Join(ps, sep) == ps[0] + [sep] + rest;
    PartsCons(ps[0], sep, rest, seps);
    assert [ps[0]] + ps[1..] == ps;
  }

  /** A clean piece and a separator in front of a text add the piece in
      front of the text's parts. */
  lemma {:induction false} PartsCons(a: string, sep: char, rest: string, seps: set<char>)
    requires sep in seps && CleanPiece(a, seps)
    ensures Parts(a + [sep] + rest, seps) == [a] + Parts(rest, seps)
  {
    PartsAtSeparator(a, sep, rest, seps);
    PartsOfPart(a, seps);
  }

  predicate StartsWith<T(==)>(s: seq<T>, p: seq<T>) {
    |p| <= |s| && s[..|p|] == p
  }

  /** JavaScript `s.includes(sub)` / Python `sub in s`. */
  predicate Contains(s: string, sub: string)
    decreases |s|
  {
    StartsWith(s, sub) || (|s| > 0 && Contains(s[1..], sub))
  }

  predicate OccursAt(s: string, sub: string, i: int) {
    0 <= i <= |s| - |sub| && s[i..i + |sub|] == sub
  }

  /** `Contains` is substring occurrence at some position. */
  lemma {:induction false} ContainsIsOccurrence(s: string, sub: string)
    ensures Contains(s, sub) <==> exists i :: OccursAt(s, sub, i)
    decreases |s|
  {
    if StartsWith(s, sub) {
      assert OccursAt(s, sub, 0);
    } else if |s| > 0 {
      ContainsIsOccurrence(s[1..], sub);
      if Contains(s[1..], sub) {
        var i :| OccursAt(s[1..], sub, i);
        assert s[i + 1..i + 1 + |sub|] == s[1..][i..i + |sub|];
        assert OccursAt(s, sub, i + 1);
      }
      if i :| OccursAt(s, sub, i) {
        assert i != 0;
        assert s[1..][i - 1..i - 1 + |sub|] == s[i..i + |sub|];
        assert OccursAt(s[1..], sub, i - 1);
      }
    }
  }

  function LowerChar(c: char): char {
    if 'A' <= c <= 'Z' then (c as int + 32) as char else c
  }

  /** `toLowerCase()` / `.lower()` on the ASCII letters. */
  function ToLower(s: string): (r: string)
    ensures |r| == |s|
    ensures forall k :: 0 <= k < |r| ==> !('A' <= r[k] <= 'Z')
    ensures forall k :: 0 <= k < |s| && !('A' <= s[k] <= 'Z') ==> r[k] == s[k]
    ensures forall k :: 0 <= k < |s| && 'A' <= s[k] <= 'Z' ==> r[k] as int == s[k] as int + 32
  {
    seq(|s|, k requires 0 <= k < |s| => LowerChar(s[k]))
  }

  /** Lower-casing works character by character, so it distributes over
      concatenation. */
  lemma {:induction false} ToLowerAppend(a: string, b: string)
    ensures ToLower(a + b) == ToLower(a) + ToLower(b)
  {
    var l, r := ToLower(a + b), ToLower(a) + ToLower(b);
    assert |l| == |r|;
    forall k | 0 <= k < |l|
      ensures l[k] == r[k]
    {
      if k < |a| {
        assert (a + b)[k] == a[k];
      } else {
        assert (a + b)[k] == b[k - |a|];
      }
    }
  }

  function DigitChar(d: int): char
    requires 0 <= d < 10
  {
    ('0' as int + d) as char
  }

  function DigitValue(c: char): int {
    c as int - '0' as int
  }

  predicate IsDigit(c: char) {
    '0' <= c <= '9'
  }

  /** Decimal rendering of a natural number, as `toString()` / `str()` produce it. */
  function NatToString(n: nat): (r: string)
    ensures |r| >= 1
    ensures forall k :: 0 <= k < |r| ==> IsDigit(r[k])
    ensures |r| > 1 ==> r[0] != '0'
  {
    if n < 10 then [DigitChar(n)] else NatToString(n / 10) + [DigitChar(n % 10)]
  }

  /** Decimal rendering of an integer, with a leading `-` when negative. */
  function IntToString(n: int): (r: string)
    ensures |r| >= 1
    ensures n < 0 <==> r[0] == '-'
  {
    if n < 0 then "-" + NatToString(-n) else NatToString(n)
  }

  function ParseDigits(s: string): int {
    if s == [] then 0 else ParseDigits(s[..|s| - 1]) * 10 + DigitValue(s[|s| - 1])
  }

  /** Reading the decimal rendering back gives the number. */
  lemma {:induction false} ParseNatToString(n: nat)
    ensures ParseDigits(NatToString(n)) == n
  {
    var s := NatToString(n);
    if n >= 10 {
      ParseNatToString(n / 10);
      assert s[..|s| - 1] == NatToString(n / 10);
    }
  }

  /** Lexicographic order on strings (`a <= b` on JavaScript strings). */
  predicate LexLe(a: string, b: string) {
    if |a| == 0 then true
    else if |b| == 0 then false
    else if a[0] < b[0] then true
    else if a[0] > b[0] then false
    else LexLe(a[1..], b[1..])
  }

  lemma {:induction false} LexLeTotal(a: string, b: string)
    ensures LexLe(a, b) || LexLe(b, a)
  {
    if |a| > 0 && |b| > 0 && a[0] == b[0] {
      LexLeTotal(a[1..], b[1..]);
    }
  }
}

=== FILE: trip_rows.dfy ===
/** The itinerary table the two planner front ends edit (the `DayRow`,
    item and `SavedTrip` shapes of types.ts). Money and quantities are
    integers; generated ids of detail items are not modelled. */
module TripRows {
  import opened Wrappers
  import opened Seqs

  /** A line of a day's hotel, transport, ticket, activity or other
      details. `variant` is the room type of a hotel line and the season
      (`low`/`high`) of a transport line. */
  datatype Detail = Detail(name: string, variant: string, quantity: int, price: int, sourcePublic: bool)

  /** The five cost categories of a day. */
  datatype Category = TransportCat | HotelCat | TicketCat | ActivityCat | OtherCat

  datatype Costs = Costs(transport: int, hotel: int, ticket: int, activity: int, other: int)

  /** `manualCostFlags`: a flagged cost was typed in by hand. */
  datatype Flags = Flags(transport: bool, hotel: bool, ticket: bool, activity: bool, other: bool)

  datatype DayRow = DayRow(
    dayIndex: int,
    date: string,
    route: string,
    transport: seq<string>,
    transportDetails: seq<Detail>,
    hotelDetails: seq<Detail>,
    ticketDetails: seq<Detail>,
    activityDetails: seq<Detail>,
    otherDetails: seq<Detail>,
    description: string,
    costs: Costs,
    manual: Flags)

  /** A stored itinerary; the settings and custom columns travel with the
      rows and are not modelled. */
  datatype SavedTrip = SavedTrip(
    id: string,
    name: string,
    timestamp: int,
    rows: seq<DayRow>,
    createdBy: Option<string>,
    lastModifiedBy: Option<string>,
    isPublic: bool)

  function CostOf(c: Costs, cat: Category): int {
    match cat
    case TransportCat => c.transport
    case HotelCat => c.hotel
    case TicketCat => c.ticket
    case ActivityCat => c.activity
    case OtherCat => c.other
  }

  function FlagOf(f: Flags, cat: Category): bool {
    match cat
    case TransportCat => f.transport
    case HotelCat => f.hotel
    case TicketCat => f.ticket
    case ActivityCat => f.activity
    case OtherCat => f.other
  }

  function DetailsOf(row: DayRow, cat: Category): seq<Detail> {
    match cat
    case TransportCat => row.transportDetails
    case HotelCat => row.hotelDetails
    case TicketCat => row.ticketDetails
    case ActivityCat => row.activityDetails
    case OtherCat => row.otherDetails
  }

  /** `date` of the row at 0-based position `i`: `startDate` plus `i` days
      when a start date is set, else empty. `addDays` is the calendar. */
  function DateAt(startDate: string, addDays: (string, int) -> string, i: int): string {
    if startDate == "" then "" else addDays(startDate, i)
  }

  /** `createEmptyRow`: a blank day with a chartered car as transport. */
  function EmptyRow(dayIndex: int, startDate: string, addDays: (string, int) -> string): (r: DayRow)
    ensures r.dayIndex == dayIndex && r.route == "" && r.costs == Costs(0, 0, 0, 0, 0)
  {
    DayRow(dayIndex, DateAt(startDate, addDays, dayIndex - 1), "", ["包车"], [], [], [], [], [], "",
           Costs(0, 0, 0, 0, 0), Flags(false, false, false, false, false))
  }

  /** Removes position `i`; a position outside the list removes nothing
      (`filter((_, j) => j !== i)`). */
  function RemoveAt<T>(xs: seq<T>, i: int): (r: seq<T>)
    ensures 0 <= i < |xs| ==> |r| == |xs| - 1
    ensures 0 <= i < |xs| ==> forall j :: 0 <= j < |r| ==> r[j] == xs[if j < i then j else j + 1]
    ensures !(0 <= i < |xs|) ==> r == xs
  {
    if 0 <= i < |xs| then xs[..i] + xs[i + 1..] else xs
  }

  // ---------------------------------------------------------------------
  // The saved-trip list
  // ---------------------------------------------------------------------

  /** The position of the first trip satisfying a name or id test. */
  function FindName(trips: seq<SavedTrip>, name: string): (r: Option<nat>)
    ensures r.Some? ==> r.value < |trips| && trips[r.value].name == name
                        && forall j :: 0 <= j < r.value ==> trips[j].name != name
    ensures r.None? ==> forall j :: 0 <= j < |trips| ==> trips[j].name != name
  {
    if trips == [] then None
    else if trips[0].name == name then Some(0)
    else
      var r := FindName(trips[1..], name);
      if r.Some? then Some(r.value + 1) else None
  }

  function FindId(trips: seq<SavedTrip>, id: string): (r: Option<nat>)
    ensures r.Some? ==> r.value < |trips| && trips[r.value].id == id
                        && forall j :: 0 <= j < r.value ==> trips[j].id != id
    ensures r.None? ==> forall j :: 0 <= j < |trips| ==> trips[j].id != id
  {
    if trips == [] then None
    else if trips[0].id == id then Some(0)
    else
      var r := FindId(trips[1..], id);
      if r.Some? then Some(r.value + 1) else None
  }

  /** `savedTrips.filter(t => t.id !== id)`. */
  function WithoutId(trips: seq<SavedTrip>, id: string): (r: seq<SavedTrip>)
    ensures forall j :: 0 <= j < |r| ==> r[j].id != id && r[j] in trips
    ensures forall t :: t in trips && t.id != id ==> t in r
    ensures IsSubseq(r, trips)
    ensures |r| == |trips| - CountId(trips, id)
  {
    if trips == [] then []
    else
      var rest := WithoutId(trips[1..], id);
      var r := (if trips[0].id == id then [] else [trips[0]]) + rest;
      WithoutStep(trips, id, rest, r);
      r
  }

  /** One step of the filter: the first trip is dropped or kept in front. */
  lemma {:induction false} WithoutStep(trips: seq<SavedTrip>, id: string, rest: seq<SavedTrip>, r: seq<SavedTrip>)
    requires trips != []
    requires forall j :: 0 <= j < |rest| ==> rest[j].id != id && rest[j] in trips[1..]
    requires forall t :: t in trips[1..] && t.id != id ==> t in rest
    requires IsSubseq(rest, trips[1..])
    requires |rest| == |trips| - 1 - CountId(trips[1..], id)
    requires r == (if trips[0].id == id then [] else [trips[0]]) + rest
    ensures forall j :: 0 <= j < |r| ==> r[j].id != id && r[j] in trips
    ensures forall t :: t in trips && t.id != id ==> t in r
    ensures IsSubseq(r, trips)
    ensures |r| == |trips| - CountId(trips, id)
  {
    assert trips == [trips[0]] + trips[1..];
    if trips[0].id == id {
      assert r == rest;
      SubseqOfTail(rest, trips[1..], trips);
    } else {
      SubseqCons(rest, trips);
    }
  }

  /** How many trips carry the id. */
  function CountId(trips: seq<SavedTrip>, id: string): (n: nat)
    ensures n <= |trips|
    ensures n == 0 <==> forall j :: 0 <= j < |trips| ==> trips[j].id != id
  {
    if trips == [] then 0
    else
      assert forall j :: 1 <= j < |trips| ==> trips[j] == trips[1..][j - 1];
      (if trips[0].id == id then 1 else 0) + CountId(trips[1..], id)
  }

  lemma {:induction false} CountWithoutId(trips: seq<SavedTrip>, id: string)
    ensures CountId(WithoutId(trips, id), id) == 0
  {
    if trips != [] {
      CountWithoutId(trips[1..], id);
      var head := if trips[0].id == id then [] else [trips[0]];
      CountAppend(head, WithoutId(trips[1..], id), id);
    }
  }

  lemma {:induction false} CountAppend(a: seq<SavedTrip>, b: seq<SavedTrip>, id: string)
    ensures CountId(a + b, id) == CountId(a, id) + CountId(b, id)
  {
    if a != [] {
      assert (a + b)[1..] == a[1..] + b;
      CountAppend(a[1..], b, id);
    } else {
      assert a + b == b;
    }
  }

  /** What saving did: stopped, or the new list and the id written. */
  datatype SaveOutcome = NameMissing | NotPermitted | Cancelled | Saved(trips: seq<SavedTrip>, targetId: string)

  /** The list after writing `t`: every other trip stays, `t` goes last and
      its id occurs once. */
  function Replace(trips: seq<SavedTrip>, t: SavedTrip): (r: seq<SavedTrip>)
    ensures r != [] && r[|r| - 1] == t
    ensures CountId(r, t.id) == 1
    ensures forall u :: u in trips && u.id != t.id ==> u in r
    ensures forall u :: u in r ==> u == t || (u in trips && u.id != t.id)
    ensures IsSubseq(r[..|r| - 1], trips)
  {
    var kept := WithoutId(trips, t.id);
    assert (kept + [t])[..|kept|] == kept;
    CountWithoutId(trips, t.id);
    CountAppend(kept, [t], t.id);
    kept + [t]
  }

  /** Writing a trip over the only trip, under its id, leaves just the new one. */
  lemma ReplaceOnly(prev: SavedTrip, t: SavedTrip)
    requires prev.id == t.id
    ensures Replace([prev], t) == [t]
  {
    assert WithoutId([prev], t.id) == [] + WithoutId([], t.id);
  }

}

=== FILE: wrappers.dfy ===
/** Optional values and results with an error value, used for the source's
    `None`/`undefined` values and its HTTP error returns. */
module Wrappers {

  datatype Option<+T> = None | Some(value: T) {

    /** The carried value, or `default` for `None`: the source's `x ?? d`
        and `x or d` on a value that is missing. */
    function GetOr(default: T): T {
      match this
      case Some(v) => v
      case None => default
    }
  }

  datatype Result<+R, +E> = Ok(value: R) | Err(error: E)
}
